=== FILE: README.md ===
# U-Bahn Sim Berlin installer — a Dafny model of its install engine

The U-Bahn Sim Berlin installer puts a set of Trainz assets into an existing
Trainz installation. It finds the installation through the Windows registry,
fetches the asset manifest from `dl.u7-trainz.de`, downloads each asset
archive, and hands every archive to the `TrainzUtil.exe` command line tool
(delete, install, commit). Afterwards it commits the rejected identifiers
once more, rewrites `trainzoptions.txt` and can patch the rail-joint sounds
out of `trainz.exe`. This project models the sequential decision logic of
that engine in Dafny and proves what it promises.

Every effect is an input. The network, the tool, the registry, the file
system, the user's stop button and the two worker threads are replaced by
values or scripts:
- the manifest is a `Result` of assets;
- the tool's replies are `Invocation`s (stdout lines and exit code, or a
  timeout);
- the download thread's observations are a script of events;
- the registry is a map from keys to subkeys, and the file system is the set
  of existing paths or a map from path to bytes.

Python exceptions are the `Errors.Exc` datatype. The helpers below the
installer return `Err(...)` on each raising path. An installation run ends
in an `Orchestrator.Outcome`: the reports shown, the exception that escapes
`_run_installer` if any, and whether the run blocks. It blocks because the
error handler calls `stop()`, and `stop()` waits in `queue.join()` for
queued archives that no consumer will take any more. So every error that reaches the handler
leaves its thread hanging. When the download thread hangs in its error
callback, no later download happens.

Modules, one file each:
- `Base`: options, results, JSON values, `list.remove`.
- `Errors`: the exceptions.
- `PyStr`: `strip`, `split`, `int()`, `isdigit`, `lower`, full-match
  anchors.
- `Kuids`: the `Kuid` string type.
- `TrainzConfig`: the `config.txt` parser and lookup.
- `TrainzUtil`: the tool's stdout protocol.
- `Urls`: `urlparse`/`unquote` as far as the download file name needs them.
- `Downloader`: the download client.
- `Patcher`: the byte patcher.
- `Discovery`: registry search.
- `Settings`: `Config` and `get_config`.
- `Assets`: manifest and URL rules.
- `Pipeline`: downscale rule, per-archive step and queue consumer.
- `PostInstall`: the retry and the options file.
- `ErrorReport`: the error handler.
- `Orchestrator`: one installation run.
- `Api`: the decisions of the JavaScript API object.

## Model

| member | source | states |
|---|---|---|
| Base.RemoveFirst | installer/installer.py:138 | `list.remove` succeeds iff the element is present, and then removes exactly one copy of it (multiset difference) |
| Base.RemoveFirstAt | installer/installer.py:138 | `list.remove` drops exactly the first occurrence and keeps the order of the rest |
| PyStr.Strip | usb_installer/trainz/trainzconfig.py:34 | `str.strip()`: no longer than the input, and neither end is whitespace |
| PyStr.SplitChar | usb_installer/trainz/trainzconfig.py:61-62 | `str.split(c)`: at least one part, and no part holds the separator |
| PyStr.JoinSplitChar | usb_installer/trainz/trainzconfig.py:61-62 | joining the parts of `str.split(c)` with the separator gives back the input |
| PyStr.SplitWsWords | installer/trainz/trainzutil.py:51 | every part of `str.split()` is a non-empty word without whitespace |
| PyStr.PyInt | usb_installer/trainz/trainzconfig.py:59-60 | `int(s)` accepts only text with something besides whitespace |
| PyStr.PyIntOfNumber | usb_installer/trainz/trainzconfig.py:59-60 | `int()` of a digit string is its decimal value |
| PyStr.PyIntOfNegative | usb_installer/trainz/trainzconfig.py:59-60 | `int()` of a minus sign and a digit string is the negated decimal value |
| PyStr.Lower | usb_installer/trainz/trainzconfig.py:12 | `str.lower()` on ASCII text: the length is kept and each letter `A`-`Z` becomes its lower-case letter, every other character is kept |
| PyStr.ReplaceChar | usb_installer/trainz/trainzconfig.py:92 | `str.replace(a, b)` keeps the length, turns each `a` into `b` and keeps every other character |
| Kuids.Unwrap | usb_installer/trainz/trainzconfig.py:8-9 | angle brackets are stripped only when the text both starts with `<` and ends with `>`; otherwise the text is unchanged |
| Kuids.MakeKuid | usb_installer/trainz/trainzconfig.py:7-12 | construction succeeds iff the unwrapped text matches one of the three identifier shapes, case-insensitively; the stored text is lower-cased and valid; any other text is an `AssertionError` |
| Kuids.Idempotent | usb_installer/trainz/trainzconfig.py:7-12 | `Kuid(Kuid(x)) == Kuid(x)` whenever `Kuid(x)` succeeds |
| Kuids.ReprRoundTrip | usb_installer/trainz/trainzconfig.py:8-15 | `Kuid(repr(k)) == k` for every valid identifier, because `repr` wraps it in angle brackets |
| Kuids.Repr | usb_installer/trainz/trainzconfig.py:14-15 | the text of an identifier wrapped in one `<` and one `>` |
| Kuids.AcceptsFormatted | usb_installer/trainz/trainzconfig.py:11 | `kuid:<a>:<b>` is accepted for any integer `a` and natural `b`, so the first number may be negative |
| Kuids.RejectsNegativeSecond | usb_installer/trainz/trainzconfig.py:11 | a negative second number is rejected: only the first number may carry a sign |
| Kuids.LowerPreservesMatch | usb_installer/trainz/trainzconfig.py:11-12 | lower-casing a matching text keeps it matching, so the stored text is itself a valid identifier |
| TrainzConfig.Classify | usb_installer/trainz/trainzconfig.py:53-62 | value typing: an error only for a bracketed, unquoted value that is not an identifier; an integer result is the literal's value |
| TrainzConfig.ClassifyQuoted | usb_installer/trainz/trainzconfig.py:53-54 | a quoted value becomes its inner text, whatever the inner text looks like (quoting beats every later rule) |
| TrainzConfig.ClassifyKuid | usb_installer/trainz/trainzconfig.py:55-56 | the `repr` of any identifier reads back as that identifier |
| TrainzConfig.ClassifyInt | usb_installer/trainz/trainzconfig.py:59-60 | the decimal text of any integer reads back as that integer |
| TrainzConfig.IntegerLiteralParses | usb_installer/trainz/trainzconfig.py:59-60 | every value the integer pattern matches is accepted by `int()`, so that branch never raises |
| TrainzConfig.NotDecimal | usb_installer/trainz/trainzconfig.py:57 | a value without a dot is never taken for a decimal |
| TrainzConfig.ClassifyDecimal | usb_installer/trainz/trainzconfig.py:57-58 | every decimal literal is kept as a decimal, whatever it holds besides |
| TrainzConfig.ClassifyList | usb_installer/trainz/trainzconfig.py:61-62 | an unquoted, unbracketed value with a comma is its comma-separated parts, which join back to the value |
| TrainzConfig.ClassifyText | usb_installer/trainz/trainzconfig.py:53-62 | a value that no rule matches (not quoted, not bracketed, not a number, no comma) stays the text itself |
| TrainzConfig.ClassifyWord | usb_installer/trainz/trainzconfig.py:53-62 | a value without digits or commas that starts with neither `"` nor `<` stays the text itself |
| TrainzConfig.LiteralShape | usb_installer/trainz/trainzconfig.py:57-60 | a number literal ends in a digit and holds no comma |
| TrainzConfig.CommaIsNotNumber | usb_installer/trainz/trainzconfig.py:57-62 | a value holding a comma is never a number literal, so the list rule is reached |
| TrainzConfig.DigitFreeIsNoNumber | usb_installer/trainz/trainzconfig.py:57-60 | a value without digits is never a number literal |
| TrainzConfig.LoneToken | usb_installer/trainz/trainzconfig.py:41-48 | a lone token never changes the data; it fails iff it is `}` with no open block, with `IndexError`; any token but `}` becomes the previous key; `}` closes the innermost block |
| TrainzConfig.Step | usb_installer/trainz/trainzconfig.py:33-72 | a blank or comment line leaves the parser unchanged |
| TrainzConfig.Parse | usb_installer/trainz/trainzconfig.py:19-72 | `TrainzConfig.__init__` over the lines of the file; stated line by line by `StepKeyValue`, `StepLoneToken`, `SkippedLinesIgnored` and `BraceBalance` |
| TrainzConfig.StepKeyValue | usb_installer/trainz/trainzconfig.py:39-72 | a line `key value` (key without spaces, not a comment; value stripped) assigns the classified value to `key` in the current section; a classification error or an assignment `TypeError` is raised |
| TrainzConfig.StepLoneToken | usb_installer/trainz/trainzconfig.py:39-48 | a stripped line of one word that is not a comment is handled as a lone token (section name, `{` or `}`) |
| TrainzConfig.ParseOneEntry | usb_installer/trainz/trainzconfig.py:19-72 | a file of one `key value` line parses to the map with that one top-level entry |
| TrainzConfig.Assign | usb_installer/trainz/trainzconfig.py:64-72 | a key is stored in the container at the current path; only the first path element or the key changes at top level; all other entries are kept; a non-map on the path is a `TypeError` |
| TrainzConfig.Meaningful | usb_installer/trainz/trainzconfig.py:34-37 | the lines that are not blank and not `;` comments after stripping |
| TrainzConfig.SkippedLinesIgnored | usb_installer/trainz/trainzconfig.py:34-37 | blank lines and comments never change the parse: parsing all lines equals parsing the meaningful ones |
| TrainzConfig.BraceBalance | usb_installer/trainz/trainzconfig.py:41-48 | a lone `{` then a lone `}` restores the path and data; `{` itself becomes the previous key |
| TrainzConfig.UnbalancedClose | usb_installer/trainz/trainzconfig.py:44-45 | a `}` with no open block raises `IndexError` |
| TrainzConfig.WalkAssigned | usb_installer/trainz/trainzconfig.py:64-84 | after storing a value under a block path, walking that path plus the key finds exactly that value |
| TrainzConfig.AssignThenGet | usb_installer/trainz/trainzconfig.py:64-84 | `get` on the dotted path of a stored key returns the value just stored, so a later duplicate overwrites |
| TrainzConfig.WalkStopsAtMissing | usb_installer/trainz/trainzconfig.py:74-84 | `get` returns the default at the first missing segment, whatever segments follow |
| TrainzConfig.DisplayEntry | usb_installer/trainz/trainzconfig.py:90-92 | a display entry exists iff one of `username`, `name`, `asset-filename` is present; it is `username` when present, else `name`, else `asset-filename` |
| TrainzConfig.Username | usb_installer/trainz/trainzconfig.py:90-92 | the display name has no `_`; it exists iff the first present entry is text; otherwise an `AttributeError` |
| TrainzConfig.UsernameFallback | usb_installer/trainz/trainzconfig.py:90-92 | without `username` the name falls back to `name`, then to `asset-filename`, with every `_` turned into a space |
| TrainzConfig.UsernameOfEntry | usb_installer/trainz/trainzconfig.py:90-92 | a text or identifier display entry gives its text with every `_` turned into a space, all other characters kept |
| TrainzConfig.UsernameFirst | usb_installer/trainz/trainzconfig.py:90-92 | a text `username` entry wins over `name` and `asset-filename` |
| TrainzConfig.KuidEntry | usb_installer/trainz/trainzconfig.py:86-88 | the `kuid` property is present iff the top-level `kuid` key is, and then it is that entry |
| TrainzConfig.Walk | usb_installer/trainz/trainzconfig.py:78-84 | an empty path gives the value itself; the only error is the `TypeError` of a membership test on a number |
| TrainzConfig.WalkStep | usb_installer/trainz/trainzconfig.py:78-82 | looking up a present first segment continues in the block found under it |
| TrainzConfig.Get | usb_installer/trainz/trainzconfig.py:74-84 | the only error of `get` is a `TypeError` |
| TrainzUtil.FirstFailure | installer/trainz/trainzutil.py:40-41 | the index of the first line starting with `-`, with no such line before it; none iff no line starts with `-` |
| TrainzUtil.FailureOf | installer/trainz/trainzutil.py:42 | a failure line raises `TrainzError`, or `IndexError` when it has no separator |
| TrainzUtil.FailureOfLine | installer/trainz/trainzutil.py:40-42 | a failure line `-<code> : <message>` raises `TrainzError` with the stripped message |
| TrainzUtil.RunCommand | installer/trainz/trainzutil.py:36-47 | the first failure line raises whatever the exit code; otherwise a non-zero code is a process error; otherwise the lines come back unchanged; a timeout raises |
| TrainzUtil.FailureLineRaises | installer/trainz/trainzutil.py:40-42 | a failure line preceded by plain lines raises `TrainzError` with the stripped message, whatever follows and whatever the exit code |
| TrainzUtil.PlainReply | installer/trainz/trainzutil.py:43-47 | a successful reply without failure lines is returned unchanged |
| TrainzUtil.BuildVersionReadsNumber | installer/trainz/trainzutil.py:49-51 | for a first line `word d rest` (`rest` empty or starting with whitespace) and no failure line after it, the build version is `int(d)`, or `ValueError` when `d` is not an integer |
| TrainzUtil.BuildVersionReadsDigits | installer/trainz/trainzutil.py:49-51 | a second word of decimal digits is read as its decimal value |
| TrainzUtil.BuildVersionOfInt | installer/trainz/trainzutil.py:49-51 | the decimal text of any integer after one word is read back as that integer |
| TrainzUtil.BuildVersion | installer/trainz/trainzutil.py:49-51 | a tool error propagates unchanged; a successful reply raises `IndexError` iff it is empty or its first line has fewer than two words, and `ValueError` iff the second word is no integer; otherwise the value is `int()` of the second word |
| TrainzUtil.Echo | installer/trainz/trainzutil.py:53-55 | a tool error propagates unchanged; the echo answer is true iff the stripped first line equals the message; an empty reply is an `IndexError` |
| TrainzUtil.EchoAnswers | installer/trainz/trainzutil.py:36-55 | for a reply with no failure line and exit code 0, the answer is whether its stripped first line is the message |
| TrainzUtil.EchoOfMessage | installer/trainz/trainzutil.py:53-55 | a tool that echoes a stripped message back answers true |
| TrainzUtil.BracketedId | installer/trainz/trainzutil.py:59 | found iff the line has a `<`; the result is a prefix of the text after the first `<`, ending at the first `<` or `>` after it (for `a<b<c>` it is `b`) |
| TrainzUtil.BracketedIdOf | installer/trainz/trainzutil.py:59 | when nothing before the first `<` holds a `<` and the identifier holds no bracket, the identifier is what is found |
| TrainzUtil.InstalledId | installer/trainz/trainzutil.py:57-63 | the extracted identifier never contains angle brackets |
| TrainzUtil.InstallReportsKuid | installer/trainz/trainzutil.py:57-63 | a reply line carrying `<kuid>` after any bracket-free prefix yields exactly that identifier |
| TrainzUtil.Acknowledge | installer/trainz/trainzutil.py:69-91 | true iff the command succeeded, false iff it ended in a process error; a tool failure or a timeout propagates unchanged |
| TrainzUtil.AcknowledgeRaisesOnFailureLine | installer/trainz/trainzutil.py:69-91 | a failure line is not turned into false: the acknowledgement raises `TrainzError` |
| TrainzUtil.AcknowledgePropagates | installer/trainz/trainzutil.py:69-91 | `commit`, `revert` and `delete` swallow only `CalledProcessError`; any other error of the tool propagates |
| TrainzUtil.StatusAsset | installer/trainz/trainzutil.py:93-100 | a tool error propagates unchanged; a decoded status needs a non-empty reply whose first line has a ` : ` separator |
| TrainzUtil.StatusOfLine | installer/trainz/trainzutil.py:93-100 | a reply line `<name> : <field> : <rest>` with a field of at least seven characters decodes to the flags of the field: flag `i` is set iff character `i` is the `i`-th letter of `EIADLMF` |
| TrainzUtil.StatusField | installer/trainz/trainzutil.py:100 | the encoder partner of the status flags: a seven-letter field |
| TrainzUtil.StatusFieldOfLine | installer/trainz/trainzutil.py:95 | the status field is the text between the first and the second ` : ` separator |
| TrainzUtil.FlagsOfField | installer/trainz/trainzutil.py:100 | flag `i` is set iff character `i` is the `i`-th letter of `EIADLMF`: decoding the encoded field gives the flags back |
| TrainzUtil.StatusRoundTrip | installer/trainz/trainzutil.py:93-100 | a `status` reply `<name> : <field> : <rest>` decodes to the flags its field encodes |
| TrainzUtil.ShortStatusRejected | installer/trainz/trainzutil.py:97-98 | a field shorter than seven characters raises `TrainzError` |
| Urls.LStripControls | usb_installer/downloader/client.py:45 | `urlparse` first drops exactly the leading characters up to and including space |
| Urls.RemoveUnsafe | usb_installer/downloader/client.py:45 | tab, carriage return and newline characters are removed and nothing else; a text without them is unchanged |
| Urls.SplitScheme | usb_installer/downloader/client.py:45 | the scheme is a lower-cased prefix starting with a letter and ending before a `:`; without a scheme the text is unchanged |
| Urls.SplitNetloc | usb_installer/downloader/client.py:45 | the network location is taken only after a leading `//` |
| Urls.Split | usb_installer/downloader/client.py:45 | the parsed path holds no query or fragment delimiter |
| Urls.LastSegment | usb_installer/downloader/client.py:45 | the last `/` segment of the path contains no `/` |
| Urls.LastSegmentAfterSlash | usb_installer/downloader/client.py:45 | the last segment of `dir/seg` is `seg` |
| Urls.PercentDecode | usb_installer/downloader/client.py:45 | `unquote` to bytes: at most four bytes per character |
| Urls.DecodeQuote | usb_installer/downloader/client.py:45 | percent-decoding inverts percent-encoding for any byte string |
| Urls.LocalNameOfHttpsUrl | usb_installer/downloader/client.py:45 | for a plain `https` URL, the local name is the percent-decoded last path segment, query excluded |
| Urls.LocalNameOfQuoted | usb_installer/downloader/client.py:45 | any file name, percent-encoded into a URL, comes back as the local name |
| Urls.LocalName | usb_installer/downloader/client.py:45 | the percent-decoded last path segment; its properties are stated by `LocalNameOfHttpsUrl` and `LocalNameOfQuoted` |
| Urls.PartName | usb_installer/downloader/client.py:46 | the temporary name is the local name followed by `.part` |
| Urls.PartNameInjective | usb_installer/downloader/client.py:46 | distinct local names have distinct temporary names |
| Downloader.LocalPath | usb_installer/downloader/client.py:45-46 | the renamed file and its temporary file are the name and its `.part` name |
| Downloader.RetryLoop | usb_installer/downloader/client.py:49-96 | no attempt when the retry budget is spent; at most `max_retries` attempts; a callback is about this URL and never follows a stop; an unstopped loop always ends in a callback |
| Downloader.RetriesExhausted | usb_installer/downloader/client.py:88-92 | `max_retries` request failures call the error callback exactly once, with the last error, after the last attempt |
| Downloader.SucceedsAfterFailures | usb_installer/downloader/client.py:82-92 | fewer request failures than the budget, then a success: one completion callback and no error callback |
| Downloader.OtherErrorEndsUrl | usb_installer/downloader/client.py:93-96 | any other exception calls the error callback once and ends the URL without retrying |
| Downloader.StopWhileStreaming | usb_installer/downloader/client.py:69-71 | a stop while streaming returns with no callback and no count; no later URL starts |
| Downloader.SuccessCounts | usb_installer/downloader/client.py:82-87 | a success raises `downloaded_count` by exactly one |
| Downloader.Completions | usb_installer/downloader/client.py:82-87 | no more completions than callbacks |
| Downloader.FailuresThen | usb_installer/downloader/client.py:88-92 | request failures short of the retry limit only add attempts and leave the rest of the loop as it was |
| Downloader.NextUrlAfterOtherError | usb_installer/downloader/client.py:93-96 | after an error that ends one URL, the next URL is still downloaded |
| Downloader.DownloadUrlEffect | usb_installer/downloader/client.py:44-96 | one URL adds at most `max_retries` attempts and at most one callback, about that URL; the count rises by the completions |
| Downloader.DownloadUrlsEffect | usb_installer/downloader/client.py:98-108 | the callbacks follow the URL list in order, at most one per URL |
| Downloader.DownloadUrl | usb_installer/downloader/client.py:44-96 | one URL: the retry loop unless already stopped; its effect is stated by `DownloadUrlEffect` |
| Downloader.DownloadUrls | usb_installer/downloader/client.py:98-108 | the URLs in list order, none started once stopped; its effect is stated by `DownloadUrlsEffect` and `StoppedIsFinal` |
| Downloader.Run | usb_installer/downloader/client.py:98-110 | the download thread from a fresh client; its bounds are stated by `RunBounds` |
| Downloader.StoppedIsFinal | usb_installer/downloader/client.py:104-106 | once stopped, no further URL changes anything |
| Downloader.RunBounds | usb_installer/downloader/client.py:40-42 | `downloaded_count <= total_count`; callbacks follow the URL order; attempts are at most `max_retries` per URL |
| Patcher.Matches | usb_installer/trainz/patcher.py:22-24 | every match start is at or after the search start and is an occurrence |
| Patcher.MatchesLeftmost | usb_installer/trainz/patcher.py:22-24 | `finditer`: the first match is the leftmost occurrence, none is found iff none exists, and the search resumes right after each match |
| Patcher.MatchesSpaced | usb_installer/trainz/patcher.py:22-24 | matches never overlap: each starts at least the pattern length after the previous |
| Patcher.OccurrenceIsHit | usb_installer/trainz/patcher.py:22-28 | every occurrence overlaps some match, so the scan steps over none |
| Patcher.HitIsCovered | usb_installer/trainz/patcher.py:22-28 | every overwritten byte lies inside an occurrence |
| Patcher.NopOutKeepsUncovered | usb_installer/trainz/patcher.py:22-28 | a byte inside no occurrence is kept |
| Patcher.NopOut | usb_installer/trainz/patcher.py:22-28 | the output has the input's length and only turns bytes into `0x90`; a byte becomes `0x90` exactly when it lies in one of the matches of `Matches` from position 0, and is kept otherwise |
| Patcher.NopOutLeavesNone | usb_installer/trainz/patcher.py:22-28 | no occurrence of a pattern free of `0x90` survives |
| Patcher.NopsCreateNoMatch | usb_installer/trainz/patcher.py:22-28 | overwriting with `0x90` never creates an occurrence of a pattern free of `0x90` |
| Patcher.PatchAll | usb_installer/trainz/patcher.py:18-31 | over the target list in order, every byte is kept or becomes `0x90` |
| Patcher.PatchAllKeepsUncovered | usb_installer/trainz/patcher.py:22-28 | bytes outside every occurrence of every target are unchanged |
| Patcher.PatchAllLeavesNone | usb_installer/trainz/patcher.py:22-28 | no target occurs anywhere in the patched output |
| Patcher.TargetsArePlain | usb_installer/trainz/patcher.py:6-15 | every encoded target is non-empty and free of `0x90` |
| Patcher.BackupPath | usb_installer/trainz/patcher.py:35 | the backup file is never the executable itself |
| Patcher.PatchWith | usb_installer/trainz/patcher.py:34-45 | patching succeeds iff the executable or its backup exists and neither is write-protected; `FileNotFoundError` iff neither exists; otherwise `PermissionError` |
| Patcher.PatchWithFiles | usb_installer/trainz/patcher.py:38-45 | the backup holds the original content, the executable is the patched original, and other files are untouched |
| Patcher.PatchWithIdempotent | usb_installer/trainz/patcher.py:38-45 | patching twice leaves the same files as patching once, since the backup is restored first |
| Patcher.PatchSoundsIdempotent | usb_installer/trainz/patcher.py:34-45 | `patch_sounds` is idempotent |
| Patcher.PatchSounds | usb_installer/trainz/patcher.py:34-45 | `patch_sounds` is `PatchWith` over the eight sound paths; its effect is stated by `PatchSoundsEffect` |
| Patcher.PatchSoundsEffect | usb_installer/trainz/patcher.py:34-45 | the patched executable derives from the original, contains no target, and keeps every byte outside the targets |
| Discovery.Location | usb_installer/trainz/__init__.py:15-27 | the per-user flag selects the current-user hive and the virtual store; the key always ends in the product path |
| Discovery.JoinPath | usb_installer/trainz/__init__.py:52 | the joined path starts with the folder and ends with the file |
| Discovery.Inspect | usb_installer/trainz/__init__.py:35-55 | the only exception of one subkey is the `AttributeError` of a numeric build |
| Discovery.InspectDecides | usb_installer/trainz/__init__.py:35-55 | a subkey qualifies iff its build is all ASCII digits in 37625..49933 and its install path and `bin\Trainz.exe` below it exist; a missing value abandons the key; a numeric build raises |
| Discovery.ScanKey | usb_installer/trainz/__init__.py:31-55 | the only error a key scan raises is the `AttributeError` of a numeric build |
| Discovery.Scan | usb_installer/trainz/__init__.py:56-57 | a missing registry key yields no path rather than an error |
| Discovery.FirstQualifyingWins | usb_installer/trainz/__init__.py:31-55 | the first qualifying subkey in enumeration order is returned |
| Discovery.NotFoundSkips | usb_installer/trainz/__init__.py:31-55 | a search that finds a path past the first subkey skipped that subkey |
| Discovery.ScanWitness | usb_installer/trainz/__init__.py:31-55 | a returned path is the install path of a qualifying subkey preceded only by skipped ones |
| Discovery.SearchOrder | usb_installer/trainz/__init__.py:19-27 | four keys, alternating local machine and current user |
| Discovery.FindFollowsOrder | usb_installer/trainz/__init__.py:59-67 | the retries visit the rest of the fixed search order, from the starting pair of flags on |
| Discovery.Find | usb_installer/trainz/__init__.py:15-67 | the only exception of the search is the `AttributeError` of a numeric build |
| Discovery.SearchesAllKeys | usb_installer/trainz/__init__.py:15-67 | the default call searches all four keys in order and stops at the first result or error |
| Discovery.EmptyRegistryFindsNothing | usb_installer/trainz/__init__.py:56-67 | when none of the keys exists, the result is no path |
| Settings.ParseVersion | usb_installer/config.py:11-13 | the download version admits exactly `full` and `low` |
| Settings.VersionRoundTrip | usb_installer/config.py:11-13 | every version reads back from its text |
| Settings.BoolField | usb_installer/config.py:20 | a boolean is kept; any rejection is a validation error |
| Settings.IntField | usb_installer/config.py:21 | a number is kept; any rejection is a validation error |
| Settings.StrField | usb_installer/config.py:17 | the language admits exactly strings |
| Settings.VersionField | usb_installer/config.py:19 | the version field admits exactly `"full"` and `"low"` |
| Settings.PathField | usb_installer/config.py:27-32 | null stays none; a string becomes its resolved path; anything else raises |
| Settings.Validate | usb_installer/config.py:16-32 | anything but an object is a validation error; the empty object gives the defaults (`de`, no path, `full`, false, 0); any error is a validation error or the path validator's `TypeError` |
| Settings.PathTypeErrorWins | usb_installer/config.py:27-32 | an install path that is neither a string nor null raises `TypeError` whatever the other fields hold, and `get_config` lets it escape |
| Settings.ValidateAccepts | usb_installer/config.py:16-25 | with a string, null or absent path, validation succeeds iff every other field is accepted, and fails only with a validation error |
| Settings.GetConfig | usb_installer/config.py:35-43 | a missing file gives the defaults; only a validation error is absorbed |
| Settings.GetConfigFallback | usb_installer/config.py:35-43 | a file that fails validation, or is not an object, gives the defaults; otherwise the validated settings or the decoding error |
| Settings.UnknownVersionFallsBack | usb_installer/config.py:11-13 | a stored version other than `full`/`low` makes the whole file fall back to the defaults |
| Settings.Dump | installer/api.py:37-38 | the dumped object has exactly the five camel-case keys |
| Settings.DumpRoundTrip | installer/api.py:37-43 | settings dumped and loaded again are the same settings, when the path is already resolved |
| Assets.ScriptsKuidIsNormal | installer/installer.py:35 | the scripts identifier literal is a valid, already normalised identifier |
| Assets.ManifestUrl | installer/installer.py:402-405 | the manifest URL gets `?revision=N` only when `N > 0` |
| Assets.ManifestRevision | installer/installer.py:402-403 | the revision reads back from the query of the manifest URL |
| Assets.AssetLocalName | installer/installer.py:62-63 | the downloader saves an asset's URL as `<file_id>.zip` |
| Assets.NewerThan | installer/installer.py:120 | the filter keeps exactly the assets with a revision above the bound |
| Assets.NewerThanAppend | installer/installer.py:120 | the filter distributes over concatenation, so it keeps manifest order |
| Assets.NewerThanIdempotent | installer/installer.py:120 | filtering twice with the same bound is filtering once |
| Assets.TakeScriptsSplits | installer/installer.py:128-138 | the first scripts asset is taken out and the rest keep their order; without one the list is unchanged |
| Assets.TakeScriptsSublist | installer/installer.py:128-138 | what is left came from the list, and at most one asset is gone |
| Assets.TakesOnlyFirstScripts | installer/installer.py:128-138 | when several scripts assets are listed, only the first is taken |
| Assets.AssetUrls | installer/installer.py:161 | one URL per asset, in order |
| Assets.AssetUrl | installer/installer.py:62-63 | `https://dl.u7-trainz.de/assets/<version>/<file_id>.zip?r=<revision>`; its file name is stated by `AssetLocalName` |
| Assets.AssetKuid | installer/installer.py:52-60 | a string becomes a valid identifier or a validation error; any other value raises `TypeError` |
| Pipeline.Suffix | installer/installer.py:310 | a file suffix is empty or a dot with at least one character, ending the name |
| Pipeline.SuffixOfDotted | installer/installer.py:310 | the suffix of `stem.ext` is `.ext` |
| Pipeline.ImageIgnoresCase | installer/installer.py:310 | a file is an image iff its lower-cased suffix is `.bmp`, `.jpg`, `.jpeg` or `.tga` |
| Pipeline.NewSize | installer/installer.py:317-320 | an image is resized iff both sides exceed 512, to the floor of half each side |
| Pipeline.DownscaleChanges | installer/installer.py:309-321 | a file changes iff it is a large image, and then both sides shrink; no side ever grows |
| Pipeline.Downscale | installer/installer.py:309-321 | a file keeps its name and gets the new size exactly when it is a large image |
| Pipeline.DownscaleAll | installer/installer.py:303-321 | every file of the archive is treated by the same rule |
| Pipeline.KuidArg | installer/installer.py:324 | the identifier handed to the tool exists iff the `kuid` entry is text or an identifier; otherwise `TypeError` |
| Pipeline.Identify | installer/installer.py:295-300 | an archive reaches the tool only when its `config.txt` parses and has both a display name and a `kuid` entry |
| Pipeline.Install | installer/installer.py:286-335 | delete, install, commit: a rejected commit records the identifier; the count and the deleted archives grow by one only when the step completes; any error comes from one of the steps |
| Pipeline.RejectedCommitIsRecorded | installer/installer.py:327-332 | a `TrainzError` on commit does not stop the archive: it is counted and its identifier recorded as failed |
| Pipeline.RunQueue | installer/installer.py:93-107 | the counters only grow, at most one per entry, and the count equals the deleted archives |
| Pipeline.QueueCounters | installer/installer.py:93-107 | the failed list and deleted archives only grow; the installed count grows by the number of archives deleted, at most one per entry |
| Pipeline.RunSteps | installer/installer.py:93-107 | the consumer loop for any step function; its properties are stated by `StepsStopAtMarker`, `StepsFifo` and `StepsAppend` |
| Pipeline.StepsFifo | installer/installer.py:93-107 | for any step that appends its archive, the archives are handled in queue order, a prefix up to the first stop |
| Pipeline.StepsAppend | installer/installer.py:93-107 | for any step, consuming a queue in two parts is consuming it at once |
| Pipeline.StepsStopAtMarker | installer/installer.py:97-99 | for any step, everything after a stopping entry is ignored |
| Pipeline.InstallAppendsArchive | installer/installer.py:286-335 | a successful install step records exactly its own archive as deleted |
| Pipeline.StopsAtMarker | installer/installer.py:97-99 | everything after the end marker or a cancellation is ignored |
| Pipeline.QueueIsFifo | installer/installer.py:93-107 | the archives are installed in queue order: a prefix up to the first stop |
| Pipeline.ErrorEndsQueue | installer/installer.py:101-105 | the first failing archive ends the consumer with its error, and nothing after it is installed |
| Pipeline.QueueAppend | installer/installer.py:93-107 | consuming a queue in two parts is consuming it at once |
| PostInstall.RetryKeepsRejected | installer/installer.py:213-219 | the retry loop keeps exactly the identifiers rejected again; removal never fails while they are in the list |
| PostInstall.RetryFailedResult | installer/installer.py:213-219 | after the retry the failed list is, as a multiset, the identifiers whose commit raised `TrainzError`; a false reply still removes one |
| PostInstall.Retry | installer/installer.py:213-219 | the retry loop from one position; its effect is stated by `RetryKeepsRejected` |
| PostInstall.RetryFailed | installer/installer.py:213-219 | the loop over a copy of the failed list; its effect is stated by `RetryFailedResult` |
| PostInstall.OptionLines | installer/installer.py:228-230 | the options kept are taken from the lines |
| PostInstall.OptionLinesWellFormed | installer/installer.py:228-230 | the kept options start with `-` and are stripped |
| PostInstall.ReadOptionsWellFormed | installer/installer.py:226-230 | reading any file gives well-formed options |
| PostInstall.ReadOptions | installer/installer.py:226-230 | the options of the file: lines starting with `-`, stripped; stated by `ReadOptionsWellFormed` and `ReadsBackWritten` |
| PostInstall.WriteOptions | installer/installer.py:246-249 | one line per option |
| PostInstall.ReadsBackWritten | installer/installer.py:226-249 | writing well-formed options and reading them again gives the same list |
| PostInstall.Ensure | installer/installer.py:232-244 | an option is appended only when requested and absent; nothing else changes |
| PostInstall.EnsureWellFormed | installer/installer.py:232-244 | appending a switch keeps the list well-formed |
| PostInstall.UpdateKeepsOptions | installer/installer.py:221-249 | after the rewrite, the requested switches are present, the old options are kept in order, and nothing else is added |
| PostInstall.UpdateIdempotent | installer/installer.py:221-249 | rewriting with the same options twice is rewriting once |
| PostInstall.UpdateOptions | installer/installer.py:221-249 | the rewrite for the two switches; stated by `UpdateKeepsOptions` and `UpdateIdempotent` |
| PostInstall.Run | installer/installer.py:210-253 | the run succeeds only if the keyboard copy does; the failed list is the retry's result; without options the options file and the executable are untouched; with options the file existed and is writable |
| PostInstall.RunWritesOptions | installer/installer.py:221-249 | with options given, the options file becomes the rewrite of its old content |
| PostInstall.RunWriteProtected | installer/installer.py:246-249 | a write-protected options file fails the step with `PermissionError` once the retry and the patch are through |
| ErrorReport.FirstCaught | installer/installer.py:272-281 | the reference if/elif chain: the first category whose test accepts; found iff some test accepts |
| ErrorReport.Classify | installer/installer.py:272-281 | each category is characterised by the exception alone: a request failure is no internet; permission and missing file by subclass; full disk needs a plain `OSError` with `ENOSPC`; everything else is unknown |
| ErrorReport.ClassifyIsFirstCaught | installer/installer.py:272-281 | the handler's choice is the first matching branch in the fixed order |
| ErrorReport.SubclassBeforeErrno | installer/installer.py:274-278 | a permission or missing-file error carrying `ENOSPC` is reported by its subclass, not as a full disk |
| ErrorReport.ReportOf | installer/installer.py:272-281 | only a missing connection has its own message type; every category has its own title |
| ErrorReport.Handle | installer/installer.py:268-284 | the report shown is that of the first matching branch; `nointernet` iff a request failure |
| Orchestrator.Done | installer/installer.py:204-208 | the closing message is success or warning, with the same title |
| Orchestrator.Prepare | installer/installer.py:113-145 | a request failure shows the missing-connection report; another error escapes; an empty filter shows "Keine Assets gefunden"; the run goes on iff there are assets, the scripts install worked and the echo matched; the assets go on without the scripts asset; only a handled scripts error blocks |
| Orchestrator.OnlyScriptsPrepared | installer/installer.py:127-145 | an update holding only a working scripts asset leaves an empty download list |
| Orchestrator.PreparedAssets | installer/installer.py:119-138 | the assets handed on come from the manifest, are newer than the revision, and lack at most one |
| Orchestrator.UntilFailure | installer/installer.py:157-159 | the callbacks before the first error callback, all completions, and that callback's error; the download thread blocks in its handler |
| Orchestrator.UntilFailureFinds | installer/installer.py:157-159 | the run meets an error callback iff the download produces one |
| Orchestrator.CompletedUrls | installer/installer.py:149-155 | one queued URL per completion callback |
| Orchestrator.QueueEntries | installer/installer.py:149-155 | one queue entry per completed download, none of them a stop |
| Orchestrator.QueueEntriesItems | installer/installer.py:149-155 | the k-th queue entry carries the archive of the k-th completed URL, in completion order |
| Orchestrator.Finish | installer/installer.py:186-208 | after the queue at most one report is shown; an error opening `assets.json` escapes with nothing shown; a handled post-install or dump error blocks; otherwise the closing message |
| Orchestrator.FinishReportsRetry | installer/installer.py:205-219 | the closing message is success iff every identifier rejected in the queue was accepted on the retry |
| Orchestrator.Consume | installer/installer.py:147-179 | no more archives are queued than there were callbacks |
| Orchestrator.Shown | installer/installer.py:101-105 | at most two reports, both from the error handler: an install error first, the error callback that blocks the download last; none iff neither happened |
| Orchestrator.Proceed | installer/installer.py:161-194 | as written: an error blocks the run; otherwise the progress division or the join may raise; otherwise post-install; stated by the lemmas below |
| Orchestrator.RunInstaller | installer/installer.py:109-208 | `_run_installer`: `Prepare`, then `Proceed`; stated by the lemmas below |
| Orchestrator.ErrorRunBlocks | installer/installer.py:97-107 | a failed download or a failed install blocks the run, shows one or two error reports and never the closing message |
| Orchestrator.FirstFailureShownLast | installer/installer.py:157-159 | the first error callback's report is the last shown |
| Orchestrator.HandledNeverDone | installer/installer.py:268-284 | no report of the error handler carries the closing title |
| Orchestrator.CleanRunFinishes | installer/installer.py:177-208 | a clean download and queue go on to post-install with the queue's failed list |
| Orchestrator.ConsumeNothing | installer/installer.py:161-179 | with no URL there is no callback and the queue stops at the marker with a fresh state |
| Orchestrator.OnlyScriptsAssetRaises | installer/installer.py:127-183 | as written: an update holding only the scripts asset ends with `ZeroDivisionError` when the installer polled the download thread, else `RuntimeError`, with nothing shown |
| Orchestrator.ProceedIntended | installer/installer.py:161-194 | with the division and the join guarded, only an error opening `assets.json` escapes, and the run agrees with the code whenever something was queued |
| Orchestrator.OnlyScriptsAssetFinishes | installer/installer.py:127-208 | with the guards, the scripts-only update goes on to post-install with nothing failed |
| Api.Init | installer/api.py:24-35 | installed assets are loaded iff the manifest copy exists; without either file the settings are the defaults |
| Api.InstalledAfterInit | installer/api.py:45-51 | right after start, the installer counts as installed iff both the settings file and the manifest copy exist |
| Api.IsInstalled | installer/api.py:45-51 | installed iff the settings file exists and the manifest copy was loaded; stated by `InstalledAfterInit` |
| Api.IsInstallationAborted | installer/api.py:53-55 | aborted iff the lock file exists; stated by `LockIsIndependent` |
| Api.LockIsIndependent | installer/api.py:53-55 | the abort answer is the lock file's presence, and the lock file changes nothing that is loaded |
| Api.AllExist | installer/api.py:93-95 | the loop accepts iff every file, joined to the folder, exists |
| Api.ValidateInstallPath | installer/api.py:89-100 | the answer is true iff all four required files exist; the path is saved, resolved, only when valid and saving was asked for |
| Api.MissingFileRejects | installer/api.py:89-100 | removing any one required file rejects the folder and leaves the API unchanged |
| Api.CheckForUpdates | installer/api.py:112-123 | no update iff HTTP 404; the server's last revision otherwise; any other error propagates; without a manifest copy the attribute access fails |
| Api.UpdateRequest | installer/api.py:114 | the request carries the installed revision, readable back from the URL, when it is positive |
| Api.StartInstall | installer/api.py:125-139 | the switches are popped with defaults false and 0, and a present `downscaleTextures` or `maxDownloads` is saved as its validated value, which the installer is built with; `fromRevision` is popped with default 0; the remaining options are forwarded unchanged; a rejected value is a validation error; a failed save stops the start; a missing `bin/TrainzUtil.exe` raises `FileNotFoundError` after the save |
| Api.StartSavesWhatLoads | installer/api.py:125-132 | the settings saved are those the next start loads |

## Left out

- Threads. The download thread and the queue thread are read
  sequentially, with the consumer keeping pace with the downloads. This
  assumes the bounded queue never fills up. After an install error the
  real consumer is gone, and the download thread could block on a full
  queue before it reaches a later error callback; the model does not show
  that case. Whether the installer polls the live download thread at least
  once is the input `polled`. `installer_thread.join()` and the download
  client's own `stop()` are not modelled, because `stop()` never gets past
  `queue.join()` once it has been called.
- The random sleeps, progress and speed figures, and the taskbar. These are
  floating point, timing and GUI. The one exception in the progress code that
  changes the run, the division by a zero URL count, is modelled.
- HTTP. The manifest, each download attempt and the scripts install are
  outcomes given as inputs. `install_scripts` (download, process scan,
  `close_trainz_database`, unzip) is one possible error.
- Subprocess execution, `psutil`, `winreg` beyond string and number values,
  file existence, zip extraction and temporary directories. These are
  inputs.
- `Kuids.MakeKuid`: `\d` and case-insensitive matching are restricted to
  ASCII digits and letters. Python also accepts other Unicode digits and
  case variants.
- `Urls.PercentDecode`: `unquote` is modelled to bytes. The final UTF-8
  decoding with replacement characters is not modelled, and neither are
  IPv6 brackets or UNC paths in `urlparse`.
- `TrainzConfig`: `readlines` and `splitlines` line splitting and newline
  translation are not modelled. The file is its list of lines. The
  encoding detection (`chardet`) and the float conversion of decimal values
  are not modelled; a decimal keeps its literal.
- `PostInstall.ReadOptions`: the file is split at `\n` only. Python's text
  mode also ends a line at a lone `\r` (`installer/installer.py:227-228`),
  so a file using `\r` line ends reads as fewer options than Python sees.
- `PyStr.Lower`: only ASCII letters are lowered. Python's `str.lower()`
  also lowers other letters (`"Ä"` becomes `"ä"`), and some mappings change
  the length (`"İ"` becomes two characters). It is applied only to text
  that matched the KUID pattern, so the gap is the Unicode case variants
  noted under `Kuids.MakeKuid`.
- `TrainzUtil.open_for_edit` and `install_cdp`. `install_cdp` uses the same
  extraction as `install_from_path`, which is modelled.
- `Pipeline.Downscale`: PIL decoding and bicubic resampling are not
  modelled. Only the size rule and the file-name rule are, and the `is_file`
  test is taken as given.
- `Settings.BoolField` and `Settings.IntField`: JSON numbers are integers
  only, so floats such as `1.0` (accepted by pydantic as `1`) and `1.5`
  (rejected) are not modelled. A string is accepted as an integer by the
  rule of Python's `int()`. Pydantic's own string rule differs in details
  that are not modelled: it also accepts `"1.0"`, and it treats underscores
  and surrounding whitespace differently.
- `Api.StartInstall`: the error path does not carry the settings object
  as partly assigned before the rejected value. The settings stay unsaved
  in that case. Whether `bin/TrainzUtil.exe` exists is the input
  `toolExists`. The `FileNotFoundError` that then escapes from
  `startInstall` is returned as `ToolMissing`, with the saved settings.
- The keyboard layout copy is a possible error only.
- Saving `assets.json` after post-install is two possible errors, as in
  `installer/installer.py:196-202`. An error opening the file escapes
  `_run_installer` unhandled. An error in `json.dump` goes to the error
  handler. What is written is not modelled.
- `Patcher.PatchWith`: of the file system errors of `patch_sounds` only two
  are modelled. A missing executable and backup give `FileNotFoundError`; a
  write-protected executable or backup (the set `locked`) gives
  `PermissionError`. A full disk or other `OSError`s are not modelled, and
  neither is a failing read of the backup.
- `PostInstall.Run`: reading `trainzoptions.txt` fails only when it is
  missing, and writing it fails only when it is write-protected (`locked`).
  Other read or write errors and the decoding of the file are not modelled.
- `Discovery.InspectDecides` and `Discovery.Inspect`: `str.isdigit` is
  modelled for ASCII digits only. Python's `isdigit` is also true for other
  Unicode digits. For superscript digits such as `"²"`, `isdigit` holds but
  `int()` raises `ValueError`, which would escape the registry search. That
  exception is not modelled.
- `TrainzConfig.IntegerLiteral` and `TrainzConfig.Classify`: the pattern
  `\d` matches ASCII digits only in the model. Python's `re` also matches
  other Unicode decimal digits.
- `PyStr.PyInt`: `int()` accepts ASCII digits only in the model. Python
  also accepts other Unicode decimal digits, such as fullwidth ones.
- `TrainzUtil.BuildVersion`: the version number is read with `PyStr.PyInt`,
  so the same ASCII restriction applies.
- `AssetsResponse` validation beyond the `kuid` field is not modelled.
- GUI members of the API: `isNvidiaGPU`, `isTrainzRunning`,
  `selectInstallPath`, `getConfig`'s JSON bridge and `startUpdate`-style
  window calls. Also `findInstallPath`, which only forwards to the modelled
  search with `check_user=False`.
- `Path.resolve` is a parameter `resolve`, since it depends on the file
  system.

Where the code and its description disagree, the model follows the code:
- In the download client, a download error other than a request error ends
  only that URL, and the outer loop goes on with the next URL. In the
  installer that does not happen: the error callback blocks the download
  thread in `stop()`, so the first error callback is the last callback.
- The downloaded archive is deleted only when its installation step
  completes.
- A `TrainzError` from `delete_asset` ends the queue consumer.
- An archive whose `config.txt` has no display name fails before the tool
  is called, because the progress message reads it.

## Findings

| source | as written | input that shows it | evidently intended | confidence | as-written member | corrected member |
|---|---|---|---|---|---|---|
| installer/installer.py:149-183 | with an empty URL list, `_update_download_progress` divides by `total_count == 0` (line 260) whenever the polling loop sees the download thread alive; otherwise the queue thread was never started, because only a completion starts it, and `queue_thread.join()` (line 179) raises | a manifest whose only asset newer than the installed revision is the scripts asset: after its removal no URL is left, and the run ends with `ZeroDivisionError` or `RuntimeError`, depending on timing, with nothing shown | the division is skipped for zero URLs and the join only waits for a started thread, so the run goes on to post-install and the closing message | medium, not executed | Orchestrator.OnlyScriptsAssetRaises | Orchestrator.OnlyScriptsAssetFinishes |

=== FILE: api.dfy ===
/** The decisions behind the installer's JavaScript API (`InstallerAPI` in
    installer/api.py): what it loads at start, whether a folder holds an
    installation, the update check, and how `startInstall` splits its
    options between the saved settings and the installer. The user-data
    directory is the set of file names present in it. */
module Api {
  import opened Base
  import opened Errors
  import opened Settings
  import opened Discovery
  import opened Assets
  import opened PyStr

  const ConfigName := "config.json"
  const AssetsName := "assets.json"
  const LockName := "assets.json.lock"

  /** The API object: its settings and, when `assets.json` was loaded, the
      last revision recorded in it. */
  datatype Api = Api(config: Config, installed: Option<int>)

  /** `__init__`: `assets.json` is loaded when present, and a failure to load
      it propagates; the settings come from `get_config`. `loadAssets` is
      the outcome of loading the file, `decoded` that of decoding
      `config.json`. */
  function Init(userData: set<string>, loadAssets: Result<int, Exc>, decoded: Result<Json, Exc>,
                resolve: string -> string): (r: Result<Api, Exc>)
    ensures r.Ok? ==> (r.value.installed.Some? <==> AssetsName in userData)
    ensures ConfigName !in userData && (AssetsName in userData ==> loadAssets.Ok?) ==> r.Ok? && r.value.config == Defaults
  {
    var installed :=
      if AssetsName in userData then
        (match loadAssets
         case Ok(n) => Ok(Some(n))
         case Err(e) => Err(e))
      else Ok(None);
    var file := if ConfigName in userData then Present(decoded) else Missing;
    match installed
    case Err(e) => Err(e)
    case Ok(n) =>
      match GetConfig(file, resolve)
      case Err(e) => Err(e)
      case Ok(c) => Ok(Api(c, n))
  }

  /** `isInstalled`. */
  function IsInstalled(userData: set<string>, api: Api): bool {
    ConfigName in userData && api.installed.Some?
  }

  /** `isInstallationAborted`. */
  function IsInstallationAborted(userData: set<string>): bool {
    LockName in userData
  }

  /** Right after start, the installer counts as installed exactly when both
      the settings file and the manifest copy are present. */
  lemma InstalledAfterInit(userData: set<string>, loadAssets: Result<int, Exc>, decoded: Result<Json, Exc>,
                           resolve: string -> string)
    requires Init(userData, loadAssets, decoded, resolve).Ok?
    ensures IsInstalled(userData, Init(userData, loadAssets, decoded, resolve).value)
        <==> (ConfigName in userData && AssetsName in userData)
  {
  }

  /** The lock file is neither of the other two files: a previous aborted
      run changes nothing the API loads, and the two questions are
      independent. */
  lemma LockIsIndependent(userData: set<string>, loadAssets: Result<int, Exc>, decoded: Result<Json, Exc>,
                          resolve: string -> string)
    ensures IsInstallationAborted(userData + {LockName})
    ensures !IsInstallationAborted(userData - {LockName})
    ensures Init(userData + {LockName}, loadAssets, decoded, resolve) == Init(userData - {LockName}, loadAssets, decoded, resolve)
  {
    assert LockName != ConfigName && LockName != AssetsName by {
      assert |LockName| != |ConfigName| && |LockName| != |AssetsName|;
    }
    assert ConfigName in userData + {LockName} <==> ConfigName in userData - {LockName};
    assert AssetsName in userData + {LockName} <==> AssetsName in userData - {LockName};
  }

  // ---------------------------------------------------------------------
  // Install path validation.

  const RequiredFiles: seq<string> := ["Trainz.exe", "bin/ContentManager.exe", "bin/Trainz.exe", "bin/TrainzUtil.exe"]

  /** The loop of `validateInstallPath`: every file, joined to the folder,
      exists; it returns at the first missing one. */
  function AllExist(path: string, files: seq<string>, fs: set<string>): (r: bool)
    ensures r <==> forall f :: f in files ==> JoinPath(path, f) in fs
  {
    if files == [] then true
    else if JoinPath(path, files[0]) !in fs then false
    else
      assert forall f :: f in files ==> f == files[0] || f in files[1..];
      AllExist(path, files[1..], fs)
  }

  /** `validateInstallPath(path, save_config)`: the answer, and the API after
      it. Assigning the path runs the settings' path validator, so the
      stored path is the resolved one. */
  function ValidateInstallPath(api: Api, fs: set<string>, path: string, saveConfig: bool,
                               resolve: string -> string): (r: (bool, Api))
    ensures r.0 <==> forall f :: f in RequiredFiles ==> JoinPath(path, f) in fs
    ensures r.1.installed == api.installed
    ensures r.1.config.installPath != api.config.installPath ==> r.0 && saveConfig
    ensures r.0 && saveConfig ==> r.1.config == api.config.(installPath := Some(resolve(path)))
  {
    if !AllExist(path, RequiredFiles, fs) then (false, api)
    else if saveConfig then (true, api.(config := api.config.(installPath := Some(resolve(path)))))
    else (true, api)
  }

  /** One missing required file is enough to reject the folder. */
  lemma MissingFileRejects(api: Api, fs: set<string>, path: string, saveConfig: bool, resolve: string -> string, i: nat)
    requires i < |RequiredFiles|
    ensures ValidateInstallPath(api, fs - {JoinPath(path, RequiredFiles[i])}, path, saveConfig, resolve) == (false, api)
  {
    assert RequiredFiles[i] in RequiredFiles;
  }

  // ---------------------------------------------------------------------
  // Update check.

  /** `checkForUpdates`: ask the server for the manifest from the installed
      revision on; `fetch(url)` is the `last_revision` of the answer or the
      error. Only an HTTP 404 means there is no update; any other failure
      propagates. Without a loaded manifest copy the attribute access fails. */
  function CheckForUpdates(api: Api, fetch: string -> Result<int, Exc>): (r: Result<Option<int>, Exc>)
    ensures api.installed.None? ==> r == Err(Builtin(AttributeError))
    ensures api.installed.Some? ==>
      var answer := fetch(ManifestUrl(api.installed.value));
      && (r == Ok(None) <==> answer == Err(RequestException(Some(404))))
      && (answer.Ok? <==> r.Ok? && r.value.Some?)
      && (answer.Ok? ==> r.value.value == answer.value)
      && (r.Err? ==> answer.Err? && r.error == answer.error && r.error != RequestException(Some(404)))
  {
    match api.installed
    case None => Err(Builtin(AttributeError))
    case Some(revision) =>
      match fetch(ManifestUrl(revision))
      case Ok(last) => Ok(Some(last))
      case Err(RequestException(Some(404))) => Ok(None)
      case Err(e) => Err(e)
  }

  /** The update request carries the installed revision, so the server
      lists only newer assets; a revision of zero or less asks for all. */
  lemma UpdateRequest(api: Api)
    requires api.installed.Some?
    ensures var url := ManifestUrl(api.installed.value);
      && (url == ManifestBase <==> api.installed.value <= 0)
      && (api.installed.value > 0 ==> PyInt(url[|ManifestBase| + |"?revision="|..]) == Some(api.installed.value))
  {
    if api.installed.value > 0 {
      ManifestRevision(api.installed.value);
    }
  }

  // ---------------------------------------------------------------------
  // Starting an installation.

  const FromRevisionKey := "fromRevision"

  /** How `startInstall` ends once the settings are assigned: saving them
      failed and a message box shows the error; the settings were saved but
      the installer could not be built because the tool is missing, and the
      error escapes; or the installer was started with the revision and the
      remaining options. */
  datatype Start =
    | SaveFailed(api: Api, error: Exc)
    | ToolMissing(api: Api, error: Exc)
    | Started(api: Api, fromRevision: Json, forwarded: map<string, Json>)

  /** `startInstall`: each assignment is validated (the settings validate on
      assignment), the two installer switches are popped with their
      defaults, the settings are saved (`saveError` is the outcome of
      writing them), and the revision is popped before the rest of the
      options are passed on. A rejected value raises before anything is
      saved. Building the installer builds a `TrainzUtil`, which raises
      `FileNotFoundError` when `bin/TrainzUtil.exe` is missing under the
      install path (`toolExists` is that test). */
  function StartInstall(api: Api, installPath: string, downloadVersion: string, options: map<string, Json>,
                        resolve: string -> string, saveError: Option<Exc>, toolExists: bool): (r: Result<Start, Exc>)
    ensures r.Err? ==> r.error == ValidationError
    ensures r.Ok? <==>
              && (downloadVersion == "full" || downloadVersion == "low")
              && Field(options, DownscaleKey, false, BoolField).Ok?
              && Field(options - {DownscaleKey}, MaxDownloadsKey, 0, IntField).Ok?
    ensures r.Ok? ==>
              var c := r.value.api.config;
              && c.language == api.config.language
              && c.installPath == Some(resolve(installPath))
              && VersionText(c.downloadVersion) == downloadVersion
              && (DownscaleKey !in options ==> !c.downscaleTextures)
              && (DownscaleKey in options ==> c.downscaleTextures == BoolField(options[DownscaleKey]).value)
              && (MaxDownloadsKey !in options ==> c.maxDownloads == 0)
              && (MaxDownloadsKey in options ==> c.maxDownloads == IntField(options[MaxDownloadsKey]).value)
              && r.value.api.installed == api.installed
    ensures r.Ok? ==> (r.value.SaveFailed? <==> saveError.Some?)
    ensures r.Ok? ==> (r.value.ToolMissing? <==> saveError.None? && !toolExists)
    ensures r.Ok? && r.value.ToolMissing? ==> r.value.error == OSError(FileNotFoundError, None)
    ensures r.Ok? && r.value.Started? ==>
              && r.value.forwarded.Keys == options.Keys - {DownscaleKey, MaxDownloadsKey, FromRevisionKey}
              && (forall k :: k in r.value.forwarded ==> r.value.forwarded[k] == options[k])
              && r.value.fromRevision == (if FromRevisionKey in options then options[FromRevisionKey] else JNum(0))
  {
    var c1 := api.config.(installPath := Some(resolve(installPath)));
    match VersionField(JStr(downloadVersion))
    case Err(e) => Err(e)
    case Ok(version) =>
      match Field(options, DownscaleKey, false, BoolField)
      case Err(e) => Err(e)
      case Ok(downscale) =>
        var rest1 := options - {DownscaleKey};
        match Field(rest1, MaxDownloadsKey, 0, IntField)
        case Err(e) => Err(e)
        case Ok(maxDownloads) =>
          var rest2 := rest1 - {MaxDownloadsKey};
          var saved := Api(c1.(downloadVersion := version, downscaleTextures := downscale, maxDownloads := maxDownloads), api.installed);
          if saveError.Some? then Ok(SaveFailed(saved, saveError.value))
          else if !toolExists then Ok(ToolMissing(saved, OSError(FileNotFoundError, None)))
          else
            var fromRevision := if FromRevisionKey in rest2 then rest2[FromRevisionKey] else JNum(0);
            Ok(Started(saved, fromRevision, rest2 - {FromRevisionKey}))
  }

  /** The settings `startInstall` saves are the ones the next start loads,
      provided resolving an already resolved path changes nothing. */
  lemma StartSavesWhatLoads(api: Api, installPath: string, downloadVersion: string, options: map<string, Json>,
                            resolve: string -> string, toolExists: bool)
    requires resolve(resolve(installPath)) == resolve(installPath)
    requires StartInstall(api, installPath, downloadVersion, options, resolve, None, toolExists).Ok?
    ensures var c := StartInstall(api, installPath, downloadVersion, options, resolve, None, toolExists).value.api.config;
      GetConfig(Present(Ok(Dump(c))), resolve) == Ok(c)
  {
    var c := StartInstall(api, installPath, downloadVersion, options, resolve, None, toolExists).value.api.config;
    DumpRoundTrip(c, resolve);
  }
}

=== FILE: assets.dfy ===
/** The asset manifest side of the installer (installer/installer.py): an
    asset's download URL, the manifest URL for an update, the revision
    filter, and taking the scripts asset out of the list. */
module Assets {
  import opened Base
  import opened Errors
  import opened PyStr
  import opened Kuids
  import opened Urls

  datatype Asset = Asset(username: string, kuid: Kuid, sha1: string, fileId: string, revision: int)

  const Host := "dl.u7-trainz.de"
  const ManifestBase := "https://dl.u7-trainz.de/api/assets.json"
  const ScriptsKuid := Kuid("kuid:1041339:100113")

  /** The scripts identifier's text is the formatted pair of its numbers. */
  lemma ScriptsText()
    ensures ScriptsKuid.text == Format(1041339, 100113)
  {
    ScriptsNumbers();
    assert Format(1041339, 100113) == "kuid:" + "1041339" + ":" + "100113";
    assert "kuid:" + "1041339" + ":" + "100113" == "kuid:1041339:100113";
  }

  /** The decimal texts of the scripts identifier's two numbers, built one
      digit at a time. */
  lemma ScriptsNumbers()
    ensures IntToString(1041339) == "1041339"
    ensures NatToString(100113) == "100113"
  {
    assert IntToString(1041339) == "1041339" by {
      assert NatToString(1) == "1";
      assert NatToString(10) == "10";
      assert NatToString(104) == "104";
      assert NatToString(1041) == "1041";
      assert NatToString(10413) == "10413";
      assert NatToString(104133) == "104133";
      assert NatToString(1041339) == "1041339";
    }
    assert NatToString(100113) == "100113" by {
      assert NatToString(1) == "1";
      assert NatToString(10) == "10";
      assert NatToString(100) == "100";
      assert NatToString(1001) == "1001";
      assert NatToString(10011) == "10011";
    }
  }

  /** The scripts identifier is what `Kuid` makes of its literal. */
  lemma ScriptsKuidIsNormal()
    ensures MakeKuid(ScriptsKuid.text) == Ok(ScriptsKuid)
  {
    ScriptsText();
    AcceptsFormatted(1041339, 100113);
  }

  /** `Asset.get_url`. */
  function AssetUrl(a: Asset, version: string): string {
    HttpsUrl(Host, "assets/" + version + "/" + a.fileId + ".zip", "r=" + IntToString(a.revision))
  }

  /** `get_assets`: the revision parameter is sent only for a positive
      revision. */
  function ManifestUrl(fromRevision: int): (r: string)
    ensures StartsWith(r, ManifestBase)
    ensures r == ManifestBase <==> fromRevision <= 0
  {
    if fromRevision > 0 then ManifestBase + "?revision=" + IntToString(fromRevision) else ManifestBase
  }

  /** The revision can be read back from the query of the manifest URL. */
  lemma ManifestRevision(fromRevision: int)
    requires fromRevision > 0
    ensures var r := ManifestUrl(fromRevision);
      r[|ManifestBase| + |"?revision="|..] == IntToString(fromRevision)
      && PyInt(r[|ManifestBase| + |"?revision="|..]) == Some(fromRevision)
  {
    IntToStringRoundTrip(fromRevision);
  }

  /** Percent-decoding a text without `%` is its UTF-8 encoding. */
  lemma {:induction false} DecodePlain(s: string)
    requires '%' !in s
    ensures PercentDecode(s) == Utf8(s)
  {
    if s != [] {
      DecodePlain(s[1..]);
    }
  }

  lemma HostIsPlain()
    ensures Safe(Host)
    ensures forall k :: 0 <= k < |Host| ==> !IsNetlocDelimiter(Host[k])
  {
  }

  lemma QueryIsPlain(n: int)
    ensures Safe("r=" + IntToString(n)) && '#' !in "r=" + IntToString(n)
  {
    var q := "r=" + IntToString(n);
    forall i | 0 <= i < |q| ensures q[i] != '#' && !Unsafe(q[i]) {
      if i >= 2 {
        if n < 0 {
          assert q[i] == '-' || q[i] == NatToString(-n)[i - 3];
        } else {
          assert q[i] == NatToString(n)[i - 2];
        }
      }
    }
  }

  /** A plain file id and version: the URL characters they must avoid. */
  predicate PlainPart(s: string) {
    Safe(s) && '?' !in s && '#' !in s && ';' !in s && '%' !in s
  }

  /** The downloader saves an asset under `<file_id>.zip`, the name the
      scripts installer builds by hand. */
  lemma AssetLocalName(a: Asset, version: string)
    requires PlainPart(a.fileId) && '/' !in a.fileId
    requires PlainPart(version)
    ensures LocalName(AssetUrl(a, version)) == Utf8(a.fileId + ".zip")
  {
    var dir := "assets/" + version;
    var seg := a.fileId + ".zip";
    assert "assets/" + version + "/" + a.fileId + ".zip" == dir + "/" + seg;
    HostIsPlain();
    QueryIsPlain(a.revision);
    SafeConcat("assets/", version);
    SafeConcat(a.fileId, ".zip");
    assert '%' !in seg;
    LocalNameOfHttpsUrl(Host, dir, seg, "r=" + IntToString(a.revision));
    DecodePlain(seg);
  }

  /** The assets newer than `fromRevision`, in manifest order. */
  function NewerThan(assets: seq<Asset>, fromRevision: int): (r: seq<Asset>)
    ensures forall a :: a in r <==> a in assets && a.revision > fromRevision
    ensures |r| <= |assets|
  {
    if assets == [] then []
    else (if assets[0].revision > fromRevision then [assets[0]] else []) + NewerThan(assets[1..], fromRevision)
  }

  /** Filtering distributes over concatenation, so it keeps the order. */
  lemma {:induction false} NewerThanAppend(a: seq<Asset>, b: seq<Asset>, fromRevision: int)
    ensures NewerThan(a + b, fromRevision) == NewerThan(a, fromRevision) + NewerThan(b, fromRevision)
  {
    if a != [] {
      assert (a + b)[0] == a[0];
      assert (a + b)[1..] == a[1..] + b;
      NewerThanAppend(a[1..], b, fromRevision);
    } else {
      assert a + b == b;
    }
  }

  /** Filtering twice with the same bound is filtering once. */
  lemma {:induction false} NewerThanIdempotent(assets: seq<Asset>, fromRevision: int)
    ensures NewerThan(NewerThan(assets, fromRevision), fromRevision) == NewerThan(assets, fromRevision)
  {
    if assets != [] {
      var head := if assets[0].revision > fromRevision then [assets[0]] else [];
      NewerThanIdempotent(assets[1..], fromRevision);
      NewerThanAppend(head, NewerThan(assets[1..], fromRevision), fromRevision);
    }
  }

  /** The index of the first asset carrying the scripts identifier. */
  function ScriptsIndex(assets: seq<Asset>): (r: Option<nat>)
    ensures r.Some? ==> r.value < |assets| && assets[r.value].kuid == ScriptsKuid
    ensures r.Some? ==> forall j :: 0 <= j < r.value ==> assets[j].kuid != ScriptsKuid
    ensures r.None? ==> forall j :: 0 <= j < |assets| ==> assets[j].kuid != ScriptsKuid
  {
    if assets == [] then None
    else if assets[0].kuid == ScriptsKuid then Some(0)
    else match ScriptsIndex(assets[1..])
      case None => None
      case Some(i) => Some(i + 1)
  }

  /** `next(... if asset.kuid == SCRIPTS_KUID)` and `assets.remove`: the
      scripts asset, if any, and the list without it. */
  function TakeScripts(assets: seq<Asset>): (r: (Option<Asset>, seq<Asset>)) {
    match ScriptsIndex(assets)
    case None => (None, assets)
    case Some(i) =>
      var a := assets[i];
      match RemoveFirst(assets, a)
      case Some(rest) => (Some(a), rest)
      case None => assert false; (None, assets)
  }

  /** The first scripts asset is taken out and the other assets keep their
      order; without one the list is unchanged. */
  lemma TakeScriptsSplits(assets: seq<Asset>)
    ensures var (s, rest) := TakeScripts(assets);
      && (s.None? ==> rest == assets && forall a :: a in assets ==> a.kuid != ScriptsKuid)
      && (s.Some? ==> exists i :: 0 <= i < |assets| && assets[i] == s.value && s.value.kuid == ScriptsKuid
                        && (forall j :: 0 <= j < i ==> assets[j].kuid != ScriptsKuid)
                        && rest == assets[..i] + assets[i + 1..])
  {
    match ScriptsIndex(assets)
    case None =>
    case Some(i) =>
      forall j | 0 <= j < i ensures assets[j] != assets[i] {
        assert assets[j].kuid != ScriptsKuid;
      }
      RemoveFirstAt(assets, i);
  }

  /** What is left after taking the scripts asset out was in the list, and
      at most one asset is gone. */
  lemma TakeScriptsSublist(assets: seq<Asset>)
    ensures var r := TakeScripts(assets);
      (forall a :: a in r.1 ==> a in assets) && |r.1| + 1 >= |assets|
  {
    match ScriptsIndex(assets)
    case None =>
    case Some(i) =>
      var rest := RemoveFirst(assets, assets[i]).value;
      assert TakeScripts(assets).1 == rest;
      assert |multiset(rest)| + 1 == |multiset(assets)|;
      forall a | a in rest ensures a in assets {
        assert a in multiset(rest);
        assert a in multiset(assets);
      }
  }

  /** Only one scripts asset is taken out, even when several are listed. */
  lemma TakesOnlyFirstScripts(before: seq<Asset>, s: Asset, after: seq<Asset>)
    requires forall a :: a in before ==> a.kuid != ScriptsKuid
    requires s.kuid == ScriptsKuid
    ensures TakeScripts(before + [s] + after) == (Some(s), before + after)
  {
    var xs := before + [s] + after;
    var i := |before|;
    assert xs[i] == s;
    forall j | 0 <= j < i ensures xs[j].kuid != ScriptsKuid && xs[j] != xs[i] {
      assert xs[j] == before[j];
    }
    assert ScriptsIndex(xs) == Some(i);
    RemoveFirstAt(xs, i);
    assert xs[..i] == before;
    assert xs[i + 1..] == after;
  }

  /** The URLs handed to the downloader, one per asset, in order. */
  function AssetUrls(assets: seq<Asset>, version: string): (r: seq<string>)
    ensures |r| == |assets|
    ensures forall i :: 0 <= i < |r| ==> r[i] == AssetUrl(assets[i], version)
  {
    if assets == [] then [] else [AssetUrl(assets[0], version)] + AssetUrls(assets[1..], version)
  }

  /** The `kuid` field validator of `Asset`: a string goes through `Kuid`,
      whose assertion failure becomes a validation error; any other value
      raises `TypeError`. */
  function AssetKuid(j: Json): (r: Result<Kuid, Exc>)
    ensures r.Ok? <==> j.JStr? && MakeKuid(j.s).Ok?
    ensures r.Ok? ==> Valid(r.value)
    ensures j.JStr? && r.Err? ==> r.error == ValidationError
    ensures !j.JStr? ==> r == Err(Builtin(TypeError))
  {
    match j
    case JStr(s) => if MakeKuid(s).Ok? then Ok(MakeKuid(s).value) else Err(ValidationError)
    case _ => Err(Builtin(TypeError))
  }
}

=== FILE: base.dfy ===
/** Shared value types: optional values, results that carry a raised exception,
    bytes, and the JSON values the browser front end passes to the API. */
module Base {

  datatype Option<+T> = None | Some(value: T)

  datatype Result<+T, +E> = Ok(value: T) | Err(error: E)

  newtype byte = b: int | 0 <= b < 0x100

  /** A JSON value as decoded by Python's json module (floating point numbers
      are not modelled; numbers are integers). */
  datatype Json =
    | JNull
    | JBool(b: bool)
    | JNum(n: int)
    | JStr(s: string)
    | JList(items: seq<Json>)
    | JObject(fields: map<string, Json>)

  /** Python truthiness of a decoded JSON value. */
  predicate Truthy(j: Json) {
    match j
    case JNull => false
    case JBool(b) => b
    case JNum(n) => n != 0
    case JStr(s) => |s| > 0
    case JList(items) => |items| > 0
    case JObject(fields) => |fields| > 0
  }

  /** `list.remove(x)`: drop the first element equal to `x`; `None` where
      Python raises `ValueError`. */
  function RemoveFirst<T(==)>(xs: seq<T>, x: T): (r: Option<seq<T>>)
    ensures r.Some? <==> x in xs
    ensures r.Some? ==> multiset(r.value) + multiset{x} == multiset(xs)
  {
    if xs == [] then None
    else
      assert xs == [xs[0]] + xs[1..];
      if xs[0] == x then Some(xs[1..])
      else match RemoveFirst(xs[1..], x)
        case None => None
        case Some(rest) => Some([xs[0]] + rest)
  }

  /** Removing the element at the first index where it occurs. */
  lemma {:induction false} RemoveFirstAt<T>(xs: seq<T>, i: nat)
    requires i < |xs|
    requires forall j :: 0 <= j < i ==> xs[j] != xs[i]
    ensures RemoveFirst(xs, xs[i]) == Some(xs[..i] + xs[i + 1..])
  {
    if i > 0 {
      var ys := xs[1..];
      assert ys[i - 1] == xs[i];
      forall j | 0 <= j < i - 1 ensures ys[j] != ys[i - 1] {
        assert ys[j] == xs[j + 1];
      }
      RemoveFirstAt(ys, i - 1);
      assert xs[0] != xs[i];
      assert RemoveFirst(xs, xs[i]) == Some([xs[0]] + (ys[..i - 1] + ys[i..]));
      ConsSplice(xs, i);
    } else {
      assert xs[..0] + xs[1..] == xs[1..];
    }
  }

  lemma ConsSplice<T>(xs: seq<T>, i: nat)
    requires 0 < i < |xs|
    ensures [xs[0]] + (xs[1..][..i - 1] + xs[1..][i..]) == xs[..i] + xs[i + 1..]
  {
    assert xs[1..][..i - 1] == xs[1..i];
    assert xs[1..][i..] == xs[i + 1..];
    assert [xs[0]] + xs[1..i] == xs[..i];
  }
}

=== FILE: discovery.dfy ===
/** Install-path discovery (`find_trainz_install_path` in
    usb_installer/trainz/__init__.py) over an abstract registry and file
    system: the registry maps a key to its enumerated subkeys, and the file
    system is the set of paths that exist. */
module Discovery {
  import opened Base
  import opened Errors
  import opened PyStr

  datatype Hive = LocalMachine | CurrentUser

  datatype RegKey = RegKey(hive: Hive, path: string)

  /** A registry value: a string (`REG_SZ`) or a number (`REG_DWORD`). */
  datatype RegValue = RegSz(s: string) | RegDword(n: int)

  /** One enumerated subkey with its two values; `None` is a missing value,
      for which `QueryValueEx` raises `FileNotFoundError`. */
  datatype Subkey = Subkey(name: string, productBuild: Option<RegValue>, installPath: Option<string>)

  type Registry = map<RegKey, seq<Subkey>>

  const MinBuild := 37625
  const MaxBuild := 49933

  const ProductKey := "Auran\\Products\\TrainzSimulator"
  const VirtualStore := "Software\\Classes\\VirtualStore\\Machine\\"

  /** The key searched for a given pair of flags: the 64-bit view adds
      `WOW6432Node`, the per-user view reads the virtual store. */
  function Location(check64: bool, checkUser: bool): (k: RegKey)
    ensures k.hive == (if checkUser then CurrentUser else LocalMachine)
    ensures EndsWith(k.path, ProductKey)
  {
    var view := "Software\\" + (if check64 then "WOW6432Node\\" else "");
    var store := if checkUser then VirtualStore else "";
    EndsWithAppend(store + view, ProductKey);
    RegKey(if checkUser then CurrentUser else LocalMachine, store + view + ProductKey)
  }

  lemma EndsWithAppend(a: string, b: string)
    ensures EndsWith(a + b, b)
  {
    assert (a + b)[|a + b| - |b|..] == b;
  }

  /** `os.path.join(a, b)` for a relative `b` on Windows: a backslash is
      inserted unless the part after a drive letter is empty or already ends
      in a separator. */
  function JoinPath(a: string, b: string): (r: string)
    ensures StartsWith(r, a) && EndsWith(r, b)
  {
    var tail := if |a| >= 2 && a[1] == ':' then a[2..] else a;
    if tail != [] && tail[|tail| - 1] != '\\' && tail[|tail| - 1] != '/' then a + "\\" + b else a + b
  }

  /** `os.path.join(p, "bin", "Trainz.exe")`. */
  function ExePath(p: string): string {
    JoinPath(JoinPath(p, "bin"), "Trainz.exe")
  }

  /** What inspecting one subkey decides: go on to the next, return its
      path, abandon the whole key (a missing value), or raise. */
  datatype Step = Skip | Found(path: string) | Abandon | Raise(error: Exc)

  /** A build string that names a supported product: all digits, inside the
      supported range. */
  predicate SupportedBuild(s: string) {
    IsNumber(s) && MinBuild <= DigitsValue(s) <= MaxBuild
  }

  /** The body of the subkey loop. A non-string build has no `isdigit` and
      raises `AttributeError`. */
  function Inspect(sub: Subkey, fs: set<string>): (r: Step)
    ensures r.Raise? ==> r.error == Builtin(AttributeError)
  {
    match sub.productBuild
    case None => Abandon
    case Some(RegDword(_)) => Raise(Builtin(AttributeError))
    case Some(RegSz(s)) =>
      if !IsNumber(s) then Skip
      else if !(MinBuild <= DigitsValue(s) <= MaxBuild) then Skip
      else match sub.installPath
        case None => Abandon
        case Some(p) =>
          if p !in fs then Skip
          else if ExePath(p) !in fs then Skip
          else Found(p)
  }

  /** What each outcome of one subkey means: it qualifies exactly when its
      build is supported and both its folder and the program in it exist; a
      missing value abandons the key; a numeric build raises. */
  lemma InspectDecides(sub: Subkey, fs: set<string>)
    ensures var r := Inspect(sub, fs);
      && (r.Found? <==>
            && sub.productBuild.Some? && sub.productBuild.value.RegSz?
            && SupportedBuild(sub.productBuild.value.s)
            && sub.installPath.Some? && sub.installPath.value in fs
            && ExePath(sub.installPath.value) in fs)
      && (r.Found? ==> r.path == sub.installPath.value)
      && (r.Abandon? <==>
            || sub.productBuild.None?
            || (sub.productBuild.value.RegSz? && SupportedBuild(sub.productBuild.value.s) && sub.installPath.None?))
      && (r.Raise? <==> sub.productBuild.Some? && sub.productBuild.value.RegDword?)
      && (r.Raise? ==> r.error == Builtin(AttributeError))
  {
  }

  /** The subkey loop with its `except FileNotFoundError`: the first decisive
      subkey settles the key. */
  function ScanKey(subs: seq<Subkey>, fs: set<string>): (r: Result<Option<string>, Exc>)
    ensures r.Err? ==> r.error == Builtin(AttributeError)
  {
    if subs == [] then Ok(None)
    else match Inspect(subs[0], fs)
      case Skip => ScanKey(subs[1..], fs)
      case Found(p) => Ok(Some(p))
      case Abandon => Ok(None)
      case Raise(e) => Err(e)
  }

  /** A key that does not exist yields no path rather than an error. */
  function Scan(reg: Registry, fs: set<string>, key: RegKey): (r: Result<Option<string>, Exc>)
    ensures key !in reg ==> r == Ok(None)
    ensures r.Err? ==> r.error == Builtin(AttributeError)
  {
    if key in reg then ScanKey(reg[key], fs) else Ok(None)
  }

  /** The position of a pair of flags in the search order. */
  function Rank(check64: bool, checkUser: bool): nat {
    (if check64 then 2 else 0) + (if checkUser then 1 else 0)
  }

  /** `find_trainz_install_path(check_64bit, check_user)` with its retries. */
  function Find(reg: Registry, fs: set<string>, check64: bool, checkUser: bool): (r: Result<Option<string>, Exc>)
    ensures r.Err? ==> r.error == Builtin(AttributeError)
    decreases 3 - Rank(check64, checkUser)
  {
    var r := Scan(reg, fs, Location(check64, checkUser));
    if r.Err? || r.value.Some? then r
    else if !checkUser then Find(reg, fs, check64, true)
    else if !check64 then Find(reg, fs, true, false)
    else Ok(None)
  }

  /** The four keys in the order they are searched. */
  function SearchOrder(): (keys: seq<RegKey>)
    ensures |keys| == 4
    ensures keys[0].hive == LocalMachine && keys[1].hive == CurrentUser
    ensures keys[2].hive == LocalMachine && keys[3].hive == CurrentUser
  {
    [Location(false, false), Location(false, true), Location(true, false), Location(true, true)]
  }

  /** The reference search: scan the keys in order, stop at the first path
      or error. */
  function FirstOf(reg: Registry, fs: set<string>, keys: seq<RegKey>): Result<Option<string>, Exc> {
    if keys == [] then Ok(None)
    else
      var r := Scan(reg, fs, keys[0]);
      if r.Err? || r.value.Some? then r else FirstOf(reg, fs, keys[1..])
  }

  /** Starting from any pair of flags, the retries visit the remaining keys
      of the search order and nothing else. */
  lemma {:induction false} FindFollowsOrder(reg: Registry, fs: set<string>, check64: bool, checkUser: bool)
    ensures Find(reg, fs, check64, checkUser) == FirstOf(reg, fs, SearchOrder()[Rank(check64, checkUser)..])
    decreases 3 - Rank(check64, checkUser)
  {
    var keys := SearchOrder()[Rank(check64, checkUser)..];
    var r := Scan(reg, fs, Location(check64, checkUser));
    assert keys[0] == Location(check64, checkUser);
    FirstOfStep(reg, fs, keys);
    if !checkUser {
      FindFollowsOrder(reg, fs, check64, true);
      assert keys[1..] == SearchOrder()[Rank(check64, true)..];
    } else if !check64 {
      FindFollowsOrder(reg, fs, true, false);
      assert keys[1..] == SearchOrder()[Rank(true, false)..];
    } else {
      assert keys[1..] == [];
    }
  }

  lemma FirstOfStep(reg: Registry, fs: set<string>, keys: seq<RegKey>)
    requires keys != []
    ensures var r := Scan(reg, fs, keys[0]);
      FirstOf(reg, fs, keys) == if r.Err? || r.value.Some? then r else FirstOf(reg, fs, keys[1..])
  {
  }

  /** The default call searches all four keys in order. */
  lemma SearchesAllKeys(reg: Registry, fs: set<string>)
    ensures Find(reg, fs, false, false) == FirstOf(reg, fs, SearchOrder())
  {
    FindFollowsOrder(reg, fs, false, false);
  }

  /** When no search key exists, the answer is no path. */
  lemma {:induction false} EmptyRegistryFindsNothing(reg: Registry, fs: set<string>, keys: seq<RegKey>)
    requires forall i :: 0 <= i < |keys| ==> keys[i] !in reg
    ensures FirstOf(reg, fs, keys) == Ok(None)
  {
    if keys != [] {
      EmptyRegistryFindsNothing(reg, fs, keys[1..]);
    }
  }

  /** A subkey that qualifies after only skipped subkeys is the answer. */
  lemma {:induction false} FirstQualifyingWins(subs: seq<Subkey>, fs: set<string>, i: nat)
    requires i < |subs| && Inspect(subs[i], fs).Found?
    requires forall j :: 0 <= j < i ==> Inspect(subs[j], fs) == Skip
    ensures ScanKey(subs, fs) == Ok(Some(subs[i].installPath.value))
  {
    if i > 0 {
      SkipsDrop(subs, fs, i);
      FirstQualifyingWins(subs[1..], fs, i - 1);
      SkipStep(subs, fs);
    } else {
      FoundStep(subs, fs);
    }
  }

  lemma SkipsDrop(subs: seq<Subkey>, fs: set<string>, i: nat)
    requires 0 < i < |subs| && Inspect(subs[i], fs).Found?
    requires forall j :: 0 <= j < i ==> Inspect(subs[j], fs) == Skip
    ensures Inspect(subs[1..][i - 1], fs).Found? && subs[1..][i - 1] == subs[i]
    ensures forall j :: 0 <= j < i - 1 ==> Inspect(subs[1..][j], fs) == Skip
  {
    forall j | 0 <= j < i - 1 ensures Inspect(subs[1..][j], fs) == Skip {
      assert subs[1..][j] == subs[j + 1];
    }
  }

  lemma SkipStep(subs: seq<Subkey>, fs: set<string>)
    requires subs != [] && Inspect(subs[0], fs) == Skip
    ensures ScanKey(subs, fs) == ScanKey(subs[1..], fs)
  {
  }

  lemma FoundStep(subs: seq<Subkey>, fs: set<string>)
    requires subs != [] && Inspect(subs[0], fs).Found?
    ensures ScanKey(subs, fs) == Ok(Some(subs[0].installPath.value))
  {
    InspectDecides(subs[0], fs);
  }

  /** Every path the scan returns came from a qualifying subkey that only
      skipped subkeys precede. */
  lemma {:induction false} ScanWitness(subs: seq<Subkey>, fs: set<string>) returns (i: nat)
    requires ScanKey(subs, fs).Ok? && ScanKey(subs, fs).value.Some?
    ensures i < |subs| && Inspect(subs[i], fs).Found?
    ensures subs[i].installPath == ScanKey(subs, fs).value
    ensures forall j :: 0 <= j < i ==> Inspect(subs[j], fs) == Skip
  {
    assert subs != [];
    if Inspect(subs[0], fs).Found? {
      FoundStep(subs, fs);
      i := 0;
    } else {
      NotFoundSkips(subs, fs);
      var rest := subs[1..];
      var k := ScanWitness(rest, fs);
      i := k + 1;
      assert subs[i] == rest[k];
      SkipsShift(subs, fs, k);
    }
  }

  lemma SkipsShift(subs: seq<Subkey>, fs: set<string>, k: nat)
    requires k < |subs| - 1
    requires Inspect(subs[0], fs) == Skip
    requires forall j :: 0 <= j < k ==> Inspect(subs[1..][j], fs) == Skip
    ensures forall j :: 0 <= j < k + 1 ==> Inspect(subs[j], fs) == Skip
  {
    forall j | 0 < j < k + 1 ensures Inspect(subs[j], fs) == Skip {
      assert subs[j] == subs[1..][j - 1];
    }
  }

  /** A scan that finds a path past the first subkey skipped that subkey. */
  lemma NotFoundSkips(subs: seq<Subkey>, fs: set<string>)
    requires subs != [] && ScanKey(subs, fs).Ok? && ScanKey(subs, fs).value.Some?
    requires !Inspect(subs[0], fs).Found?
    ensures Inspect(subs[0], fs) == Skip && ScanKey(subs[1..], fs) == ScanKey(subs, fs)
  {
  }
}

=== FILE: downloader.dfy ===
/** The download client (usb_installer/downloader/client.py): each URL is
    tried up to `max_retries` times until it succeeds, fails for a reason
    other than the request, or the stop flag is seen. The network, the file
    writes and the thread that sets the stop flag are replaced by a script:
    the sequence of events the client observes, in order. */
module Downloader {
  import opened Base
  import opened Errors
  import opened Urls

  /** How one request attempt ends. `Raised` carries the exception; whether
      it is a `RequestException` decides between retry and giving up. */
  datatype Attempt = Succeeded | Raised(error: Exc) | StoppedWhileStreaming

  /** The next thing the client observes: the stop flag being set, or the
      outcome of the attempt it starts. The end of the script reads as a stop. */
  datatype Event = StopRequested | Attempted(outcome: Attempt)

  /** A call of the completion callback or of the error callback. The
      completion callback's second argument, the file the `.part` file was
      renamed to, is `LocalPath` of it: a function of the URL alone. */
  datatype Callback = Completed(url: string) | Failed(url: string, error: Exc)

  /** The downloaded file a completion callback reports, and the temporary
      file it was renamed from. */
  function LocalPath(cb: Callback): (r: (seq<byte>, seq<byte>))
    requires cb.Completed?
    ensures r.1 == PartName(r.0)
  {
    var name := LocalName(cb.url);
    (name, PartName(name))
  }

  /** The client's observable state: `downloaded_count`, the stop flag, the
      URLs of the attempts started and the callbacks made, in order. */
  datatype Client = Client(downloaded: nat, stopped: bool, attempts: seq<string>, callbacks: seq<Callback>)

  const DefaultMaxRetries := 5

  const Idle := Client(0, false, [], [])

  /** `total_count`. */
  function TotalCount(urls: seq<string>): nat {
    |urls|
  }

  function Repeat(url: string, n: nat): (r: seq<string>)
    ensures |r| == n && forall i :: 0 <= i < n ==> r[i] == url
  {
    seq(n, _ => url)
  }

  /** The number of completion callbacks. */
  function Completions(cbs: seq<Callback>): (n: nat)
    ensures n <= |cbs|
  {
    if cbs == [] then 0 else (if cbs[0].Completed? then 1 else 0) + Completions(cbs[1..])
  }

  lemma CompletionsAppend(a: seq<Callback>, b: seq<Callback>)
    ensures Completions(a + b) == Completions(a) + Completions(b)
  {
    if a != [] {
      assert (a + b)[1..] == a[1..] + b;
    } else {
      assert a + b == b;
    }
  }

  function Attempts(maxRetries: int, retries: nat): nat {
    if retries < maxRetries then maxRetries - retries else 0
  }

  /** What one URL's retry loop did: attempts started, the callback made (if
      any), and whether it ended because the stop flag was seen. */
  datatype UrlResult = UrlResult(tries: nat, callback: Option<Callback>, stopped: bool)

  /** The `while` loop of `_download_url` from `retries` failed attempts on.
      Returns what happened and the unconsumed script. */
  function RetryLoop(url: string, maxRetries: int, retries: nat, script: seq<Event>): (r: (UrlResult, seq<Event>))
    ensures retries >= maxRetries ==> r == (UrlResult(0, None, false), script)
    ensures r.0.tries <= Attempts(maxRetries, retries)
    ensures r.0.callback.Some? ==> r.0.callback.value.url == url && !r.0.stopped
    ensures retries < maxRetries && !r.0.stopped ==> r.0.callback.Some?
    decreases |script|
  {
    if retries >= maxRetries then (UrlResult(0, None, false), script)
    else if script == [] then (UrlResult(0, None, true), script)
    else match script[0]
      case StopRequested => (UrlResult(0, None, true), script[1..])
      case Attempted(Succeeded) =>
        (UrlResult(1, Some(Completed(url)), false), script[1..])
      case Attempted(StoppedWhileStreaming) =>
        (UrlResult(1, None, true), script[1..])
      case Attempted(Raised(e)) =>
        if e.RequestException? && retries + 1 < maxRetries then
          var r := RetryLoop(url, maxRetries, retries + 1, script[1..]);
          (r.0.(tries := r.0.tries + 1), r.1)
        else
          (UrlResult(1, Some(Failed(url, e)), false), script[1..])
  }

  function CallbackList(cb: Option<Callback>): seq<Callback> {
    match cb case Some(x) => [x] case None => []
  }

  /** The client after one URL's loop. */
  function Apply(c: Client, url: string, res: UrlResult): (r: Client)
    ensures c.attempts <= r.attempts && c.callbacks <= r.callbacks
    ensures r.downloaded == c.downloaded + Completions(r.callbacks[|c.callbacks|..])
  {
    var cbs := CallbackList(res.callback);
    assert (c.callbacks + cbs)[|c.callbacks|..] == cbs;
    assert cbs != [] ==> cbs[1..] == [];
    Client(c.downloaded + Completions(cbs), c.stopped || res.stopped,
           c.attempts + Repeat(url, res.tries), c.callbacks + cbs)
  }

  /** `_download_url`; nothing happens once the stop flag is set. */
  function DownloadUrl(url: string, maxRetries: int, c: Client, script: seq<Event>): (r: (Client, seq<Event>)) {
    if c.stopped then (c, script)
    else
      var r := RetryLoop(url, maxRetries, 0, script);
      (Apply(c, url, r.0), r.1)
  }

  /** The callbacks follow the URL list: each is about a later URL than the
      one before it, so there is at most one per URL and they come in order. */
  predicate Follows(cbs: seq<Callback>, urls: seq<string>)
    decreases |urls|
  {
    || cbs == []
    || (urls != [] &&
        (|| (cbs[0].url == urls[0] && Follows(cbs[1..], urls[1..]))
         || Follows(cbs, urls[1..])))
  }

  lemma {:induction false} FollowsBound(cbs: seq<Callback>, urls: seq<string>)
    requires Follows(cbs, urls)
    ensures |cbs| <= |urls|
    decreases |urls|
  {
    if cbs != [] {
      if cbs[0].url == urls[0] && Follows(cbs[1..], urls[1..]) {
        FollowsBound(cbs[1..], urls[1..]);
      } else {
        FollowsBound(cbs, urls[1..]);
      }
    }
  }

  /** `_download_urls`: the URLs in list order, none started once stopped. */
  function DownloadUrls(urls: seq<string>, maxRetries: int, c: Client, script: seq<Event>): (r: (Client, seq<Event>))
    decreases |urls|
  {
    if urls == [] || c.stopped then (c, script)
    else
      var (c1, rest) := DownloadUrl(urls[0], maxRetries, c, script);
      DownloadUrls(urls[1..], maxRetries, c1, rest)
  }

  /** One URL adds at most `max_retries` attempts of that URL and at most one
      callback, about that URL. */
  lemma DownloadUrlEffect(url: string, maxRetries: int, c: Client, script: seq<Event>)
    ensures var r := DownloadUrl(url, maxRetries, c, script).0;
      && c.attempts <= r.attempts && |r.attempts| <= |c.attempts| + Attempts(maxRetries, 0)
      && c.callbacks <= r.callbacks && |r.callbacks| <= |c.callbacks| + 1
      && (|r.callbacks| > |c.callbacks| ==> r.callbacks[|c.callbacks|].url == url)
      && r.downloaded == c.downloaded + Completions(r.callbacks[|c.callbacks|..])
  {
  }

  /** The URLs' effects: callbacks follow the list, `downloaded_count` counts
      the completions, and every URL adds at most `max_retries` attempts. */
  lemma {:induction false} DownloadUrlsEffect(urls: seq<string>, maxRetries: int, c: Client, script: seq<Event>)
    ensures var r := DownloadUrls(urls, maxRetries, c, script).0;
      && c.callbacks <= r.callbacks
      && Follows(r.callbacks[|c.callbacks|..], urls)
      && r.downloaded == c.downloaded + Completions(r.callbacks[|c.callbacks|..])
      && c.attempts <= r.attempts
      && |r.attempts| <= |c.attempts| + |urls| * Attempts(maxRetries, 0)
    decreases |urls|
  {
    var r := DownloadUrls(urls, maxRetries, c, script).0;
    if urls == [] || c.stopped {
      assert c.callbacks[|c.callbacks|..] == [];
    } else {
      var (c1, rest) := DownloadUrl(urls[0], maxRetries, c, script);
      DownloadUrlEffect(urls[0], maxRetries, c, script);
      DownloadUrlsEffect(urls[1..], maxRetries, c1, rest);
      MulStep(|urls|, Attempts(maxRetries, 0));
      var mine: seq<Callback> := c1.callbacks[|c.callbacks|..];
      var theirs: seq<Callback> := r.callbacks[|c1.callbacks|..];
      SliceSplit(c.callbacks, c1.callbacks, r.callbacks);
      CompletionsAppend(mine, theirs);
      FollowsCons(mine, theirs, urls);
    }
  }

  lemma MulStep(n: int, a: int)
    ensures n * a == (n - 1) * a + a
  {
  }

  lemma SliceSplit<T>(x: seq<T>, y: seq<T>, z: seq<T>)
    requires x <= y <= z
    ensures z[|x|..] == y[|x|..] + z[|y|..]
  {
  }

  /** At most one callback about the first URL, then callbacks following the
      rest of the list. */
  lemma FollowsCons(mine: seq<Callback>, theirs: seq<Callback>, urls: seq<string>)
    requires urls != [] && |mine| <= 1 && (mine != [] ==> mine[0].url == urls[0])
    requires Follows(theirs, urls[1..])
    ensures Follows(mine + theirs, urls)
  {
    if mine == [] {
      assert mine + theirs == theirs;
    } else {
      assert (mine + theirs)[0].url == urls[0];
      assert (mine + theirs)[1..] == theirs;
    }
  }

  /** A whole run of the client from its initial state. */
  function Run(urls: seq<string>, maxRetries: int, script: seq<Event>): Client {
    DownloadUrls(urls, maxRetries, Idle, script).0
  }

  /** `downloaded_count` never exceeds `total_count`, and the callbacks
      follow the URL list. */
  lemma RunBounds(urls: seq<string>, maxRetries: int, script: seq<Event>)
    ensures Run(urls, maxRetries, script).downloaded <= TotalCount(urls)
    ensures Follows(Run(urls, maxRetries, script).callbacks, urls)
    ensures |Run(urls, maxRetries, script).attempts| <= |urls| * Attempts(maxRetries, 0)
  {
    var r := Run(urls, maxRetries, script);
    DownloadUrlsEffect(urls, maxRetries, Idle, script);
    assert r.callbacks[0..] == r.callbacks;
    FollowsBound(r.callbacks, urls);
  }

  /** Once the stop flag is set nothing changes: no attempt, no callback. */
  lemma StoppedIsFinal(urls: seq<string>, maxRetries: int, c: Client, script: seq<Event>)
    requires c.stopped
    ensures DownloadUrls(urls, maxRetries, c, script).0 == c
  {
  }

  // ---------------------------------------------------------------------
  // Scripted runs of one URL.

  predicate RequestFailures(s: seq<Event>) {
    forall i :: 0 <= i < |s| ==> s[i].Attempted? && s[i].outcome.Raised? && s[i].outcome.error.RequestException?
  }

  /** Request failures short of the limit only add attempts. */
  lemma {:induction false} FailuresThen(url: string, maxRetries: int, retries: nat, fails: seq<Event>, rest: seq<Event>)
    requires RequestFailures(fails) && retries + |fails| < maxRetries
    ensures var r := RetryLoop(url, maxRetries, retries + |fails|, rest);
      RetryLoop(url, maxRetries, retries, fails + rest) == (r.0.(tries := r.0.tries + |fails|), r.1)
    decreases |fails|
  {
    if fails == [] {
      assert fails + rest == rest;
    } else {
      assert (fails + rest)[0] == fails[0];
      assert (fails + rest)[1..] == fails[1..] + rest;
      assert RequestFailures(fails[1..]);
      FailuresThen(url, maxRetries, retries + 1, fails[1..], rest);
    }
  }

  /** `max_retries` request failures in a row: one error callback, carrying
      the last exception, and no completion. */
  lemma RetriesExhausted(url: string, maxRetries: int, fails: seq<Event>, rest: seq<Event>)
    requires RequestFailures(fails) && |fails| == maxRetries > 0
    ensures RetryLoop(url, maxRetries, 0, fails + rest) ==
            (UrlResult(maxRetries, Some(Failed(url, fails[maxRetries - 1].outcome.error)), false), rest)
  {
    var k := maxRetries - 1;
    assert fails + rest == fails[..k] + ([fails[k]] + rest);
    assert RequestFailures(fails[..k]);
    FailuresThen(url, maxRetries, 0, fails[..k], [fails[k]] + rest);
    assert ([fails[k]] + rest)[1..] == rest;
  }

  /** Fewer than `max_retries` request failures, then success: one completion
      callback. */
  lemma SucceedsAfterFailures(url: string, maxRetries: int, fails: seq<Event>, rest: seq<Event>)
    requires RequestFailures(fails) && |fails| < maxRetries
    ensures RetryLoop(url, maxRetries, 0, fails + [Attempted(Succeeded)] + rest) ==
            (UrlResult(|fails| + 1, Some(Completed(url)), false), rest)
  {
    assert fails + [Attempted(Succeeded)] + rest == fails + ([Attempted(Succeeded)] + rest);
    FailuresThen(url, maxRetries, 0, fails, [Attempted(Succeeded)] + rest);
    assert ([Attempted(Succeeded)] + rest)[1..] == rest;
  }

  /** Any other exception ends the URL at once with one error callback. */
  lemma OtherErrorEndsUrl(url: string, maxRetries: int, fails: seq<Event>, e: Exc, rest: seq<Event>)
    requires RequestFailures(fails) && |fails| < maxRetries && !e.RequestException?
    ensures RetryLoop(url, maxRetries, 0, fails + [Attempted(Raised(e))] + rest) ==
            (UrlResult(|fails| + 1, Some(Failed(url, e)), false), rest)
  {
    assert fails + [Attempted(Raised(e))] + rest == fails + ([Attempted(Raised(e))] + rest);
    FailuresThen(url, maxRetries, 0, fails, [Attempted(Raised(e))] + rest);
    assert ([Attempted(Raised(e))] + rest)[1..] == rest;
  }

  /** A successful URL adds exactly one to `downloaded_count`. */
  lemma SuccessCounts(url: string, maxRetries: int, c: Client, fails: seq<Event>, rest: seq<Event>)
    requires !c.stopped && RequestFailures(fails) && |fails| < maxRetries
    ensures DownloadUrl(url, maxRetries, c, fails + [Attempted(Succeeded)] + rest).0.downloaded == c.downloaded + 1
  {
    SucceedsAfterFailures(url, maxRetries, fails, rest);
  }

  /** A stop seen while streaming returns with no callback and no rename, and
      no later URL is started. */
  lemma StopWhileStreaming(urls: seq<string>, maxRetries: int, c: Client, rest: seq<Event>)
    requires !c.stopped && urls != [] && maxRetries > 0
    ensures DownloadUrls(urls, maxRetries, c, [Attempted(StoppedWhileStreaming)] + rest).0 ==
            c.(stopped := true, attempts := c.attempts + [urls[0]])
  {
    var s := [Attempted(StoppedWhileStreaming)] + rest;
    assert s[0] == Attempted(StoppedWhileStreaming);
    assert RetryLoop(urls[0], maxRetries, 0, s).0 == UrlResult(1, None, true);
    assert Repeat(urls[0], 1) == [urls[0]];
  }

  /** After an error that is not a request error, the next URL is still
      downloaded. */
  lemma NextUrlAfterOtherError(u1: string, u2: string, maxRetries: int, e: Exc, rest: seq<Event>)
    requires maxRetries > 0 && !e.RequestException?
    ensures Run([u1, u2], maxRetries, [Attempted(Raised(e)), Attempted(Succeeded)] + rest).callbacks
         == [Failed(u1, e), Completed(u2)]
  {
    var s := [Attempted(Raised(e)), Attempted(Succeeded)] + rest;
    assert s[0] == Attempted(Raised(e));
    assert RetryLoop(u1, maxRetries, 0, s) == (UrlResult(1, Some(Failed(u1, e)), false), s[1..]);
    var c1 := DownloadUrl(u1, maxRetries, Idle, s).0;
    assert c1.callbacks == [Failed(u1, e)] && !c1.stopped;
    assert s[1..][0] == Attempted(Succeeded);
    assert RetryLoop(u2, maxRetries, 0, s[1..]) == (UrlResult(1, Some(Completed(u2)), false), s[1..][1..]);
    var c2 := DownloadUrl(u2, maxRetries, c1, s[1..]).0;
    assert c2.callbacks == [Failed(u1, e), Completed(u2)];
    assert [u1, u2][1..] == [u2];
    assert [u2][1..] == [];
    assert DownloadUrls([u1, u2], maxRetries, Idle, s).0 == DownloadUrls([u2], maxRetries, c1, s[1..]).0;
    assert DownloadUrls([u2], maxRetries, c1, s[1..]).0 == DownloadUrls([], maxRetries, c2, s[1..][1..]).0;
  }
}

=== FILE: errorreport.dfy ===
/** The installer's error handler (`_handle_error` in installer/installer.py):
    the exception is matched against a fixed list of categories, and the
    first that applies decides the message shown before the installer stops. */
module ErrorReport {
  import opened Base
  import opened Errors

  /** The branches of the handler, in the order they are tried. */
  datatype Category = NoInternet | AccessDenied | FileMissing | DiskFull | Unknown

  /** The `isinstance` test of each branch; the last branch takes anything. */
  predicate Caught(c: Category, e: Exc) {
    match c
    case NoInternet => e.RequestException?
    case AccessDenied => e.OSError? && e.kind == PermissionError
    case FileMissing => e.OSError? && e.kind == FileNotFoundError
    case DiskFull => e.OSError? && e.errno == Some(ENOSPC)
    case Unknown => true
  }

  const Order: seq<Category> := [NoInternet, AccessDenied, FileMissing, DiskFull, Unknown]

  /** The reference reading of an if/elif chain: the first category in
      `order` whose test accepts the exception. */
  function FirstCaught(order: seq<Category>, e: Exc): (r: Option<Category>)
    ensures r.Some? <==> exists i :: 0 <= i < |order| && Caught(order[i], e)
  {
    if order == [] then None
    else if Caught(order[0], e) then Some(order[0])
    else
      var r := FirstCaught(order[1..], e);
      assert forall i :: 1 <= i < |order| ==> order[i] == order[1..][i - 1];
      r
  }

  /** The category the handler picks, with each outcome characterised by the
      exception alone: a request failure is always reported as a missing
      connection, and the free-space message needs a plain `OSError`
      carrying `ENOSPC`. */
  function Classify(e: Exc): (c: Category)
    ensures Caught(c, e)
    ensures c == NoInternet <==> e.RequestException?
    ensures c == AccessDenied <==> e.OSError? && e.kind == PermissionError
    ensures c == FileMissing <==> e.OSError? && e.kind == FileNotFoundError
    ensures c == DiskFull <==> e.OSError? && e.kind == PlainOSError && e.errno == Some(ENOSPC)
    ensures c == Unknown <==> !IsOSError(e) || (e.OSError? && e.kind == PlainOSError && e.errno != Some(ENOSPC))
  {
    match e
    case RequestException(_) => NoInternet
    case OSError(PermissionError, _) => AccessDenied
    case OSError(FileNotFoundError, _) => FileMissing
    case OSError(PlainOSError, errno) => if errno == Some(ENOSPC) then DiskFull else Unknown
    case _ => Unknown
  }

  /** The handler's choice is the first matching branch of the chain. */
  lemma ClassifyIsFirstCaught(e: Exc)
    ensures FirstCaught(Order, e) == Some(Classify(e))
  {
    var o := Order;
    assert o[1..] == [AccessDenied, FileMissing, DiskFull, Unknown];
    assert o[2..] == [FileMissing, DiskFull, Unknown];
    assert o[3..] == [DiskFull, Unknown];
    assert o[4..] == [Unknown];
    assert o[4..][1..] == [];
    assert FirstCaught(o[4..], e) == Some(Unknown);
    match Classify(e)
    case NoInternet =>
    case AccessDenied => assert FirstCaught(o, e) == FirstCaught(o[1..], e);
    case FileMissing => assert FirstCaught(o, e) == FirstCaught(o[2..], e);
    case DiskFull => assert FirstCaught(o, e) == FirstCaught(o[3..], e);
    case Unknown =>
      assert FirstCaught(o, e) == FirstCaught(o[1..], e);
      assert FirstCaught(o[1..], e) == FirstCaught(o[2..], e);
      assert FirstCaught(o[2..], e) == FirstCaught(o[3..], e);
      assert FirstCaught(o[3..], e) == FirstCaught(o[4..], e);
  }

  /** A category never shadowed by an earlier one: a permission or missing
      file error reports as such even when it carries `ENOSPC`. */
  lemma SubclassBeforeErrno(kind: OSKind)
    requires kind != PlainOSError
    ensures Classify(OSError(kind, Some(ENOSPC))) != DiskFull
    ensures Classify(OSError(kind, Some(ENOSPC))) == (if kind == PermissionError then AccessDenied else FileMissing)
  {
  }

  /** What `show_error` receives: the message type and the title. */
  datatype Report = Report(kind: string, title: string)

  function Title(c: Category): string {
    match c
    case NoInternet => "Keine Internetverbindung"
    case AccessDenied => "Zugriffsfehler bei der Installation"
    case FileMissing => "Datei nicht gefunden"
    case DiskFull => "Nicht genügend Speicherplatz"
    case Unknown => "Fehler während der Installation"
  }

  /** The report for a category: only a missing connection has its own
      message type, and every category has its own title. */
  function ReportOf(c: Category): (r: Report)
    ensures r.kind == "nointernet" <==> c == NoInternet
    ensures r.kind == "error" <==> c != NoInternet
    ensures forall c' :: Title(c') == r.title ==> c' == c
  {
    Report(if c == NoInternet then "nointernet" else "error", Title(c))
  }

  /** `_handle_error`: the report shown before the installer is stopped. */
  function Handle(e: Exc): (r: Report)
    ensures FirstCaught(Order, e).Some? && r == ReportOf(FirstCaught(Order, e).value)
    ensures r.kind == "nointernet" <==> e.RequestException?
    ensures r.kind == "error" <==> !e.RequestException?
  {
    ClassifyIsFirstCaught(e);
    ReportOf(Classify(e))
  }
}

=== FILE: errors.dfy ===
/** The exceptions the installer raises, catches or classifies, as values. */
module Errors {
  import opened Base

  /** The `OSError` subclasses the installer distinguishes. */
  datatype OSKind = PlainOSError | PermissionError | FileNotFoundError

  /** Built-in exceptions raised by the modelled code paths. */
  datatype PyError =
    | IndexError
    | AssertionError
    | TypeError
    | AttributeError
    | ValueError
    | BadZipFile
    | JsonDecodeError
    /** `threading.Thread.join` on a thread that was never started. */
    | RuntimeError
    /** Division by a zero count in the progress update. */
    | ZeroDivisionError

  datatype Exc =
    /** `requests.RequestException`; `status` is set for an `HTTPError`. */
    | RequestException(status: Option<int>)
    /** `OSError` and its subclasses, with the optional `errno`. */
    | OSError(kind: OSKind, errno: Option<int>)
    /** The tool's structured failure line. */
    | TrainzError(message: string)
    /** `subprocess.CalledProcessError`: non-zero exit without a failure line. */
    | CalledProcessError(returnCode: int)
    /** `subprocess.TimeoutExpired`. */
    | TimeoutExpired
    /** `pydantic.ValidationError`. */
    | ValidationError
    | Builtin(error: PyError)

  /** `errno.ENOSPC`: no space left on device. */
  const ENOSPC: int := 28

  /** `requests.RequestException` derives from `IOError`, i.e. `OSError`. */
  predicate IsOSError(e: Exc) {
    e.RequestException? || e.OSError?
  }

  /** `subprocess.SubprocessError`, the base of the two subprocess failures. */
  predicate IsSubprocessError(e: Exc) {
    e.CalledProcessError? || e.TimeoutExpired?
  }
}

=== FILE: kuid.dfy ===
/** Content identifiers (`Kuid` in usb_installer/trainz/trainzconfig.py): a
    validated, lower-cased string in one of three textual forms. */
module Kuids {
  import opened Base
  import opened Errors
  import opened PyStr

  /** The normalised identifier text, without angle brackets. */
  datatype Kuid = Kuid(text: string)

  /** `-?\d+`: an optional minus sign and one or more digits. */
  predicate IsSignedNumber(s: string) {
    IsNumber(s) || (|s| > 1 && s[0] == '-' && IsNumber(s[1..]))
  }

  /** The colon-separated numbers after a `kuid:` or `kuid2:` prefix:
      `count` fields, only the first of which may be negative. */
  predicate NumberFields(s: string, count: nat) {
    var f := SplitChar(s, ':');
    |f| == count && IsSignedNumber(f[0]) && forall i :: 1 <= i < |f| ==> IsNumber(f[i])
  }

  /** `kuid:-?\d+:\d+ | kuid2:-?\d+:\d+:\d+ | null`, ignoring case. */
  predicate KuidShape(s: string) {
    || (|s| >= 5 && Lower(s[..5]) == "kuid:" && NumberFields(s[5..], 2))
    || (|s| >= 6 && Lower(s[..6]) == "kuid2:" && NumberFields(s[6..], 3))
    || Lower(s) == "null"
  }

  /** The text the pattern is matched against: the outer `<...>` is dropped
      only when the value both starts with `<` and ends with `>`. */
  function Unwrap(v: string): (r: string)
    ensures StartsWith(v, "<") && EndsWith(v, ">") ==> "<" + r + ">" == v
    ensures !(StartsWith(v, "<") && EndsWith(v, ">")) ==> r == v
  {
    if StartsWith(v, "<") && EndsWith(v, ">") then
      assert v[0] == '<' && v[|v| - 1] == '>';
      v[1..|v| - 1]
    else v
  }

  predicate Matches(s: string) {
    FullMatch(KuidShape, s)
  }

  /** A value `MakeKuid` can return: matching and already lower-case. */
  predicate Valid(k: Kuid) {
    Matches(k.text) && Lower(k.text) == k.text
  }

  /** `Kuid(value)`: an `AssertionError` unless the unwrapped text matches. */
  function MakeKuid(v: string): (r: Result<Kuid, Exc>)
    ensures r.Ok? <==> Matches(Unwrap(v))
    ensures r.Ok? ==> Valid(r.value) && r.value.text == Lower(Unwrap(v))
    ensures r.Err? ==> r.error == Builtin(AssertionError)
  {
    var body := Unwrap(v);
    if Matches(body) then
      LowerPreservesMatch(body);
      LowerIdempotent(body);
      Ok(Kuid(Lower(body)))
    else Err(Builtin(AssertionError))
  }

  /** `repr(k)`: the identifier wrapped in angle brackets. */
  function Repr(k: Kuid): (r: string)
    ensures |r| == |k.text| + 2 && r[0] == '<' && r[|r| - 1] == '>' && r[1..|r| - 1] == k.text
  {
    "<" + k.text + ">"
  }

  /** Only digits, minus signs and colons. */
  predicate NumericText(s: string) {
    forall i :: 0 <= i < |s| ==> IsDigit(s[i]) || s[i] == '-' || s[i] == ':'
  }

  lemma LowerFixesNumbers(s: string)
    requires NumericText(s)
    ensures Lower(s) == s
  {
  }

  lemma NumberFieldsChars(s: string, count: nat)
    requires NumberFields(s, count)
    ensures NumericText(s)
  {
    var f := SplitChar(s, ':');
    JoinSplitChar(s, ':');
    JoinCharChars(f, ':');
  }

  lemma {:induction false} JoinCharChars(parts: seq<string>, c: char)
    requires forall j :: 0 <= j < |parts| ==> forall i :: 0 <= i < |parts[j]| ==> IsDigit(parts[j][i]) || parts[j][i] == '-'
    requires c == ':'
    ensures NumericText(JoinChar(parts, c))
  {
    if |parts| > 1 {
      var rest := parts[1..];
      assert forall j :: 0 <= j < |rest| ==> rest[j] == parts[j + 1];
      JoinCharChars(rest, c);
      var t := JoinChar(rest, c);
      var s := JoinChar(parts, c);
      assert s == parts[0] + [c] + t;
      forall i | 0 <= i < |s|
        ensures IsDigit(s[i]) || s[i] == '-' || s[i] == ':'
      {
        if i < |parts[0]| {
          assert s[i] == parts[0][i];
          assert IsDigit(parts[0][i]) || parts[0][i] == '-';
        } else if i > |parts[0]| {
          var k := i - |parts[0]| - 1;
          assert s[i] == t[k];
        } else {
          assert s[i] == c;
        }
      }
    }
  }

  lemma NumberFieldsChars2(f: seq<string>)
    requires |f| >= 1 && IsSignedNumber(f[0]) && forall i :: 1 <= i < |f| ==> IsNumber(f[i])
    ensures forall j :: 0 <= j < |f| ==> forall i :: 0 <= i < |f[j]| ==> IsDigit(f[j][i]) || f[j][i] == '-'
  {
  }

  lemma LowerPreservesShape(s: string)
    requires KuidShape(s)
    ensures KuidShape(Lower(s))
  {
    var t := Lower(s);
    if |s| >= 5 && Lower(s[..5]) == "kuid:" && NumberFields(s[5..], 2) {
      LowerSlice(s, 0, 5);
      LowerSlice(s, 5, |s|);
      NumberFieldsChars2(SplitChar(s[5..], ':'));
      NumberFieldsChars(s[5..], 2);
      LowerFixesNumbers(s[5..]);
      LowerIdempotent(s[..5]);
      assert t[..5] == Lower(s[..5]);
      assert t[5..] == s[5..];
    } else if |s| >= 6 && Lower(s[..6]) == "kuid2:" && NumberFields(s[6..], 3) {
      LowerSlice(s, 0, 6);
      LowerSlice(s, 6, |s|);
      NumberFieldsChars2(SplitChar(s[6..], ':'));
      NumberFieldsChars(s[6..], 3);
      LowerFixesNumbers(s[6..]);
      LowerIdempotent(s[..6]);
      assert t[..6] == Lower(s[..6]);
      assert t[6..] == s[6..];
    } else {
      LowerIdempotent(s);
    }
  }

  lemma LowerPreservesMatch(s: string)
    requires Matches(s)
    ensures Matches(Lower(s))
  {
    if KuidShape(s) {
      LowerPreservesShape(s);
    } else {
      var c := s[..|s| - 1];
      LowerPreservesShape(c);
      LowerSlice(s, 0, |s| - 1);
      assert Lower(s)[..|s| - 1] == Lower(c);
    }
  }

  /** Every matching text starts with `k` or `n` (any case), never with `<`. */
  lemma MatchStartsWithLetter(s: string)
    requires Matches(s)
    ensures |s| > 0 && LowerChar(s[0]) in {'k', 'n'}
  {
    var c := if KuidShape(s) then s else s[..|s| - 1];
    assert KuidShape(c);
    if |c| >= 5 && Lower(c[..5]) == "kuid:" {
      assert Lower(c[..5])[0] == LowerChar(c[0]);
    } else if |c| >= 6 && Lower(c[..6]) == "kuid2:" {
      assert Lower(c[..6])[0] == LowerChar(c[0]);
    } else {
      assert Lower(c)[0] == LowerChar(c[0]);
    }
    assert s[0] == c[0];
  }

  /** `Kuid(Kuid(x)) == Kuid(x)`: normalising twice changes nothing. */
  lemma Idempotent(v: string)
    requires MakeKuid(v).Ok?
    ensures MakeKuid(MakeKuid(v).value.text) == MakeKuid(v)
  {
    KeepsValid(MakeKuid(v).value);
  }

  /** A valid identifier is its own normal form. */
  lemma KeepsValid(k: Kuid)
    requires Valid(k)
    ensures MakeKuid(k.text) == Ok(k)
  {
    UnwrapOfMatch(k.text);
  }

  lemma UnwrapOfMatch(t: string)
    requires Matches(t)
    ensures Unwrap(t) == t
  {
    MatchStartsWithLetter(t);
    assert !StartsWith(t, "<");
  }

  /** `Kuid(repr(k)) == k` for every identifier `Kuid` can produce. */
  lemma ReprRoundTrip(k: Kuid)
    requires Valid(k)
    ensures MakeKuid(Repr(k)) == Ok(k)
  {
    var w := Repr(k);
    assert StartsWith(w, "<") && EndsWith(w, ">");
    assert w[1..|w| - 1] == k.text;
  }

  /** The `kuid:<a>:<b>` text for a user number `a` and a content number `b`. */
  function Format(a: int, b: nat): string {
    "kuid:" + IntToString(a) + ":" + NatToString(b)
  }

  lemma IntToStringSigned(a: int)
    ensures IsSignedNumber(IntToString(a))
  {
    if a < 0 {
      var s := IntToString(a);
      assert s[1..] == NatToString(-a);
    }
  }

  /** Every `kuid:<a>:<b>` with a non-negative second number is accepted unchanged,
      whatever the sign of the first. */
  lemma AcceptsFormatted(a: int, b: nat)
    ensures MakeKuid(Format(a, b)) == Ok(Kuid(Format(a, b)))
  {
    FormattedShape(a, b);
    FormattedLower(a, b);
    KeepsValid(Kuid(Format(a, b)));
  }

  lemma FormattedFields(a: int, b: nat)
    ensures var s := Format(a, b);
      s[..5] == "kuid:" && NumberFields(s[5..], 2)
  {
    var s := Format(a, b);
    var x := IntToString(a);
    var y := NatToString(b);
    IntToStringSigned(a);
    assert s[..5] == "kuid:";
    assert s[5..] == x + [':'] + y;
    assert ':' !in x;
    assert ':' !in y;
    SplitPair(x, y);
  }

  lemma FormattedShape(a: int, b: nat)
    ensures KuidShape(Format(a, b))
  {
    var s := Format(a, b);
    FormattedFields(a, b);
    assert Lower(s[..5]) == "kuid:";
  }

  lemma FormattedLower(a: int, b: nat)
    ensures Lower(Format(a, b)) == Format(a, b)
  {
    var s := Format(a, b);
    FormattedFields(a, b);
    NumberFieldsChars(s[5..], 2);
    PrefixedNumbersLower(s, 5);
  }

  /** A lower-case prefix followed by numeric text is already lower-case. */
  lemma PrefixedNumbersLower(s: string, n: nat)
    requires n <= |s| && Lower(s[..n]) == s[..n] && NumericText(s[n..])
    ensures Lower(s) == s
  {
    LowerFixesNumbers(s[n..]);
    forall i | 0 <= i < |s| ensures LowerChar(s[i]) == s[i] {
      if i < n {
        assert Lower(s[..n])[i] == LowerChar(s[..n][i]);
        assert s[..n][i] == s[i];
      } else {
        assert Lower(s[n..])[i - n] == LowerChar(s[n..][i - n]);
        assert s[n..][i - n] == s[i];
      }
    }
  }

  lemma SplitPair(x: string, y: string)
    requires ':' !in x && ':' !in y
    ensures SplitChar(x + [':'] + y, ':') == [x, y]
  {
    SplitCharAppend(x, ':', y);
    SplitCharFree(y, ':');
  }

  /** Only the first number may be negative: `kuid:<a>:-<b>` is rejected. */
  lemma RejectsNegativeSecond(a: int, b: nat)
    ensures MakeKuid("kuid:" + IntToString(a) + ":-" + NatToString(b)).Err?
  {
    var x := IntToString(a);
    var n := NatToString(b);
    var y := "-" + n;
    NegativeSecondText(x, n);
    NotShapeNegativeSecond(x, y);
    var s := "kuid:" + (x + [':'] + y);
    assert s[|s| - 1] == n[|n| - 1];
    assert IsDigit(n[|n| - 1]);
    assert !Matches(s);
    assert s[0] == 'k';
    assert Unwrap(s) == s;
  }

  lemma NegativeSecondText(x: string, n: string)
    ensures "kuid:" + x + ":-" + n == "kuid:" + (x + [':'] + ("-" + n))
  {
  }

  lemma NotShapeNegativeSecond(x: string, y: string)
    requires ':' !in x && ':' !in y
    requires |y| > 1 && y[0] == '-'
    ensures !KuidShape("kuid:" + (x + [':'] + y))
  {
    var s := "kuid:" + (x + [':'] + y);
    assert s[5..] == x + [':'] + y;
    SplitPair(x, y);
    assert !IsNumber(y) by { assert !IsDigit(y[0]); }
    var f := SplitChar(s[5..], ':');
    assert f == [x, y];
    assert !IsNumber(f[1]);
    assert !NumberFields(s[5..], 2);
    assert Lower(s[..6])[4] == ':';
    assert |Lower(s)| > 4;
  }
}

=== FILE: orchestrator.dfy ===
/** One installation run (`_run_installer` in installer/installer.py) as a
    sequence of decisions: fetch and filter the manifest, install the scripts
    asset, check the tool, download, consume the queue, finish. The network,
    the tool and the files are inputs. The download thread and the queue
    thread are read sequentially: the queue keeps pace with the download, so
    each archive is installed before the next callback. The error handler
    shows its report and then calls `stop()`, whose `queue.join()` waits for
    a `task_done` that never comes: the thread that met the error blocks for
    ever, and with it every thread that later joins it. */
module Orchestrator {
  import opened Base
  import opened Errors
  import opened TrainzUtil
  import opened Assets
  import opened ErrorReport
  import Downloader
  import Pipeline
  import PostInstall

  /** What the run leaves behind: the messages shown, in order, the
      exception that escapes the installer thread, if any, and whether the
      run blocks for ever instead of ending. */
  datatype Outcome = Outcome(shown: seq<Report>, raised: Option<Exc>, hangs: bool)

  const NoAssets := Report("error", "Keine Assets gefunden")
  const StartFailed := Report("error", "Fehler beim Starten von Trainz")
  const DoneTitle := "Installation abgeschlossen"

  /** The closing message: a success only when no identifier is left failed. */
  function Done(failed: seq<string>): (r: Report)
    ensures r.title == DoneTitle
    ensures r.kind == "success" || r.kind == "warning"
  {
    Report(if failed == [] then "success" else "warning", DoneTitle)
  }

  // ---------------------------------------------------------------------
  // Before the download.

  /** Lines 113-145: the manifest (the outcome of `get_assets()`, which is
      called without a revision and so fetches the whole manifest), the
      outcome of installing the scripts asset, and the tool's reply to the
      echo check. Either the assets to download, or how the run ends. */
  function Prepare(manifest: Result<seq<Asset>, Exc>, fromRevision: int, scripts: Option<Exc>, echo: Invocation): (r: Result<seq<Asset>, Outcome>)
    ensures manifest.Err? && manifest.error.RequestException? ==> r == Err(Outcome([ReportOf(NoInternet)], None, false))
    ensures manifest.Err? && !manifest.error.RequestException? ==> r == Err(Outcome([], Some(manifest.error), false))
    ensures manifest.Ok? && NewerThan(manifest.value, fromRevision) == [] ==> r == Err(Outcome([NoAssets], None, false))
    ensures r.Ok? <==>
              && manifest.Ok? && NewerThan(manifest.value, fromRevision) != []
              && (TakeScripts(NewerThan(manifest.value, fromRevision)).0.Some? ==> scripts.None?)
              && Echo("Hello World", echo) == Ok(true)
    ensures r.Ok? ==> r.value == TakeScripts(NewerThan(manifest.value, fromRevision)).1
    ensures r.Err? ==> (r.error.hangs <==> manifest.Ok? && TakeScripts(NewerThan(manifest.value, fromRevision)).0.Some? && scripts.Some?)
  {
    match manifest
    case Err(e) => if e.RequestException? then Err(Outcome([ReportOf(NoInternet)], None, false)) else Err(Outcome([], Some(e), false))
    case Ok(all) =>
      var assets := NewerThan(all, fromRevision);
      if assets == [] then Err(Outcome([NoAssets], None, false))
      else
        var (found, rest) := TakeScripts(assets);
        if found.Some? && scripts.Some? then Err(Outcome([Handle(scripts.value)], None, true))
        else
          match Echo("Hello World", echo)
          case Ok(true) => Ok(rest)
          case Ok(false) => Err(Outcome([StartFailed], None, false))
          case Err(e) => if IsSubprocessError(e) || e.TrainzError? then Err(Outcome([StartFailed], None, false)) else Err(Outcome([], Some(e), false))
  }

  /** The assets handed to the downloader come from the manifest in its
      order, are all newer than the revision, and lack only the first
      scripts asset. */
  lemma PreparedAssets(manifest: Result<seq<Asset>, Exc>, fromRevision: int, scripts: Option<Exc>, echo: Invocation)
    requires Prepare(manifest, fromRevision, scripts, echo).Ok?
    ensures var assets := Prepare(manifest, fromRevision, scripts, echo).value;
      && (forall a :: a in assets ==> a in manifest.value && a.revision > fromRevision)
      && |assets| + 1 >= |NewerThan(manifest.value, fromRevision)|
  {
    TakeScriptsSublist(NewerThan(manifest.value, fromRevision));
  }

  // ---------------------------------------------------------------------
  // Download and queue.

  /** The callbacks the download thread gets through: those before the first
      error callback, whose handler blocks the thread, and that callback's
      error. */
  function UntilFailure(cbs: seq<Downloader.Callback>): (r: (seq<Downloader.Callback>, Option<Exc>))
    ensures r.0 <= cbs
    ensures forall i :: 0 <= i < |r.0| ==> r.0[i].Completed?
    ensures r.1.None? ==> r.0 == cbs
    ensures r.1.Some? ==> |r.0| < |cbs| && cbs[|r.0|] == Downloader.Failed(cbs[|r.0|].url, r.1.value)
  {
    if cbs == [] then ([], None)
    else if cbs[0].Failed? then ([], Some(cbs[0].error))
    else
      var (rest, e) := UntilFailure(cbs[1..]);
      assert cbs == [cbs[0]] + cbs[1..];
      ([cbs[0]] + rest, e)
  }

  /** The run meets an error callback exactly when the download produces one. */
  lemma {:induction false} UntilFailureFinds(cbs: seq<Downloader.Callback>)
    ensures UntilFailure(cbs).1.Some? <==> exists i :: 0 <= i < |cbs| && cbs[i].Failed?
  {
    if cbs != [] && cbs[0].Completed? {
      UntilFailureFinds(cbs[1..]);
      if exists i :: 0 <= i < |cbs| && cbs[i].Failed? {
        var i :| 0 <= i < |cbs| && cbs[i].Failed?;
        assert cbs[1..][i - 1] == cbs[i];
      }
      if exists i :: 0 <= i < |cbs[1..]| && cbs[1..][i].Failed? {
        var i :| 0 <= i < |cbs[1..]| && cbs[1..][i].Failed?;
        assert cbs[i + 1] == cbs[1..][i];
      }
    }
  }

  /** The URLs of the completion callbacks, in order. */
  function CompletedUrls(cbs: seq<Downloader.Callback>): (r: seq<string>)
    ensures |r| == Downloader.Completions(cbs)
  {
    if cbs == [] then []
    else (if cbs[0].Completed? then [cbs[0].url] else []) + CompletedUrls(cbs[1..])
  }

  /** What the queue consumer takes: one entry per completion callback,
      carrying the archive it unpacks to. No entry is flagged cancelled: the
      flag is set only by `stop()`, which also ends the callbacks. */
  function QueueEntries(cbs: seq<Downloader.Callback>, unpack: string -> Pipeline.Item): (r: seq<Pipeline.Entry>)
    ensures |r| == Downloader.Completions(cbs)
    ensures forall k :: 0 <= k < |r| ==> !Pipeline.Stops(r[k])
  {
    if cbs == [] then []
    else
      var rest := QueueEntries(cbs[1..], unpack);
      match cbs[0]
      case Completed(url) =>
        var r := [Pipeline.Entry(Some(unpack(url)), false)] + rest;
        assert forall k :: 1 <= k < |r| ==> r[k] == rest[k - 1];
        r
      case Failed(_, _) => rest
  }

  /** The k-th entry carries the archive of the k-th completed URL. */
  lemma {:induction false} QueueEntriesItems(cbs: seq<Downloader.Callback>, unpack: string -> Pipeline.Item)
    ensures var r := QueueEntries(cbs, unpack);
      && |r| == |CompletedUrls(cbs)|
      && forall k :: 0 <= k < |r| ==> r[k].item == Some(unpack(CompletedUrls(cbs)[k]))
  {
    if cbs != [] {
      var r := QueueEntries(cbs, unpack);
      var urls := CompletedUrls(cbs);
      QueueEntriesItems(cbs[1..], unpack);
      var rest := QueueEntries(cbs[1..], unpack);
      match cbs[0]
      case Completed(url) =>
        assert r == [Pipeline.Entry(Some(unpack(url)), false)] + rest;
        assert urls == [url] + CompletedUrls(cbs[1..]);
        forall k | 1 <= k < |r|
          ensures r[k] == rest[k - 1] && urls[k] == CompletedUrls(cbs[1..])[k - 1]
        {
        }
      case Failed(_, _) =>
        assert r == rest;
        assert urls == CompletedUrls(cbs[1..]);
    }
  }

  /** Everything the run depends on besides its arguments. `polled` says
      whether the installer thread first asks `is_running()` before the
      download thread has ended; `openError` and `dumpError` are the outcomes
      of opening `assets.json` and of writing the manifest into it. */
  datatype World = World(
    manifest: Result<seq<Asset>, Exc>,
    scripts: Option<Exc>,
    echo: Invocation,
    downloads: seq<Downloader.Event>,
    polled: bool,
    unpack: string -> Pipeline.Item,
    post: PostInstall.State,
    answer: (nat, string) -> Invocation,
    exe: string,
    copyError: Option<Exc>,
    openError: Option<Exc>,
    dumpError: Option<Exc>)

  /** Lines 186-208: post-install, then save the manifest, then the closing
      message. A post-install or dump error is handled (and so blocks); the
      file is opened outside the `try`, so an error opening it escapes with
      nothing shown. */
  function Finish(w: World, failed: seq<string>, options: Option<map<string, Json>>): (o: Outcome)
    ensures |o.shown| <= 1
    ensures o.raised.Some? ==> o.shown == [] && !o.hangs && o.raised == w.openError
    ensures o.hangs ==> o.raised.None? && |o.shown| == 1 && o.shown[0].title != DoneTitle
    ensures !o.hangs && o.raised.None? ==> |o.shown| == 1 && o.shown[0].title == DoneTitle
  {
    match PostInstall.Run(w.post.(failed := failed), w.answer, options, w.exe, w.copyError)
    case Err(e) => Outcome([Handle(e)], None, true)
    case Ok(st) =>
      if w.openError.Some? then Outcome([], w.openError, false)
      else if w.dumpError.Some? then Outcome([Handle(w.dumpError.value)], None, true)
      else Outcome([Done(st.failed)], None, false)
  }

  /** The closing message is a success exactly when every identifier whose
      commit failed during the queue was accepted on the retry. */
  lemma FinishReportsRetry(w: World, failed: seq<string>, options: Option<map<string, Json>>)
    requires PostInstall.Run(w.post.(failed := failed), w.answer, options, w.exe, w.copyError).Ok?
    requires w.openError.None? && w.dumpError.None?
    ensures Finish(w, failed, options).shown[0].title == DoneTitle
    ensures (Finish(w, failed, options).shown[0].kind == "success")
              <==> (PostInstall.StillFailing(failed, 0, PostInstall.Commit(w.answer)) == multiset{})
  {
    PostInstall.RetryFailedResult(failed, w.answer);
  }

  /** What the download thread and the queue thread leave behind: how many
      archives were queued, the error callback that blocked the download,
      where the queue consumer stopped, and the error that blocked it. */
  datatype Stage = Stage(completions: nat, failure: Option<Exc>,
                         progress: Pipeline.Progress, queueError: Option<Exc>)

  /** Lines 147-179: download the URLs until the first error callback, and
      hand each downloaded archive to the queue, which ends with a marker:
      the one `stop()` puts, or the one the installer puts after the download. */
  function Consume(w: World, urls: seq<string>): (st: Stage)
    ensures st.completions <= |Downloader.Run(urls, Downloader.DefaultMaxRetries, w.downloads).callbacks|
  {
    var client := Downloader.Run(urls, Downloader.DefaultMaxRetries, w.downloads);
    var (done, failure) := UntilFailure(client.callbacks);
    var entries := QueueEntries(done, w.unpack) + [Pipeline.Entry(None, false)];
    var (progress, queueError) := Pipeline.RunQueue(entries, Pipeline.Fresh);
    Stage(Downloader.Completions(done), failure, progress, queueError)
  }

  /** The reports shown during the download and the queue: an install error
      comes first, since the download thread is still running when it is
      handled; the error callback that ends the download comes last. */
  function Shown(st: Stage): (r: seq<Report>)
    ensures |r| <= 2
    ensures r == [] <==> st.failure.None? && st.queueError.None?
    ensures forall k :: 0 <= k < |r| ==> r[k].kind == "error" || r[k].kind == "nointernet"
    ensures st.failure.Some? ==> r[|r| - 1] == Handle(st.failure.value)
    ensures st.queueError.Some? ==> r[0] == Handle(st.queueError.value)
    ensures forall k :: 0 <= k < |r| ==> r[k].title != DoneTitle
  {
    HandledNeverDone();
    (if st.queueError.Some? then [Handle(st.queueError.value)] else [])
      + (if st.failure.Some? then [Handle(st.failure.value)] else [])
  }

  /** Lines 161-194: after an error the run blocks with the reports shown.
      Otherwise the progress update divides by the number of URLs whenever
      the installer polls a running download, and joining the queue thread
      raises when no archive was ever queued, since the thread is started by
      the first completion. */
  function Proceed(w: World, urls: seq<string>, options: Option<map<string, Json>>): (o: Outcome) {
    var st := Consume(w, urls);
    if st.failure.Some? || st.queueError.Some? then Outcome(Shown(st), None, true)
    else if urls == [] && w.polled then Outcome([], Some(Builtin(ZeroDivisionError)), false)
    else if st.completions == 0 then Outcome([], Some(Builtin(RuntimeError)), false)
    else Finish(w, st.progress.failed, options)
  }

  /** `_run_installer(from_revision, additional_options)`. */
  function RunInstaller(w: World, version: string, fromRevision: int, options: Option<map<string, Json>>): Outcome {
    match Prepare(w.manifest, fromRevision, w.scripts, w.echo)
    case Err(stop) => stop
    case Ok(assets) => Proceed(w, AssetUrls(assets, version), options)
  }

  /** Nothing to download: no callback, and the queue consumer stops at the
      marker with a fresh state. */
  lemma ConsumeNothing(w: World)
    ensures Consume(w, []) == Stage(0, None, Pipeline.Fresh, None)
  {
    assert Downloader.Run([], Downloader.DefaultMaxRetries, w.downloads) == Downloader.Idle;
    assert QueueEntries([], w.unpack) == [];
    assert Pipeline.RunQueue([Pipeline.Entry(None, false)], Pipeline.Fresh) == (Pipeline.Fresh, None);
  }

  /** When the only new asset is the scripts asset, no URL is left to
      download and the queue thread is never started: the run ends with an
      exception instead of the closing message, a division by zero when the
      installer polled the download thread, else the failed join. */
  lemma OnlyScriptsAssetRaises(w: World, version: string, fromRevision: int, options: Option<map<string, Json>>, s: Asset)
    requires w.manifest == Ok([s]) && s.kuid == ScriptsKuid && s.revision > fromRevision
    requires w.scripts.None? && Echo("Hello World", w.echo) == Ok(true)
    ensures RunInstaller(w, version, fromRevision, options)
              == Outcome([], Some(Builtin(if w.polled then ZeroDivisionError else RuntimeError)), false)
  {
    OnlyScriptsPrepared(w, fromRevision, s);
    assert AssetUrls([], version) == [];
    ConsumeNothing(w);
  }

  lemma OnlyScriptsPrepared(w: World, fromRevision: int, s: Asset)
    requires w.manifest == Ok([s]) && s.kuid == ScriptsKuid && s.revision > fromRevision
    requires w.scripts.None? && Echo("Hello World", w.echo) == Ok(true)
    ensures Prepare(w.manifest, fromRevision, w.scripts, w.echo) == Ok([])
  {
    assert [s][1..] == [];
    assert NewerThan([s], fromRevision) == [s];
    TakesOnlyFirstScripts([], s, []);
    assert [] + [s] + [] == [s];
  }

  /** Lines 161-194 with the progress division and the queue-thread join
      guarded: a run in which nothing reached the queue goes on like any
      other. */
  function ProceedIntended(w: World, urls: seq<string>, options: Option<map<string, Json>>): (o: Outcome)
    ensures o.raised.Some? ==> o.raised == w.openError
    ensures urls != [] && Consume(w, urls).completions > 0 ==> o == Proceed(w, urls, options)
  {
    var st := Consume(w, urls);
    if st.failure.Some? || st.queueError.Some? then Outcome(Shown(st), None, true)
    else Finish(w, st.progress.failed, options)
  }

  /** `_run_installer` with the guarded division and join. */
  function RunInstallerIntended(w: World, version: string, fromRevision: int, options: Option<map<string, Json>>): Outcome {
    match Prepare(w.manifest, fromRevision, w.scripts, w.echo)
    case Err(stop) => stop
    case Ok(assets) => ProceedIntended(w, AssetUrls(assets, version), options)
  }

  /** With the guards, an update holding only the scripts asset goes on to
      post-install with no identifier failed, and only an error opening
      `assets.json` can escape. */
  lemma OnlyScriptsAssetFinishes(w: World, version: string, fromRevision: int, options: Option<map<string, Json>>, s: Asset)
    requires w.manifest == Ok([s]) && s.kuid == ScriptsKuid && s.revision > fromRevision
    requires w.scripts.None? && Echo("Hello World", w.echo) == Ok(true)
    ensures RunInstallerIntended(w, version, fromRevision, options) == Finish(w, [], options)
    ensures RunInstallerIntended(w, version, fromRevision, options).raised.Some? ==>
              RunInstallerIntended(w, version, fromRevision, options).raised == w.openError
  {
    OnlyScriptsPrepared(w, fromRevision, s);
    assert AssetUrls([], version) == [];
    ConsumeNothing(w);
  }

  /** A run whose download met an error callback, or whose queue met an
      install error, blocks for ever with at most two error reports shown,
      the error callback's last, and never reaches the closing message. */
  lemma ErrorRunBlocks(w: World, urls: seq<string>, options: Option<map<string, Json>>)
    requires var client := Downloader.Run(urls, Downloader.DefaultMaxRetries, w.downloads);
      (exists i :: 0 <= i < |client.callbacks| && client.callbacks[i].Failed?)
      || Consume(w, urls).queueError.Some?
    ensures var o := Proceed(w, urls, options);
      && o.hangs && o.raised.None? && 1 <= |o.shown| <= 2
      && (forall k :: 0 <= k < |o.shown| ==> o.shown[k].kind == "error" || o.shown[k].kind == "nointernet")
      && (forall k :: 0 <= k < |o.shown| ==> o.shown[k].title != DoneTitle)
  {
    var client := Downloader.Run(urls, Downloader.DefaultMaxRetries, w.downloads);
    UntilFailureFinds(client.callbacks);
    ConsumeFailure(w, urls);
    ProceedAfterError(w, urls, options);
  }

  /** The stage's failure is the first error callback of the download. */
  lemma ConsumeFailure(w: World, urls: seq<string>)
    ensures Consume(w, urls).failure
              == UntilFailure(Downloader.Run(urls, Downloader.DefaultMaxRetries, w.downloads).callbacks).1
  {
  }

  lemma ProceedAfterError(w: World, urls: seq<string>, options: Option<map<string, Json>>)
    requires Consume(w, urls).failure.Some? || Consume(w, urls).queueError.Some?
    ensures Proceed(w, urls, options) == Outcome(Shown(Consume(w, urls)), None, true)
  {
  }

  /** No report of the error handler carries the closing title. */
  lemma HandledNeverDone()
    ensures forall e :: Handle(e).title != DoneTitle
  {
    forall e ensures Handle(e).title != DoneTitle {
      var t := Handle(e).title;
      assert t[0] != DoneTitle[0];
    }
  }

  /** The error callback that blocks the download is the first one, and its
      report is the last shown. */
  lemma FirstFailureShownLast(w: World, urls: seq<string>, options: Option<map<string, Json>>, i: nat)
    requires var client := Downloader.Run(urls, Downloader.DefaultMaxRetries, w.downloads);
      && i < |client.callbacks| && client.callbacks[i].Failed?
      && forall j :: 0 <= j < i ==> client.callbacks[j].Completed?
    ensures var o := Proceed(w, urls, options);
      var client := Downloader.Run(urls, Downloader.DefaultMaxRetries, w.downloads);
      o.shown != [] && o.shown[|o.shown| - 1] == Handle(client.callbacks[i].error)
  {
    var client := Downloader.Run(urls, Downloader.DefaultMaxRetries, w.downloads);
    var (done, failure) := UntilFailure(client.callbacks);
    UntilFailureFinds(client.callbacks);
    FirstFailureAt(client.callbacks, i);
    ConsumeFailure(w, urls);
    ProceedAfterError(w, urls, options);
  }

  lemma FirstFailureAt(cbs: seq<Downloader.Callback>, i: nat)
    requires i < |cbs| && cbs[i].Failed? && forall j :: 0 <= j < i ==> cbs[j].Completed?
    ensures UntilFailure(cbs).1 == Some(cbs[i].error)
  {
    var (done, failure) := UntilFailure(cbs);
    UntilFailureFinds(cbs);
    if |done| > i {
      assert false;
    }
  }

  /** A run in which every download completed and the queue took every
      archive without error goes on to post-install with the identifiers the
      queue left failed. */
  lemma CleanRunFinishes(w: World, urls: seq<string>, options: Option<map<string, Json>>)
    requires var client := Downloader.Run(urls, Downloader.DefaultMaxRetries, w.downloads);
      && client.callbacks != []
      && (forall i :: 0 <= i < |client.callbacks| ==> client.callbacks[i].Completed?)
      && Pipeline.RunQueue(QueueEntries(client.callbacks, w.unpack) + [Pipeline.Entry(None, false)], Pipeline.Fresh).1.None?
    ensures var client := Downloader.Run(urls, Downloader.DefaultMaxRetries, w.downloads);
      var entries := QueueEntries(client.callbacks, w.unpack) + [Pipeline.Entry(None, false)];
      Proceed(w, urls, options) == Finish(w, Pipeline.RunQueue(entries, Pipeline.Fresh).0.failed, options)
  {
    var client := Downloader.Run(urls, Downloader.DefaultMaxRetries, w.downloads);
    UntilFailureFinds(client.callbacks);
    assert Downloader.Completions(client.callbacks) > 0 by {
      assert client.callbacks[0].Completed?;
    }
  }
}

=== FILE: patcher.dfy ===
/** The executable patch (usb_installer/trainz/patcher.py): every occurrence
    of each junction and slack sound path in the program image is
    overwritten by `0x90` bytes, always starting from the backed-up original. */
module Patcher {
  import opened Base
  import opened Errors
  import opened PyStr

  /** The byte written over every matched byte. */
  const Nop: byte := 0x90

  const JunctionDir := "sounds/junction/"
  const PointsSound := "wheels_over_points_"
  const Wav := ".wav"

  /** The sound paths to silence, in the order they are processed. */
  const SoundPaths: seq<string> := [
    JunctionDir + "bump" + Wav,
    JunctionDir + PointsSound + "1" + Wav,
    JunctionDir + PointsSound + "2" + Wav,
    JunctionDir + PointsSound + "3" + Wav,
    JunctionDir + PointsSound + "4" + Wav,
    JunctionDir + PointsSound + "5" + Wav,
    JunctionDir + PointsSound + "6" + Wav,
    "sounds/slack/slack%d" + Wav
  ]

  function Nops(n: nat): (r: seq<byte>)
    ensures |r| == n && forall k :: 0 <= k < n ==> r[k] == Nop
  {
    seq(n, _ => Nop)
  }

  predicate MatchAt(data: seq<byte>, pat: seq<byte>, p: nat) {
    p + |pat| <= |data| && data[p..p + |pat|] == pat
  }

  /** Position `k` lies inside an occurrence of `pat` that starts at or after `from`. */
  predicate Covered(data: seq<byte>, pat: seq<byte>, from: nat, k: nat) {
    exists p: nat | from <= p <= k :: k < p + |pat| && MatchAt(data, pat, p)
  }

  /** `b` is `a` with some bytes turned into `Nop`. */
  predicate NopsOf(a: seq<byte>, b: seq<byte>) {
    |a| == |b| && forall k :: 0 <= k < |a| ==> b[k] == a[k] || b[k] == Nop
  }

  /** Overwriting with `Nop` never creates an occurrence of a pattern that
      holds no `Nop`. */
  lemma NopsCreateNoMatch(a: seq<byte>, b: seq<byte>, pat: seq<byte>, p: nat)
    requires NopsOf(a, b) && Nop !in pat && MatchAt(b, pat, p)
    ensures MatchAt(a, pat, p)
  {
    forall j | 0 <= j < |pat| ensures a[p + j] == pat[j] {
      assert b[p + j] == b[p..p + |pat|][j] == pat[j];
      assert pat[j] in pat;
    }
    assert a[p..p + |pat|] == pat;
  }

  lemma NopsTransitive(a: seq<byte>, b: seq<byte>, c: seq<byte>)
    requires NopsOf(a, b) && NopsOf(b, c)
    ensures NopsOf(a, c)
  {
  }

  /** The matches `finditer` yields from position `i` on: the leftmost
      occurrence, then the search resumes after it. Each match is overwritten
      only after the scan has passed it, so scanning the bytes as they were
      before the loop yields the same matches. */
  function Matches(data: seq<byte>, pat: seq<byte>, i: nat): (r: seq<nat>)
    requires pat != []
    ensures forall j :: 0 <= j < |r| ==> i <= r[j] && MatchAt(data, pat, r[j])
    decreases |data| - i
  {
    if i + |pat| > |data| then []
    else if data[i..i + |pat|] == pat then [i] + Matches(data, pat, i + |pat|)
    else Matches(data, pat, i + 1)
  }

  /** The scan finds the leftmost occurrence at or after `i` and resumes
      right after it: no occurrence start is skipped except inside a match. */
  lemma {:induction false} MatchesLeftmost(data: seq<byte>, pat: seq<byte>, i: nat)
    requires pat != []
    ensures Matches(data, pat, i) == [] ==> forall p :: i <= p ==> !MatchAt(data, pat, p)
    ensures Matches(data, pat, i) != [] ==>
              forall p :: i <= p < Matches(data, pat, i)[0] ==> !MatchAt(data, pat, p)
    ensures Matches(data, pat, i) != [] ==>
              Matches(data, pat, i)[1..] == Matches(data, pat, Matches(data, pat, i)[0] + |pat|)
    decreases |data| - i
  {
    var r := Matches(data, pat, i);
    if i + |pat| > |data| {
      assert r == [];
    } else if data[i..i + |pat|] == pat {
      var rest := Matches(data, pat, i + |pat|);
      assert r == [i] + rest;
      assert r[0] == i && r[1..] == rest;
    } else {
      MatchesLeftmost(data, pat, i + 1);
      assert r == Matches(data, pat, i + 1);
      assert !MatchAt(data, pat, i);
      var stop := if r == [] then |data| + 1 else r[0];
      forall p | i <= p < stop ensures !MatchAt(data, pat, p) {
        if p != i {
          assert i + 1 <= p;
        }
      }
      if r == [] {
        forall p | i <= p ensures !MatchAt(data, pat, p) {
          if p >= stop {
            assert p + |pat| > |data|;
          }
        }
      }
    }
  }

  /** Matches do not overlap: each starts at least `|pat|` after the previous. */
  lemma {:induction false} MatchesSpaced(data: seq<byte>, pat: seq<byte>, i: nat)
    requires pat != []
    ensures forall j :: 0 <= j < |Matches(data, pat, i)| - 1 ==>
              Matches(data, pat, i)[j] + |pat| <= Matches(data, pat, i)[j + 1]
    decreases |data| - i
  {
    var r := Matches(data, pat, i);
    if i + |pat| > |data| {
      assert r == [];
    } else if data[i..i + |pat|] == pat {
      var rest := Matches(data, pat, i + |pat|);
      MatchesSpaced(data, pat, i + |pat|);
      assert r == [i] + rest;
      ConsSpaced(i, rest, |pat|);
    } else {
      MatchesSpaced(data, pat, i + 1);
      assert r == Matches(data, pat, i + 1);
    }
  }

  lemma ConsSpaced(x: nat, rest: seq<nat>, len: nat)
    requires forall j :: 0 <= j < |rest| ==> x + len <= rest[j]
    requires forall j :: 0 <= j < |rest| - 1 ==> rest[j] + len <= rest[j + 1]
    ensures forall j :: 0 <= j < |[x] + rest| - 1 ==> ([x] + rest)[j] + len <= ([x] + rest)[j + 1]
  {
    var r := [x] + rest;
    forall j | 0 <= j < |r| - 1 ensures r[j] + len <= r[j + 1] {
      assert r[j + 1] == rest[j];
      if j > 0 {
        assert r[j] == rest[j - 1];
      }
    }
  }

  /** Position `k` lies in one of the matches starting at `starts`. */
  predicate Hit(starts: seq<nat>, len: nat, k: nat) {
    starts != [] && ((starts[0] <= k < starts[0] + len) || Hit(starts[1..], len, k))
  }

  /** `replace_strings_with_nops` for one target: every byte of every match
      becomes `Nop`; an empty target matches only empty slices and changes
      nothing. */
  function NopOut(data: seq<byte>, pat: seq<byte>): (r: seq<byte>)
    ensures NopsOf(data, r)
    ensures pat == [] ==> r == data
    ensures pat != [] ==> forall k :: 0 <= k < |data| ==>
              r[k] == if Hit(Matches(data, pat, 0), |pat|, k) then Nop else data[k]
  {
    if pat == [] then data
    else
      var m := Matches(data, pat, 0);
      seq(|data|, k requires 0 <= k < |data| => if Hit(m, |pat|, k) then Nop else data[k])
  }

  /** A position inside a match lies inside an occurrence. */
  lemma {:induction false} HitIsCovered(data: seq<byte>, pat: seq<byte>, i: nat, k: nat)
    requires pat != [] && Hit(Matches(data, pat, i), |pat|, k)
    ensures Covered(data, pat, i, k)
    decreases |data| - i
  {
    var m := Matches(data, pat, i);
    if m[0] <= k < m[0] + |pat| {
      assert MatchAt(data, pat, m[0]);
    } else if data[i..i + |pat|] == pat {
      assert m[1..] == Matches(data, pat, i + |pat|);
      HitIsCovered(data, pat, i + |pat|, k);
      var p: nat :| i + |pat| <= p <= k && k < p + |pat| && MatchAt(data, pat, p);
    } else {
      HitIsCovered(data, pat, i + 1, k);
      var p: nat :| i + 1 <= p <= k && k < p + |pat| && MatchAt(data, pat, p);
    }
  }

  /** Bytes outside every occurrence of the target are unchanged. */
  lemma NopOutKeepsUncovered(data: seq<byte>, pat: seq<byte>, k: nat)
    requires k < |data| && !Covered(data, pat, 0, k)
    ensures NopOut(data, pat)[k] == data[k]
  {
    if pat != [] && Hit(Matches(data, pat, 0), |pat|, k) {
      HitIsCovered(data, pat, 0, k);
    }
  }

  /** Every occurrence overlaps some match: the scan cannot step over one. */
  lemma {:induction false} OccurrenceIsHit(data: seq<byte>, pat: seq<byte>, i: nat, p: nat) returns (q: nat)
    requires pat != [] && i <= p && MatchAt(data, pat, p)
    ensures p <= q < p + |pat| && Hit(Matches(data, pat, i), |pat|, q)
    decreases |data| - i
  {
    if i + |pat| > |data| {
      assert false;
    } else if data[i..i + |pat|] == pat {
      var m := Matches(data, pat, i);
      assert m[1..] == Matches(data, pat, i + |pat|);
      if p < i + |pat| {
        q := p;
      } else {
        q := OccurrenceIsHit(data, pat, i + |pat|, p);
      }
    } else {
      assert p != i;
      q := OccurrenceIsHit(data, pat, i + 1, p);
    }
  }

  /** After `NopOut`, the target occurs nowhere. */
  lemma NopOutLeavesNone(data: seq<byte>, pat: seq<byte>, p: nat)
    requires pat != [] && Nop !in pat
    ensures !MatchAt(NopOut(data, pat), pat, p)
  {
    var r := NopOut(data, pat);
    if MatchAt(r, pat, p) {
      NopsCreateNoMatch(data, r, pat, p);
      var q := OccurrenceIsHit(data, pat, 0, p);
    }
  }

  /** All targets in list order. */
  function PatchAll(data: seq<byte>, targets: seq<seq<byte>>): (r: seq<byte>)
    ensures NopsOf(data, r)
    decreases |targets|
  {
    if targets == [] then data
    else
      var r := PatchAll(NopOut(data, targets[0]), targets[1..]);
      NopsTransitive(data, NopOut(data, targets[0]), r);
      r
  }

  /** A byte inside no occurrence of any target is left alone. */
  lemma {:induction false} PatchAllKeepsUncovered(data: seq<byte>, targets: seq<seq<byte>>, k: nat)
    requires k < |data|
    requires forall t :: t in targets ==> Nop !in t
    requires forall t :: t in targets ==> !Covered(data, t, 0, k)
    ensures PatchAll(data, targets)[k] == data[k]
    decreases |targets|
  {
    if targets != [] {
      var mid := NopOut(data, targets[0]);
      assert targets[0] in targets;
      NopOutKeepsUncovered(data, targets[0], k);
      forall t | t in targets[1..] ensures !Covered(mid, t, 0, k) {
        assert t in targets;
        if Covered(mid, t, 0, k) {
          var p: nat :| 0 <= p <= k && k < p + |t| && MatchAt(mid, t, p);
          NopsCreateNoMatch(data, mid, t, p);
          assert Covered(data, t, 0, k);
        }
      }
      PatchAllKeepsUncovered(mid, targets[1..], k);
    }
  }

  /** No target occurs anywhere in the patched image. */
  lemma {:induction false} PatchAllLeavesNone(data: seq<byte>, targets: seq<seq<byte>>, t: seq<byte>, p: nat)
    requires forall u :: u in targets ==> u != [] && Nop !in u
    requires t in targets
    ensures !MatchAt(PatchAll(data, targets), t, p)
    decreases |targets|
  {
    var mid := NopOut(data, targets[0]);
    var r := PatchAll(data, targets);
    assert targets[0] in targets;
    if t == targets[0] {
      NopOutLeavesNone(data, t, p);
      if MatchAt(r, t, p) {
        assert r == PatchAll(mid, targets[1..]);
        NopsCreateNoMatch(mid, r, t, p);
      }
    } else {
      assert t in targets[1..];
      forall u | u in targets[1..] ensures u != [] && Nop !in u { assert u in targets; }
      PatchAllLeavesNone(mid, targets[1..], t, p);
    }
  }

  predicate Ascii(s: string) {
    forall i :: 0 <= i < |s| ==> s[i] as int < 0x80
  }

  /** `s.encode()` for each target string. */
  function Encode(paths: seq<string>): (r: seq<seq<byte>>)
    ensures |r| == |paths| && forall i :: 0 <= i < |paths| ==> r[i] == Utf8(paths[i])
  {
    seq(|paths|, i requires 0 <= i < |paths| => Utf8(paths[i]))
  }

  /** The target byte strings. */
  function Targets(): seq<seq<byte>> {
    Encode(SoundPaths)
  }

  lemma {:induction false} AsciiUtf8(s: string)
    requires Ascii(s)
    ensures |Utf8(s)| == |s| && forall i :: 0 <= i < |s| ==> Utf8(s)[i] as int == s[i] as int
  {
    if s != [] {
      AsciiUtf8(s[1..]);
    }
  }

  lemma AsciiHasNoNop(s: string)
    requires s != [] && Ascii(s)
    ensures Utf8(s) != [] && Nop !in Utf8(s)
  {
    AsciiUtf8(s);
  }

  /** Non-empty ASCII strings encode to non-empty targets free of `Nop`. */
  lemma EncodedArePlain(paths: seq<string>)
    requires forall i :: 0 <= i < |paths| ==> paths[i] != [] && Ascii(paths[i])
    ensures forall t :: t in Encode(paths) ==> t != [] && Nop !in t
  {
    forall t | t in Encode(paths) ensures t != [] && Nop !in t {
      var i :| 0 <= i < |paths| && Encode(paths)[i] == t;
      AsciiHasNoNop(paths[i]);
    }
  }

  lemma SoundPathsAscii()
    ensures forall i :: 0 <= i < |SoundPaths| ==> SoundPaths[i] != [] && Ascii(SoundPaths[i])
  {
    PiecesAscii();
    forall i | 0 <= i < |SoundPaths| ensures SoundPaths[i] != [] && Ascii(SoundPaths[i]) {
      if i == 0 {
        AsciiConcat(JunctionDir, "bump");
        AsciiConcat(JunctionDir + "bump", Wav);
      } else if i < 7 {
        var d := [SoundPaths[i][|JunctionDir| + |PointsSound|]];
        assert SoundPaths[i] == JunctionDir + PointsSound + d + Wav;
        assert Ascii(d);
        AsciiConcat(JunctionDir, PointsSound);
        AsciiConcat(JunctionDir + PointsSound, d);
        AsciiConcat(JunctionDir + PointsSound + d, Wav);
      } else {
        AsciiConcat("sounds/slack/slack%d", Wav);
      }
    }
  }

  lemma PiecesAscii()
    ensures Ascii(JunctionDir) && Ascii(PointsSound) && Ascii(Wav)
    ensures Ascii("bump") && Ascii("sounds/slack/slack%d")
  {
    JunctionDirAscii();
    PointsSoundAscii();
    SlackAscii();
  }

  lemma JunctionDirAscii() ensures Ascii(JunctionDir) { }
  lemma PointsSoundAscii() ensures Ascii(PointsSound) { }
  lemma SlackAscii() ensures Ascii("sounds/slack/slack%d") { }

  lemma AsciiConcat(a: string, b: string)
    requires Ascii(a) && Ascii(b)
    ensures Ascii(a + b)
  {
    forall i | 0 <= i < |a + b| ensures (a + b)[i] as int < 0x80 {
      if i >= |a| {
        assert (a + b)[i] == b[i - |a|];
      }
    }
  }

  /** Every target is non-empty and free of `Nop`. */
  lemma TargetsArePlain()
    ensures forall t :: t in Targets() ==> t != [] && Nop !in t
  {
    SoundPathsAscii();
    EncodedArePlain(SoundPaths);
  }

  // ---------------------------------------------------------------------
  // `patch_sounds` over a file system given as a map from path to contents.

  type Files = map<string, seq<byte>>

  /** `with_suffix(suffix + ".bak")`: the path with `.bak` appended. */
  function BackupPath(exe: string): (b: string)
    ensures b != exe
  {
    exe + ".bak"
  }

  /** The unpatched program: the backup when there is one, else the file. */
  function Original(fs: Files, exe: string): Option<seq<byte>> {
    if BackupPath(exe) in fs then Some(fs[BackupPath(exe)])
    else if exe in fs then Some(fs[exe])
    else None
  }

  /** `errno.EACCES`, the `errno` of a `PermissionError`. */
  const EACCES: int := 13

  /** `patch_sounds` with the target list as a parameter: restore the backup
      over the program if it exists, copy the program to the backup, then
      write the patched backup to the program. Without either file the copy
      raises `FileNotFoundError`; replacing, copying onto or opening for
      writing a path in `locked` raises `PermissionError`. A missing program
      is reported before a write-protected backup that does not exist yet. */
  function PatchWith(fs: Files, exe: string, targets: seq<seq<byte>>, locked: set<string>): (r: Result<Files, Exc>)
    ensures r.Ok? <==> Original(fs, exe).Some? && exe !in locked && BackupPath(exe) !in locked
    ensures r == Err(OSError(FileNotFoundError, Some(2))) <==> Original(fs, exe).None?
    ensures r.Err? && Original(fs, exe).Some? ==> r.error == OSError(PermissionError, Some(EACCES))
  {
    var bak := BackupPath(exe);
    if bak in fs && (bak in locked || exe in locked) then Err(OSError(PermissionError, Some(EACCES)))
    else
      var restored := if bak in fs then (fs - {bak})[exe := fs[bak]] else fs;
      if exe !in restored then Err(OSError(FileNotFoundError, Some(2)))
      else if bak in locked || exe in locked then Err(OSError(PermissionError, Some(EACCES)))
      else
        var original := restored[exe];
        Ok(restored[bak := original][exe := PatchAll(original, targets)])
  }

  /** `patch_sounds`. */
  function PatchSounds(fs: Files, exe: string, locked: set<string>): Result<Files, Exc> {
    PatchWith(fs, exe, Targets(), locked)
  }

  /** The backup holds the original, the program its patched copy, and no
      other file changes. */
  lemma PatchWithFiles(fs: Files, exe: string, targets: seq<seq<byte>>, locked: set<string>)
    requires PatchWith(fs, exe, targets, locked).Ok?
    ensures var r := PatchWith(fs, exe, targets, locked).value;
      && (forall f :: f in r <==> f in fs || f == exe || f == BackupPath(exe))
      && r[BackupPath(exe)] == Original(fs, exe).value
      && r[exe] == PatchAll(Original(fs, exe).value, targets)
      && forall f :: f in fs && f != exe && f != BackupPath(exe) ==> r[f] == fs[f]
  {
  }

  /** Patching twice is patching once: the second run restores the backup
      first, so it starts from the same original. */
  lemma PatchWithIdempotent(fs: Files, exe: string, targets: seq<seq<byte>>, locked: set<string>)
    requires PatchWith(fs, exe, targets, locked).Ok?
    ensures PatchWith(PatchWith(fs, exe, targets, locked).value, exe, targets, locked) == PatchWith(fs, exe, targets, locked)
  {
    var r := PatchWith(fs, exe, targets, locked).value;
    PatchWithFiles(fs, exe, targets, locked);
    assert Original(r, exe) == Original(fs, exe);
    var r2 := PatchWith(r, exe, targets, locked).value;
    PatchWithFiles(r, exe, targets, locked);
    assert forall f :: f in r2 <==> f in r;
    assert forall f :: f in r2 ==> r2[f] == r[f];
    assert r2 == r;
  }

  lemma PatchSoundsIdempotent(fs: Files, exe: string, locked: set<string>)
    requires PatchSounds(fs, exe, locked).Ok?
    ensures PatchSounds(PatchSounds(fs, exe, locked).value, exe, locked) == PatchSounds(fs, exe, locked)
  {
    PatchWithIdempotent(fs, exe, Targets(), locked);
  }

  /** The patched program has the original's length, changes only bytes to
      `Nop`, keeps every byte outside the sound paths, and holds none of them. */
  lemma PatchSoundsEffect(fs: Files, exe: string, locked: set<string>, k: nat, t: seq<byte>, p: nat)
    requires PatchSounds(fs, exe, locked).Ok?
    requires t in Targets()
    ensures var orig := Original(fs, exe).value;
      var patched := PatchSounds(fs, exe, locked).value[exe];
      && NopsOf(orig, patched)
      && !MatchAt(patched, t, p)
      && (k < |orig| && (forall u :: u in Targets() ==> !Covered(orig, u, 0, k)) ==> patched[k] == orig[k])
  {
    var orig := Original(fs, exe).value;
    TargetsArePlain();
    PatchAllLeavesNone(orig, Targets(), t, p);
    if k < |orig| && (forall u :: u in Targets() ==> !Covered(orig, u, 0, k)) {
      PatchAllKeepsUncovered(orig, Targets(), k);
    }
  }
}

=== FILE: pipeline.dfy ===
/** Installing downloaded archives (installer/installer.py): the downscale
    rule for textures, the per-archive delete/install/commit step with its
    bookkeeping, and the queue consumer as a fold over the entries it takes. */
module Pipeline {
  import opened Base
  import opened Errors
  import opened PyStr
  import opened Kuids
  import TC = TrainzConfig
  import opened TrainzUtil

  // ---------------------------------------------------------------------
  // Texture downscaling.

  /** A file of an extracted archive: its name and, for an image, its size. */
  datatype Picture = Picture(name: string, width: nat, height: nat)

  /** `PurePath.suffix` of a file name: from the last `.` on, unless that dot
      is the first or the last character. */
  function Suffix(name: string): (r: string)
    ensures r == [] || (r[0] == '.' && |r| >= 2 && EndsWith(name, r) && |r| < |name|)
  {
    match LastDot(name)
    case Some(i) => if 0 < i < |name| - 1 then name[i..] else []
    case None => []
  }

  function LastDot(s: string): (r: Option<nat>)
    ensures r.Some? ==> r.value < |s| && s[r.value] == '.' && '.' !in s[r.value + 1..]
    ensures r.None? ==> '.' !in s
  {
    if s == [] then None
    else if s[|s| - 1] == '.' then Some(|s| - 1)
    else
      match LastDot(s[..|s| - 1])
      case Some(i) => assert s[i + 1..] == s[..|s| - 1][i + 1..] + [s[|s| - 1]]; Some(i)
      case None => assert s == s[..|s| - 1] + [s[|s| - 1]]; None
  }

  lemma {:induction false} LastDotOf(a: string, b: string)
    requires '.' !in b
    ensures LastDot(a + "." + b) == Some(|a|)
  {
    var s := a + "." + b;
    if b == [] {
      assert s[|s| - 1] == '.';
    } else {
      var b' := b[..|b| - 1];
      assert '.' !in b' by {
        forall k | 0 <= k < |b'| ensures b'[k] != '.' {
          assert b'[k] == b[k];
        }
      }
      LastDotOf(a, b');
      assert s[..|s| - 1] == a + "." + b';
      assert s[|s| - 1] == b[|b| - 1];
    }
  }

  /** The suffix of `stem.ext` is `.ext` when the extension has no dot. */
  lemma SuffixOfDotted(stem: string, ext: string)
    requires stem != [] && ext != [] && '.' !in ext
    ensures Suffix(stem + "." + ext) == "." + ext
  {
    var name := stem + "." + ext;
    LastDotOf(stem, ext);
    assert name[|stem|..] == "." + ext;
  }

  const ImageSuffixes: seq<string> := [".bmp", ".jpg", ".jpeg", ".tga"]

  /** The suffix test ignores case. */
  predicate IsImage(name: string) {
    Lower(Suffix(name)) in ImageSuffixes
  }

  /** The new size of an image: halved (rounding down) unless either side is
      at most 512. */
  function NewSize(width: nat, height: nat): (r: Option<(nat, nat)>)
    ensures r.Some? <==> width > 512 && height > 512
    ensures r.Some? ==> 2 * r.value.0 <= width < 2 * r.value.0 + 2
    ensures r.Some? ==> 2 * r.value.1 <= height < 2 * r.value.1 + 2
  {
    if width <= 512 || height <= 512 then None else Some((width / 2, height / 2))
  }

  function Downscale(p: Picture): (r: Picture)
    ensures r.name == p.name
  {
    if IsImage(p.name) && NewSize(p.width, p.height).Some? then
      var (w, h) := NewSize(p.width, p.height).value;
      p.(width := w, height := h)
    else p
  }

  /** A file is rewritten exactly when it is an image larger than 512 on both
      sides, and then both sides shrink. */
  lemma DownscaleChanges(p: Picture)
    ensures Downscale(p) != p <==> IsImage(p.name) && p.width > 512 && p.height > 512
    ensures Downscale(p) != p ==> Downscale(p).width < p.width && Downscale(p).height < p.height
    ensures Downscale(p).width <= p.width && Downscale(p).height <= p.height
  {
  }

  /** The rule does not depend on the case of the extension. */
  lemma ImageIgnoresCase(stem: string, ext: string)
    requires stem != [] && ext != [] && '.' !in ext
    requires '.' !in Lower(ext)
    ensures IsImage(stem + "." + ext) <==> Lower("." + ext) in ImageSuffixes
  {
    SuffixOfDotted(stem, ext);
  }

  function DownscaleAll(ps: seq<Picture>): (r: seq<Picture>)
    ensures |r| == |ps|
    ensures forall i :: 0 <= i < |ps| ==> r[i] == Downscale(ps[i])
  {
    if ps == [] then [] else [Downscale(ps[0])] + DownscaleAll(ps[1..])
  }

  // ---------------------------------------------------------------------
  // One archive.

  /** The three tool runs an archive's installation makes. */
  datatype ToolRuns = ToolRuns(delete: Invocation, install: Invocation, commit: Invocation)

  /** A downloaded archive: its path, the lines of its `config.txt` (or the
      error extracting it raised), and what the tool answers for it. */
  datatype Item = Item(archive: string, config: Result<seq<string>, Exc>, tool: ToolRuns)

  /** The installer's counters: archives installed, identifiers whose commit
      failed, archives deleted. */
  datatype Progress = Progress(installed: nat, failed: seq<string>, unlinked: seq<string>)

  const Fresh := Progress(0, [], [])

  /** The identifier handed to the tool: the `kuid` entry as text. Anything
      else (a missing entry, a number) is not a valid argument. */
  function KuidArg(v: Option<TC.Value>): (r: Result<string, Exc>)
    ensures r.Ok? <==> v.Some? && (v.value.Text? || v.value.KuidValue?)
    ensures r.Err? ==> r.error == Builtin(TypeError)
  {
    match v
    case Some(Text(s)) => Ok(s)
    case Some(KuidValue(k)) => Ok(k.text)
    case _ => Err(Builtin(TypeError))
  }

  /** What reading the archive yields before the tool is called: its
      identifier, or the error. The display name must exist, since the
      progress message reads it. */
  function Identify(item: Item): (r: Result<string, Exc>)
    ensures r.Ok? ==> item.config.Ok? && TC.Parse(item.config.value).Ok?
                      && TC.Username(TC.Parse(item.config.value).value).Ok?
                      && TC.KuidEntry(TC.Parse(item.config.value).value).Some?
  {
    match item.config
    case Err(e) => Err(e)
    case Ok(lines) =>
      match TC.Parse(lines)
      case Err(e) => Err(e)
      case Ok(data) =>
        match TC.Username(data)
        case Err(e) => Err(e)
        case Ok(_) => KuidArg(TC.KuidEntry(data))
  }

  /** `install_from_path`: delete, install, commit; a commit that raises
      `TrainzError` records the identifier as failed; the count rises and the
      archive is deleted only when the step completes. */
  function Install(st: Progress, item: Item): (r: Result<Progress, Exc>)
    ensures r.Ok? ==> Identify(item).Ok?
    ensures r.Ok? ==> r.value.installed == st.installed + 1 && r.value.unlinked == st.unlinked + [item.archive]
    ensures r.Ok? ==> || (r.value.failed == st.failed && Acknowledge(item.tool.commit).Ok?)
                      || (r.value.failed == st.failed + [Identify(item).value]
                          && Acknowledge(item.tool.commit).Err? && Acknowledge(item.tool.commit).error.TrainzError?)
    ensures r.Err? ==> Identify(item).Err? || Acknowledge(item.tool.delete).Err?
                       || InstalledId(item.tool.install).Err? || Acknowledge(item.tool.commit).Err?
  {
    match Identify(item)
    case Err(e) => Err(e)
    case Ok(kuid) =>
      match Acknowledge(item.tool.delete)
      case Err(e) => Err(e)
      case Ok(_) =>
        match InstalledId(item.tool.install)
        case Err(e) => Err(e)
        case Ok(_) =>
          var failed :=
            match Acknowledge(item.tool.commit)
            case Ok(_) => Ok(st.failed)
            case Err(TrainzError(_)) => Ok(st.failed + [kuid])
            case Err(e) => Err(e);
          match failed
          case Err(e) => Err(e)
          case Ok(f) => Ok(Progress(st.installed + 1, f, st.unlinked + [item.archive]))
  }

  /** A rejected commit does not stop the installation of the archive. */
  lemma RejectedCommitIsRecorded(st: Progress, item: Item, code: string, message: string, rc: int)
    requires Identify(item).Ok?
    requires RunCommand(item.tool.delete).Ok? && InstalledId(item.tool.install).Ok?
    requires ' ' !in code && ':' !in code
    requires item.tool.commit == Finished([FailureLine(code, message)], rc)
    ensures Install(st, item).Ok?
    ensures Install(st, item).value.failed == st.failed + [Identify(item).value]
  {
    AcknowledgeRaisesOnFailureLine(code, message, rc);
  }

  // ---------------------------------------------------------------------
  // The queue consumer.

  /** What the consumer takes from the queue, with the cancellation flag as
      it reads it at that moment; `None` is the end-of-queue marker. */
  datatype Entry = Entry(item: Option<Item>, cancelled: bool)

  predicate Stops(e: Entry) {
    e.item.None? || e.cancelled
  }

  /** The consumer loop for any installation step: take entries in order
      until the marker, a cancellation or the first error. */
  function RunSteps(step: (Progress, Item) -> Result<Progress, Exc>, entries: seq<Entry>, st: Progress): (r: (Progress, Option<Exc>))
  {
    if entries == [] || Stops(entries[0]) then (st, None)
    else
      match step(st, entries[0].item.value)
      case Err(e) => (st, Some(e))
      case Ok(next) => RunSteps(step, entries[1..], next)
  }

  /** `_run_queue`: install in order until the marker, a cancellation or the
      first error, which is handed to the error handler. */
  function RunQueue(entries: seq<Entry>, st: Progress): (r: (Progress, Option<Exc>))
    ensures st.unlinked <= r.0.unlinked && st.failed <= r.0.failed
    ensures r.0.installed - st.installed == |r.0.unlinked| - |st.unlinked| <= |entries|
  {
    QueueCounters(entries, st);
    RunSteps(Install, entries, st)
  }

  lemma {:induction false} QueueCounters(entries: seq<Entry>, st: Progress)
    ensures var r := RunSteps(Install, entries, st);
      && st.unlinked <= r.0.unlinked && st.failed <= r.0.failed
      && r.0.installed - st.installed == |r.0.unlinked| - |st.unlinked| <= |entries|
  {
    if entries != [] && !Stops(entries[0]) {
      var r := Install(st, entries[0].item.value);
      if r.Ok? {
        QueueCounters(entries[1..], r.value);
      }
    }
  }

  /** The archives the entries carry, in order. */
  function Archives(entries: seq<Entry>): seq<string> {
    if entries == [] then []
    else (if entries[0].item.Some? then [entries[0].item.value.archive] else []) + Archives(entries[1..])
  }

  /** Everything after the end marker or a cancellation is ignored. */
  lemma StopsAtMarker(pre: seq<Entry>, stop: Entry, rest: seq<Entry>, st: Progress)
    requires Stops(stop)
    ensures RunQueue(pre + [stop] + rest, st) == RunQueue(pre, st)
  {
    StepsStopAtMarker(Install, pre, stop, rest, st);
  }

  lemma {:induction false} StepsStopAtMarker(step: (Progress, Item) -> Result<Progress, Exc>, pre: seq<Entry>, stop: Entry, rest: seq<Entry>, st: Progress)
    requires Stops(stop)
    ensures RunSteps(step, pre + [stop] + rest, st) == RunSteps(step, pre, st)
  {
    var q := pre + [stop] + rest;
    if pre == [] {
      assert q[0] == stop;
    } else {
      assert q[0] == pre[0];
      assert q[1..] == pre[1..] + [stop] + rest;
      if !Stops(pre[0]) {
        match step(st, pre[0].item.value)
        case Err(e) =>
        case Ok(next) => StepsStopAtMarker(step, pre[1..], stop, rest, next);
      }
    }
  }

  /** A step that, whenever it succeeds, records its archive as deleted. */
  ghost predicate AppendsArchive(step: (Progress, Item) -> Result<Progress, Exc>) {
    forall p: Progress, it: Item :: step(p, it).Ok? ==> step(p, it).value.unlinked == p.unlinked + [it.archive]
  }

  lemma InstallAppendsArchive()
    ensures AppendsArchive(Install)
  {
  }

  /** The archives deleted are those of a prefix of the queue, in queue
      order, and none of that prefix asked the consumer to stop. */
  lemma QueueIsFifo(entries: seq<Entry>, st: Progress) returns (k: nat)
    ensures k <= |entries|
    ensures forall i :: 0 <= i < k ==> !Stops(entries[i])
    ensures RunQueue(entries, st).0.unlinked == st.unlinked + Archives(entries[..k])
  {
    InstallAppendsArchive();
    k := StepsFifo(Install, entries, st);
  }

  lemma {:induction false} StepsFifo(step: (Progress, Item) -> Result<Progress, Exc>, entries: seq<Entry>, st: Progress) returns (k: nat)
    requires AppendsArchive(step)
    ensures k <= |entries|
    ensures forall i :: 0 <= i < k ==> !Stops(entries[i])
    ensures RunSteps(step, entries, st).0.unlinked == st.unlinked + Archives(entries[..k])
  {
    if entries == [] || Stops(entries[0]) {
      k := 0;
    } else {
      var r := step(st, entries[0].item.value);
      if r.Err? {
        k := 0;
      } else {
        var k' := StepsFifo(step, entries[1..], r.value);
        k := k' + 1;
        ArchivesOfPrefix(entries, k);
      }
    }
  }

  lemma ArchivesOfPrefix(entries: seq<Entry>, k: nat)
    requires 0 < k <= |entries| && entries[0].item.Some?
    ensures Archives(entries[..k]) == [entries[0].item.value.archive] + Archives(entries[1..][..k - 1])
  {
    assert entries[..k][0] == entries[0];
    assert entries[..k][1..] == entries[1..][..k - 1];
  }

  /** An error ends the consumer: the state is the one before the failing
      archive, and the error goes to the handler. */
  lemma ErrorEndsQueue(pre: seq<Entry>, e: Entry, rest: seq<Entry>, st: Progress)
    requires !Stops(e)
    requires forall i :: 0 <= i < |pre| ==> !Stops(pre[i])
    requires RunQueue(pre, st).1.None?
    requires Install(RunQueue(pre, st).0, e.item.value).Err?
    ensures RunQueue(pre + [e] + rest, st)
              == (RunQueue(pre, st).0, Some(Install(RunQueue(pre, st).0, e.item.value).error))
  {
    QueueAppend(pre, [e] + rest, st);
    assert pre + [e] + rest == pre + ([e] + rest);
    assert ([e] + rest)[0] == e;
  }

  /** Running a queue whose prefix finishes normally continues from the
      prefix's state. */
  lemma QueueAppend(pre: seq<Entry>, rest: seq<Entry>, st: Progress)
    requires forall i :: 0 <= i < |pre| ==> !Stops(pre[i])
    requires RunQueue(pre, st).1.None?
    ensures RunQueue(pre + rest, st) == RunQueue(rest, RunQueue(pre, st).0)
  {
    StepsAppend(Install, pre, rest, st);
  }

  lemma {:induction false} StepsAppend(step: (Progress, Item) -> Result<Progress, Exc>, pre: seq<Entry>, rest: seq<Entry>, st: Progress)
    requires forall i :: 0 <= i < |pre| ==> !Stops(pre[i])
    requires RunSteps(step, pre, st).1.None?
    ensures RunSteps(step, pre + rest, st) == RunSteps(step, rest, RunSteps(step, pre, st).0)
  {
    if pre != [] {
      var q := pre + rest;
      assert q[0] == pre[0];
      assert q[1..] == pre[1..] + rest;
      match step(st, pre[0].item.value)
      case Err(e) =>
      case Ok(next) =>
        StepsAppend(step, pre[1..], rest, next);
    } else {
      assert pre + rest == rest;
    }
  }
}

=== FILE: postinstall.dfy ===
/** The work after the last archive (`_run_post_install` in
    installer/installer.py): committing the failed identifiers once more,
    rewriting `trainzoptions.txt`, and the optional sound patch. */
module PostInstall {
  import opened Base
  import opened Errors
  import opened PyStr
  import opened TrainzUtil
  import Patcher

  // ---------------------------------------------------------------------
  // Retrying failed commits.

  /** The outcome of `commit_asset` for the i-th retry, given the tool's
      reply to it. */
  function Commit(answer: (nat, string) -> Invocation): (nat, string) -> Result<bool, Exc> {
    (n: nat, kuid: string) => Acknowledge(answer(n, kuid))
  }

  /** The loop over a copy of the failed list: from entry `i` of `copy` on,
      commit again and remove the identifier unless the commit raised
      `TrainzError`. `commit(i, kuid)` is the outcome of the i-th retry.
      A `ValueError` from `list.remove` is kept as a possible outcome. */
  function Retry(copy: seq<string>, i: nat, current: seq<string>, commit: (nat, string) -> Result<bool, Exc>): (r: Result<seq<string>, Exc>)
    requires i <= |copy|
    decreases |copy| - i
  {
    if i == |copy| then Ok(current)
    else
      match commit(i, copy[i])
      case Ok(_) =>
        (match RemoveFirst(current, copy[i])
         case Some(rest) => Retry(copy, i + 1, rest, commit)
         case None => Err(Builtin(ValueError)))
      case Err(TrainzError(_)) => Retry(copy, i + 1, current, commit)
      case Err(e) => Err(e)
  }

  /** The entries from `i` on whose retry raised `TrainzError`. */
  function StillFailing(copy: seq<string>, i: nat, commit: (nat, string) -> Result<bool, Exc>): multiset<string>
    requires i <= |copy|
    decreases |copy| - i
  {
    if i == |copy| then multiset{}
    else
      var a := commit(i, copy[i]);
      (if a.Err? && a.error.TrainzError? then multiset{copy[i]} else multiset{}) + StillFailing(copy, i + 1, commit)
  }

  /** While the identifiers still to visit are all in the list, removal
      always finds its identifier, and the list ends up holding exactly the
      identifiers whose commit was rejected again, plus whatever was there
      besides. */
  lemma {:induction false} RetryKeepsRejected(copy: seq<string>, i: nat, current: seq<string>, commit: (nat, string) -> Result<bool, Exc>)
    requires i <= |copy|
    requires multiset(copy[i..]) <= multiset(current)
    requires forall n: nat, kuid :: commit(n, kuid).Err? ==> commit(n, kuid).error != Builtin(ValueError)
    ensures var r := Retry(copy, i, current, commit);
      && (r.Err? ==> r.error != Builtin(ValueError) && !r.error.TrainzError?)
      && (r.Ok? ==> multiset(r.value) + multiset(copy[i..]) == StillFailing(copy, i, commit) + multiset(current))
    decreases |copy| - i
  {
    if i < |copy| {
      assert copy[i..] == [copy[i]] + copy[i + 1..];
      assert multiset(copy[i..]) == multiset{copy[i]} + multiset(copy[i + 1..]);
      var a := commit(i, copy[i]);
      if a.Ok? {
        assert copy[i] in multiset(current);
        var rest := RemoveFirst(current, copy[i]).value;
        assert multiset(rest) + multiset{copy[i]} == multiset(current);
        MultisetCancel(multiset(copy[i + 1..]), multiset(rest), multiset(current), copy[i]);
        assert Retry(copy, i, current, commit) == Retry(copy, i + 1, rest, commit);
        assert StillFailing(copy, i, commit) == StillFailing(copy, i + 1, commit);
        RetryKeepsRejected(copy, i + 1, rest, commit);
        var r := Retry(copy, i + 1, rest, commit);
        if r.Ok? {
          var sf := StillFailing(copy, i + 1, commit);
          forall y ensures (multiset(r.value) + multiset(copy[i..]))[y] == (sf + multiset(current))[y] {
            assert (multiset(r.value) + multiset(copy[i + 1..]))[y] == (sf + multiset(rest))[y];
          }
          assert multiset(r.value) + multiset(copy[i..]) == sf + multiset(current);
        }
      } else if a.error.TrainzError? {
        assert Retry(copy, i, current, commit) == Retry(copy, i + 1, current, commit);
        assert StillFailing(copy, i, commit) == multiset{copy[i]} + StillFailing(copy, i + 1, commit);
        RetryKeepsRejected(copy, i + 1, current, commit);
        var r := Retry(copy, i + 1, current, commit);
        if r.Ok? {
          var sf := StillFailing(copy, i + 1, commit);
          forall y ensures (multiset(r.value) + multiset(copy[i..]))[y] == (multiset{copy[i]} + sf + multiset(current))[y] {
            assert (multiset(r.value) + multiset(copy[i + 1..]))[y] == (sf + multiset(current))[y];
          }
          assert multiset(r.value) + multiset(copy[i..]) == multiset{copy[i]} + sf + multiset(current);
        }
      }
    }
  }

  lemma MultisetCancel(a: multiset<string>, b: multiset<string>, c: multiset<string>, x: string)
    requires multiset{x} + a <= c && b + multiset{x} == c
    ensures a <= b
  {
    forall y ensures a[y] <= b[y] {
      assert (multiset{x} + a)[y] <= c[y];
    }
  }

  /** `for kuid in failed_assets.copy(): ...`. */
  function RetryFailed(failed: seq<string>, answer: (nat, string) -> Invocation): Result<seq<string>, Exc> {
    Retry(failed, 0, failed, Commit(answer))
  }

  /** After the retry the list holds, as a multiset, exactly the identifiers
      whose commit raised `TrainzError` again; a `False` reply still removes
      one; removal never fails. */
  lemma RetryFailedResult(failed: seq<string>, answer: (nat, string) -> Invocation)
    ensures var r := RetryFailed(failed, answer);
      && (r.Err? ==> r.error != Builtin(ValueError) && !r.error.TrainzError?)
      && (r.Ok? ==> multiset(r.value) == StillFailing(failed, 0, Commit(answer)))
  {
    assert failed[0..] == failed;
    forall n: nat, kuid | Commit(answer)(n, kuid).Err? ensures Commit(answer)(n, kuid).error != Builtin(ValueError) {
      var inv := answer(n, kuid);
      assert RunCommand(inv) == Err(Commit(answer)(n, kuid).error);
    }
    RetryKeepsRejected(failed, 0, failed, Commit(answer));
    var r := RetryFailed(failed, answer);
    if r.Ok? {
      var sf := StillFailing(failed, 0, Commit(answer));
      forall y ensures multiset(r.value)[y] == sf[y] {
        assert (multiset(r.value) + multiset(failed))[y] == (sf + multiset(failed))[y];
      }
    }
  }

  // ---------------------------------------------------------------------
  // The options file.

  /** The option lines kept from the file: those starting with `-`, stripped.
      Lines are taken without their terminator, which `strip` removes anyway. */
  function OptionLines(lines: seq<string>): (r: seq<string>)
    ensures |r| <= |lines|
  {
    if lines == [] then []
    else (if StartsWith(lines[0], "-") then [Strip(lines[0])] else []) + OptionLines(lines[1..])
  }

  function ReadOptions(text: string): seq<string> {
    OptionLines(SplitChar(text, '\n'))
  }

  /** Each option written on its own line. */
  function WriteOptions(opts: seq<string>): (r: string)
    ensures |r| >= |opts|
  {
    if opts == [] then "" else opts[0] + "\n" + WriteOptions(opts[1..])
  }

  /** An option as the file holds it: a stripped line starting with `-`. */
  predicate IsOption(o: string) {
    o != [] && o[0] == '-' && !IsSpace(o[|o| - 1]) && '\n' !in o
  }

  predicate WellFormed(opts: seq<string>) {
    forall k :: 0 <= k < |opts| ==> IsOption(opts[k])
  }

  const FreeCamera := "-freeintcam"
  const NoRailJointSound := "-disablerailjointsound"

  /** Append an option unless it is already there. */
  function Ensure(opts: seq<string>, wanted: bool, o: string): (r: seq<string>)
    ensures wanted ==> o in r
    ensures forall x :: x in r <==> x in opts || (wanted && x == o)
    ensures opts <= r
  {
    if wanted && o !in opts then opts + [o] else opts
  }

  /** The requested options: the two switches, by Python truthiness. */
  function Requested(options: map<string, Json>, key: string): bool {
    key in options && Truthy(options[key])
  }

  /** The rewrite of the options file for the two switches. */
  function UpdateOptions(text: string, freeCamera: bool, noRailJoint: bool): string {
    WriteOptions(Ensure(Ensure(ReadOptions(text), freeCamera, FreeCamera), noRailJoint, NoRailJointSound))
  }

  /** An option followed by a line break reads back as that option. */
  lemma ReadConsOption(o: string, rest: string)
    requires IsOption(o)
    ensures ReadOptions(o + "\n" + rest) == [o] + ReadOptions(rest)
  {
    assert o + "\n" + rest == o + ['\n'] + rest;
    SplitCharAppend(o, '\n', rest);
    StripOfUnpadded(o);
    assert StartsWith(o, "-");
  }

  lemma {:induction false} ReadsBackWritten(opts: seq<string>)
    requires WellFormed(opts)
    ensures ReadOptions(WriteOptions(opts)) == opts
  {
    if opts != [] {
      assert IsOption(opts[0]);
      ReadConsOption(opts[0], WriteOptions(opts[1..]));
      assert WellFormed(opts[1..]) by {
        forall k | 0 <= k < |opts[1..]| ensures IsOption(opts[1..][k]) {
          assert opts[1..][k] == opts[k + 1];
        }
      }
      ReadsBackWritten(opts[1..]);
    } else {
      assert SplitChar("", '\n') == [""];
    }
  }

  /** Every kept line is a well-formed option. */
  lemma {:induction false} OptionLinesWellFormed(lines: seq<string>)
    requires forall k :: 0 <= k < |lines| ==> '\n' !in lines[k]
    ensures WellFormed(OptionLines(lines))
  {
    if lines != [] {
      OptionLinesWellFormed(lines[1..]);
      if StartsWith(lines[0], "-") {
        StrippedOption(lines[0]);
      }
      var head := if StartsWith(lines[0], "-") then [Strip(lines[0])] else [];
      var r := OptionLines(lines);
      assert r == head + OptionLines(lines[1..]);
      forall k | 0 <= k < |r| ensures IsOption(r[k]) {
        if k >= |head| {
          assert r[k] == OptionLines(lines[1..])[k - |head|];
        }
      }
    }
  }

  /** A line starting with `-`, stripped, is an option. */
  lemma StrippedOption(line: string)
    requires StartsWith(line, "-") && '\n' !in line
    ensures IsOption(Strip(line))
  {
    var i := StripInfix(line);
    var t := Strip(line);
    assert line[0] == '-';
    assert !IsSpace(line[0]);
    assert i == 0;
    assert t != [];
    assert t[0] == line[0];
    forall k | 0 <= k < |t| ensures t[k] != '\n' {
      assert t[k] == line[i + k];
    }
  }

  lemma ReadOptionsWellFormed(text: string)
    ensures WellFormed(ReadOptions(text))
  {
    OptionLinesWellFormed(SplitChar(text, '\n'));
  }

  lemma EnsureWellFormed(opts: seq<string>, wanted: bool, o: string)
    requires WellFormed(opts) && WellFormed([o])
    ensures WellFormed(Ensure(opts, wanted, o))
  {
    var r := Ensure(opts, wanted, o);
    forall k | 0 <= k < |r| ensures IsOption(r[k]) {
      if k == |opts| {
        assert r[k] == [o][0];
      }
    }
  }

  lemma SwitchesWellFormed()
    ensures WellFormed([FreeCamera]) && WellFormed([NoRailJointSound])
  {
    assert [FreeCamera][0] == FreeCamera;
    assert [NoRailJointSound][0] == NoRailJointSound;
  }

  /** After the rewrite the file holds the requested switches and every
      option it held before, and nothing else. */
  lemma UpdateKeepsOptions(text: string, freeCamera: bool, noRailJoint: bool)
    ensures var opts := ReadOptions(UpdateOptions(text, freeCamera, noRailJoint));
      && (freeCamera ==> FreeCamera in opts)
      && (noRailJoint ==> NoRailJointSound in opts)
      && ReadOptions(text) <= opts
      && forall x :: x in opts ==> x in ReadOptions(text) || x == FreeCamera || x == NoRailJointSound
  {
    var a := Ensure(ReadOptions(text), freeCamera, FreeCamera);
    var b := Ensure(a, noRailJoint, NoRailJointSound);
    ReadOptionsWellFormed(text);
    SwitchesWellFormed();
    EnsureWellFormed(ReadOptions(text), freeCamera, FreeCamera);
    EnsureWellFormed(a, noRailJoint, NoRailJointSound);
    ReadsBackWritten(b);
  }

  /** Rewriting with the same switches a second time changes nothing. */
  lemma UpdateIdempotent(text: string, freeCamera: bool, noRailJoint: bool)
    ensures UpdateOptions(UpdateOptions(text, freeCamera, noRailJoint), freeCamera, noRailJoint)
              == UpdateOptions(text, freeCamera, noRailJoint)
  {
    var a := Ensure(ReadOptions(text), freeCamera, FreeCamera);
    var b := Ensure(a, noRailJoint, NoRailJointSound);
    ReadOptionsWellFormed(text);
    SwitchesWellFormed();
    EnsureWellFormed(ReadOptions(text), freeCamera, FreeCamera);
    EnsureWellFormed(a, noRailJoint, NoRailJointSound);
    ReadsBackWritten(b);
    assert freeCamera ==> FreeCamera in b;
    assert Ensure(b, freeCamera, FreeCamera) == b;
  }

  // ---------------------------------------------------------------------
  // The whole step.

  /** The options file's name inside the installation. */
  const OptionsPath := "trainzoptions.txt"

  /** The state the step works on: the failed identifiers, the options file
      (`None` when it is missing), the program files, and the paths the
      process may not write. */
  datatype State = State(failed: seq<string>, optionsFile: Option<string>, files: Patcher.Files, locked: set<string>)

  /** `_run_post_install`. With no additional options the options file is
      neither read nor written; the sound patch runs before the file is
      written, and its error ends the step; writing a write-protected
      options file raises `PermissionError`. `copyError` is the outcome of
      copying the keyboard layout. */
  function Run(st: State, answer: (nat, string) -> Invocation, options: Option<map<string, Json>>,
               exe: string, copyError: Option<Exc>): (r: Result<State, Exc>)
    ensures r.Ok? ==> copyError.None?
    ensures r.Ok? ==> RetryFailed(st.failed, answer).Ok? && r.value.failed == RetryFailed(st.failed, answer).value
    ensures r.Ok? && (options.None? || options.value == map[]) ==> r.value.optionsFile == st.optionsFile && r.value.files == st.files
    ensures r.Ok? && options.Some? && options.value != map[] ==> st.optionsFile.Some? && OptionsPath !in st.locked
    ensures r.Ok? ==> r.value.locked == st.locked
  {
    match RetryFailed(st.failed, answer)
    case Err(e) => Err(e)
    case Ok(failed) =>
      var after :=
        if options.None? || options.value == map[] then Ok(st.(failed := failed))
        else
          var opts := options.value;
          match st.optionsFile
          case None => Err(OSError(FileNotFoundError, Some(2)))
          case Some(text) =>
            var o1 := Ensure(ReadOptions(text), Requested(opts, "enableFreeintcam"), FreeCamera);
            var patched: Result<(Patcher.Files, seq<string>), Exc> :=
              if Requested(opts, "patchBuiltinSounds") then
                match Patcher.PatchSounds(st.files, exe, st.locked)
                case Err(e) => Err(e)
                case Ok(fs) => Ok((fs, Ensure(o1, true, NoRailJointSound)))
              else Ok((st.files, o1));
            match patched
            case Err(e) => Err(e)
            case Ok((fs, o2)) =>
              if OptionsPath in st.locked then Err(OSError(PermissionError, Some(Patcher.EACCES)))
              else Ok(State(failed, Some(WriteOptions(o2)), fs, st.locked));
      match after
      case Err(e) => Err(e)
      case Ok(s) => if copyError.Some? then Err(copyError.value) else Ok(s)
  }

  /** A write-protected options file fails the step once the retry and the
      sound patch are through, whatever the other inputs. */
  lemma RunWriteProtected(st: State, answer: (nat, string) -> Invocation, options: map<string, Json>,
                          exe: string, copyError: Option<Exc>)
    requires options != map[] && st.optionsFile.Some? && OptionsPath in st.locked
    requires RetryFailed(st.failed, answer).Ok?
    requires Requested(options, "patchBuiltinSounds") ==> Patcher.PatchSounds(st.files, exe, st.locked).Ok?
    ensures Run(st, answer, Some(options), exe, copyError) == Err(OSError(PermissionError, Some(Patcher.EACCES)))
  {
  }

  /** The options file the step writes is the rewrite for the two switches. */
  lemma RunWritesOptions(st: State, answer: (nat, string) -> Invocation, options: map<string, Json>,
                         exe: string, text: string)
    requires options != map[] && st.optionsFile == Some(text)
    requires RetryFailed(st.failed, answer).Ok?
    requires Requested(options, "patchBuiltinSounds") ==> Patcher.PatchSounds(st.files, exe, st.locked).Ok?
    requires OptionsPath !in st.locked
    ensures var r := Run(st, answer, Some(options), exe, None);
      && r.Ok?
      && r.value.optionsFile == Some(UpdateOptions(text, Requested(options, "enableFreeintcam"),
                                                   Requested(options, "patchBuiltinSounds")))
  {
  }
}

=== FILE: pystr.dfy ===
/** Python `str` semantics the installer relies on: whitespace stripping and
    splitting, separators, prefixes, ASCII case, and the `int`/`str`
    conversions of decimal integers. */
module PyStr {
  import opened Base

  /** `str.isspace` for a single character. */
  predicate IsSpace(c: char) {
    || c == ' '
    || ('\t' <= c <= '\r')
    || ('\U{1c}' <= c <= '\U{1f}')
    || c == '\U{85}' || c == '\U{a0}' || c == '\U{1680}'
    || ('\U{2000}' <= c <= '\U{200a}')
    || c == '\U{2028}' || c == '\U{2029}' || c == '\U{202f}' || c == '\U{205f}' || c == '\U{3000}'
  }

  predicate NoSpace(s: string) {
    forall i :: 0 <= i < |s| ==> !IsSpace(s[i])
  }

  predicate IsDigit(c: char) {
    '0' <= c <= '9'
  }

  /** One or more ASCII digits. */
  predicate IsNumber(s: string) {
    |s| > 0 && forall i :: 0 <= i < |s| ==> IsDigit(s[i])
  }

  predicate StartsWith(s: string, prefix: string) {
    |prefix| <= |s| && s[..|prefix|] == prefix
  }

  predicate EndsWith(s: string, suffix: string) {
    |suffix| <= |s| && s[|s| - |suffix|..] == suffix
  }

  predicate OccursAt(s: string, pat: string, i: nat) {
    i + |pat| <= |s| && s[i..i + |pat|] == pat
  }

  /** Python's `pat in s`. */
  predicate IsSubstring(pat: string, s: string) {
    exists i: nat | i <= |s| :: OccursAt(s, pat, i)
  }

  /** `str.lstrip()`. */
  function LStrip(s: string): (r: string)
    ensures |r| <= |s| && r == s[|s| - |r|..]
    ensures r == [] || !IsSpace(r[0])
    ensures forall i :: 0 <= i < |s| - |r| ==> IsSpace(s[i])
  {
    if s != [] && IsSpace(s[0]) then LStrip(s[1..]) else s
  }

  /** `str.rstrip()`. */
  function RStrip(s: string): (r: string)
    ensures |r| <= |s| && r == s[..|r|]
    ensures r == [] || !IsSpace(r[|r| - 1])
    ensures forall i :: |r| <= i < |s| ==> IsSpace(s[i])
  {
    if s != [] && IsSpace(s[|s| - 1]) then RStrip(s[..|s| - 1]) else s
  }

  /** `str.strip()`: the longest infix with no surrounding whitespace. */
  function Strip(s: string): (r: string)
    ensures r == [] || (!IsSpace(r[0]) && !IsSpace(r[|r| - 1]))
    ensures |r| <= |s|
  {
    RStrip(LStrip(s))
  }

  /** `Strip(s)` is the infix of `s` left after dropping whitespace on both sides. */
  lemma StripInfix(s: string) returns (i: nat)
    ensures i + |Strip(s)| <= |s| && Strip(s) == s[i..i + |Strip(s)|]
    ensures forall k :: 0 <= k < i ==> IsSpace(s[k])
    ensures forall k :: i + |Strip(s)| <= k < |s| ==> IsSpace(s[k])
  {
    var l := LStrip(s);
    i := |s| - |l|;
    var r := RStrip(l);
    PrefixOfSuffix(s, l, r);
    SpaceTailOfSuffix(s, l, |r|);
  }

  /** A prefix of a suffix is an infix. */
  lemma PrefixOfSuffix(s: string, l: string, r: string)
    requires |l| <= |s| && l == s[|s| - |l|..] && |r| <= |l| && r == l[..|r|]
    ensures r == s[|s| - |l|..|s| - |l| + |r|]
  {
  }

  /** Whitespace at the end of a suffix is whitespace at the end of the text. */
  lemma SpaceTailOfSuffix(s: string, l: string, n: nat)
    requires |l| <= |s| && l == s[|s| - |l|..] && n <= |l|
    requires forall k :: n <= k < |l| ==> IsSpace(l[k])
    ensures forall k :: |s| - |l| + n <= k < |s| ==> IsSpace(s[k])
  {
    forall k | |s| - |l| + n <= k < |s| ensures IsSpace(s[k]) {
      assert s[k] == l[k - (|s| - |l|)];
    }
  }

  lemma StripOfUnpadded(s: string)
    requires s == [] || (!IsSpace(s[0]) && !IsSpace(s[|s| - 1]))
    ensures Strip(s) == s
  {
  }

  lemma StripOfSpaceFree(s: string)
    requires NoSpace(s)
    ensures Strip(s) == s
  {
  }

  /** Index of the first whitespace character, or `|s|`. */
  function FirstSpace(s: string): (n: nat)
    ensures n <= |s|
    ensures forall i :: 0 <= i < n ==> !IsSpace(s[i])
    ensures n < |s| ==> IsSpace(s[n])
  {
    if s == [] || IsSpace(s[0]) then 0 else 1 + FirstSpace(s[1..])
  }

  /** The first whitespace of a word followed by whitespace ends the word. */
  lemma {:induction false} FirstSpaceOf(a: string, rest: string)
    requires NoSpace(a)
    requires rest == [] || IsSpace(rest[0])
    ensures FirstSpace(a + rest) == |a|
  {
    if a != [] {
      assert (a + rest)[1..] == a[1..] + rest;
      FirstSpaceOf(a[1..], rest);
    } else {
      assert a + rest == rest;
    }
  }

  /** `str.split()` with no separator: the maximal runs of non-whitespace. */
  function SplitWs(s: string): seq<string>
    decreases |s|
  {
    var t := LStrip(s);
    if t == [] then []
    else
      var n := FirstSpace(t);
      [t[..n]] + SplitWs(t[n..])
  }

  /** A text starting with a non-space starts with a non-empty word. */
  lemma FirstWord(t: string)
    requires t != [] && !IsSpace(t[0])
    ensures 0 < FirstSpace(t) && t[..FirstSpace(t)] != [] && NoSpace(t[..FirstSpace(t)])
  {
    var n := FirstSpace(t);
    forall i | 0 <= i < n ensures !IsSpace(t[..n][i]) {
      assert t[..n][i] == t[i];
    }
  }

  /** Every part is a non-empty word without whitespace. */
  predicate AllWords(r: seq<string>) {
    forall i :: 0 <= i < |r| ==> r[i] != [] && NoSpace(r[i])
  }

  lemma AllWordsCons(w: string, rest: seq<string>)
    requires w != [] && NoSpace(w) && AllWords(rest)
    ensures AllWords([w] + rest)
  {
    var r := [w] + rest;
    forall i | 0 <= i < |r| ensures r[i] != [] && NoSpace(r[i]) {
      if i > 0 {
        assert r[i] == rest[i - 1];
      }
    }
  }

  /** Every part of `str.split()` is a non-empty word without whitespace. */
  lemma {:induction false} SplitWsWords(s: string)
    ensures AllWords(SplitWs(s))
    decreases |s|
  {
    var t := LStrip(s);
    if t != [] {
      var n := FirstSpace(t);
      FirstWord(t);
      SplitWsWords(t[n..]);
      assert SplitWs(s) == [t[..n]] + SplitWs(t[n..]);
      AllWordsCons(t[..n], SplitWs(t[n..]));
    }
  }

  /** Index of the first occurrence of `c`, or `|s|`. */
  function IndexOf(s: string, c: char): (n: nat)
    ensures n <= |s|
    ensures forall i :: 0 <= i < n ==> s[i] != c
    ensures n < |s| ==> s[n] == c
  {
    if s == [] || s[0] == c then 0 else 1 + IndexOf(s[1..], c)
  }

  /** `str.split(c)` for a one-character separator. */
  function SplitChar(s: string, c: char): (r: seq<string>)
    ensures |r| >= 1
    ensures forall i :: 0 <= i < |r| ==> c !in r[i]
    decreases |s|
  {
    var n := IndexOf(s, c);
    if n == |s| then [s] else [s[..n]] + SplitChar(s[n + 1..], c)
  }

  /** `c.join(parts)`. */
  function JoinChar(parts: seq<string>, c: char): string {
    if |parts| <= 1 then (if parts == [] then "" else parts[0])
    else parts[0] + [c] + JoinChar(parts[1..], c)
  }

  /** Splitting and joining on the same separator give back the input. */
  lemma {:induction false} JoinSplitChar(s: string, c: char)
    ensures JoinChar(SplitChar(s, c), c) == s
    decreases |s|
  {
    var n := IndexOf(s, c);
    if n < |s| {
      var rest := SplitChar(s[n + 1..], c);
      assert SplitChar(s, c) == [s[..n]] + rest;
      JoinCons(s[..n], rest, c);
      JoinSplitChar(s[n + 1..], c);
      assert JoinChar(SplitChar(s, c), c) == s[..n] + [c] + s[n + 1..];
      assert s == s[..n] + [c] + s[n + 1..];
    } else {
      assert SplitChar(s, c) == [s];
    }
  }

  lemma JoinCons(x: string, rest: seq<string>, c: char)
    requires rest != []
    ensures JoinChar([x] + rest, c) == x + [c] + JoinChar(rest, c)
  {
    assert ([x] + rest)[1..] == rest;
  }

  lemma SplitCharFree(s: string, c: char)
    requires c !in s
    ensures SplitChar(s, c) == [s]
  {
  }

  lemma SplitCharAppend(x: string, c: char, y: string)
    requires c !in x
    ensures SplitChar(x + [c] + y, c) == [x] + SplitChar(y, c)
  {
    var s := x + [c] + y;
    assert s == x + ([c] + y);
    assert s[..|x|] == x;
    assert s[|x| + 1..] == y;
    IndexOfPrefixFree(x, c, [c] + y);
  }

  lemma IndexOfPrefixFree(x: string, c: char, y: string)
    requires c !in x
    requires y != [] && y[0] == c
    ensures IndexOf(x + y, c) == |x|
  {
    assert forall i :: 0 <= i < |x| ==> (x + y)[i] == x[i] && x[i] in x;
    assert (x + y)[|x|] == c;
  }

  /** Index of the first occurrence of `pat` at or after `from`, if any. */
  function FindFrom(s: string, pat: string, from: nat): (r: Option<nat>)
    ensures r.Some? ==> from <= r.value && OccursAt(s, pat, r.value)
    ensures r.Some? ==> forall j :: from <= j < r.value ==> !OccursAt(s, pat, j)
    ensures r.None? ==> forall j :: from <= j ==> !OccursAt(s, pat, j)
    decreases |s| + 1 - from
  {
    if from + |pat| > |s| then None
    else if s[from..from + |pat|] == pat then Some(from)
    else FindFrom(s, pat, from + 1)
  }

  /** `str.find(pat)`, with `None` for -1. */
  function Find(s: string, pat: string): Option<nat> {
    FindFrom(s, pat, 0)
  }

  /** `s.split(sep, maxsplit=1)[1]`: the text after the first `sep`; an
      `IndexError` (None) when `sep` does not occur. */
  function AfterFirst(s: string, sep: string): (r: Option<string>)
    ensures r.Some? <==> IsSubstring(sep, s)
  {
    match Find(s, sep)
    case Some(i) => Some(s[i + |sep|..])
    case None => None
  }

  /** `s.split(sep, maxsplit=1)[0]`: the text before the first `sep`, or all of `s`. */
  function BeforeFirst(s: string, sep: string): (r: string)
    ensures StartsWith(s, r)
    ensures r == s || OccursAt(s, sep, |r|)
  {
    match Find(s, sep)
    case Some(i) => s[..i]
    case None => s
  }

  function LowerChar(c: char): char {
    if 'A' <= c <= 'Z' then (c as int + 32) as char else c
  }

  /** ASCII lower-casing (the modelled inputs are ASCII where it matters). */
  function Lower(s: string): (r: string)
    ensures |r| == |s|
    ensures forall i :: 0 <= i < |s| ==> r[i] == LowerChar(s[i])
  {
    seq(|s|, i requires 0 <= i < |s| => LowerChar(s[i]))
  }

  lemma LowerIdempotent(s: string)
    ensures Lower(Lower(s)) == Lower(s)
  {
  }

  lemma LowerSlice(s: string, i: nat, j: nat)
    requires i <= j <= |s|
    ensures Lower(s)[i..j] == Lower(s[i..j])
  {
  }

  /** `s.replace(a, b)` for single characters. */
  function ReplaceChar(s: string, a: char, b: char): (r: string)
    ensures |r| == |s|
    ensures forall i :: 0 <= i < |s| ==> r[i] == (if s[i] == a then b else s[i])
  {
    seq(|s|, i requires 0 <= i < |s| => if s[i] == a then b else s[i])
  }

  function DigitChar(d: nat): char
    requires d < 10
  {
    ('0' as int + d) as char
  }

  function DigitValue(c: char): nat
    requires IsDigit(c)
  {
    c as int - '0' as int
  }

  /** The value of a string of decimal digits. */
  function DigitsValue(s: string): nat
    requires forall i :: 0 <= i < |s| ==> IsDigit(s[i])
  {
    if s == [] then 0 else 10 * DigitsValue(s[..|s| - 1]) + DigitValue(s[|s| - 1])
  }

  /** `str(n)` for a natural number. */
  function NatToString(n: nat): (r: string)
    ensures IsNumber(r)
    ensures r[0] != '0' || n == 0
  {
    if n < 10 then [DigitChar(n)] else NatToString(n / 10) + [DigitChar(n % 10)]
  }

  /** `str(n)` for an integer. */
  function IntToString(n: int): string {
    if n < 0 then "-" + NatToString(-n) else NatToString(n)
  }

  lemma {:induction false} NatToStringValue(n: nat)
    ensures DigitsValue(NatToString(n)) == n
  {
    if n >= 10 {
      NatToStringValue(n / 10);
      var s := NatToString(n);
      assert s[..|s| - 1] == NatToString(n / 10);
    }
  }

  /** The digits of an `int()` literal: digits with single underscores between them. */
  predicate DigitGroups(s: string) {
    && |s| > 0 && IsDigit(s[0]) && IsDigit(s[|s| - 1])
    && (forall i :: 0 <= i < |s| ==> IsDigit(s[i]) || s[i] == '_')
    && (forall i :: 0 <= i < |s| - 1 ==> !(s[i] == '_' && s[i + 1] == '_'))
  }

  function DropUnderscores(s: string): (r: string)
    ensures (forall i :: 0 <= i < |s| ==> IsDigit(s[i]) || s[i] == '_') ==>
              forall i :: 0 <= i < |r| ==> IsDigit(r[i])
  {
    if s == [] then [] else (if s[0] == '_' then [] else [s[0]]) + DropUnderscores(s[1..])
  }

  lemma DropUnderscoresOfNumber(s: string)
    requires forall i :: 0 <= i < |s| ==> IsDigit(s[i])
    ensures DropUnderscores(s) == s
  {
  }

  /** `int(s)` for base 10: surrounding whitespace, an optional sign, digit
      groups; `None` where Python raises `ValueError`. */
  function PyInt(s: string): (r: Option<int>)
    ensures r.Some? ==> Strip(s) != []
  {
    SignedDigits(Strip(s))
  }

  /** The sign and digit groups of an `int()` literal without surrounding whitespace. */
  function SignedDigits(t: string): (r: Option<int>)
    ensures r.Some? ==> t != []
  {
    var neg := t != [] && t[0] == '-';
    var body := if t != [] && (t[0] == '-' || t[0] == '+') then t[1..] else t;
    if DigitGroups(body) then
      var v: int := DigitsValue(DropUnderscores(body));
      Some(if neg then -v else v)
    else None
  }

  /** `int(d)` of a plain digit string is its decimal value. */
  lemma PyIntOfNumber(d: string)
    requires IsNumber(d)
    ensures PyInt(d) == Some(DigitsValue(d) as int)
  {
    DigitsHaveNoSpace(d);
    StripOfSpaceFree(d);
    SignedDigitsOfNumber(d);
  }

  lemma SignedDigitsOfNumber(d: string)
    requires IsNumber(d)
    ensures SignedDigits(d) == Some(DigitsValue(d) as int)
  {
    assert d[0] != '-' && d[0] != '+';
    assert DigitGroups(d);
    DropUnderscoresOfNumber(d);
  }

  lemma DigitsHaveNoSpace(d: string)
    requires IsNumber(d)
    ensures NoSpace(d)
  {
    forall i | 0 <= i < |d| ensures !IsSpace(d[i]) {
      assert IsDigit(d[i]);
    }
  }

  lemma PyIntOfNegative(d: string)
    requires IsNumber(d)
    ensures PyInt("-" + d) == Some(-(DigitsValue(d) as int))
  {
    var m := "-" + d;
    assert NoSpace(m) by {
      forall i | 0 <= i < |m|
        ensures !IsSpace(m[i])
      {
        if i > 0 {
          assert m[i] == d[i - 1];
        }
      }
    }
    StripOfSpaceFree(m);
    SignedDigitsOfNegative(d);
  }

  lemma SignedDigitsOfNegative(d: string)
    requires IsNumber(d)
    ensures SignedDigits("-" + d) == Some(-(DigitsValue(d) as int))
  {
    DropUnderscoresOfNumber(d);
    var m := "-" + d;
    assert m[0] == '-';
    assert m[1..] == d;
    assert DigitGroups(d);
  }

  /** `int(str(n)) == n`. */
  lemma IntToStringRoundTrip(n: int)
    ensures PyInt(IntToString(n)) == Some(n)
  {
    var m: nat := if n < 0 then -n else n;
    NatToStringValue(m);
    if n < 0 {
      PyIntOfNegative(NatToString(m));
    } else {
      PyIntOfNumber(NatToString(m));
    }
  }

  /** The UTF-8 encoding of one character (`str.encode()`). */
  function Utf8Char(c: char): (r: seq<byte>)
    ensures 1 <= |r| <= 4
    ensures (c as int < 0x80) <==> |r| == 1
    ensures |r| == 1 ==> r[0] as int == c as int
  {
    var cp := c as int;
    if cp < 0x80 then [cp as byte]
    else if cp < 0x800 then [(0xC0 + cp / 64) as byte, (0x80 + cp % 64) as byte]
    else if cp < 0x10000 then
      [(0xE0 + cp / 4096) as byte, (0x80 + (cp / 64) % 64) as byte, (0x80 + cp % 64) as byte]
    else
      [(0xF0 + cp / 262144) as byte, (0x80 + (cp / 4096) % 64) as byte,
       (0x80 + (cp / 64) % 64) as byte, (0x80 + cp % 64) as byte]
  }

  /** `s.encode("utf-8")`. */
  function Utf8(s: string): (r: seq<byte>)
    ensures |r| >= |s|
  {
    if s == [] then [] else Utf8Char(s[0]) + Utf8(s[1..])
  }

  lemma Utf8Concat(a: string, b: string)
    ensures Utf8(a + b) == Utf8(a) + Utf8(b)
  {
    if a != [] {
      assert (a + b)[0] == a[0];
      assert (a + b)[1..] == a[1..] + b;
      Utf8Concat(a[1..], b);
      calc {
        Utf8(a + b);
        Utf8Char(a[0]) + Utf8(a[1..] + b);
        Utf8Char(a[0]) + (Utf8(a[1..]) + Utf8(b));
        (Utf8Char(a[0]) + Utf8(a[1..])) + Utf8(b);
      }
    } else {
      assert a + b == b;
    }
  }

  /** `re.match("^P$", s)` where P is the shape: `$` also matches just before
      a final newline. */
  predicate FullMatch(shape: string -> bool, s: string) {
    shape(s) || (|s| > 0 && s[|s| - 1] == '\n' && shape(s[..|s| - 1]))
  }
}

=== FILE: settings.dfy ===
/** The installer's persisted settings (`Config` and `get_config` in
    usb_installer/config.py): defaults, per-field validation of a decoded
    JSON object under camel-case keys, and the fallback to the defaults. */
module Settings {
  import opened Base
  import opened Errors
  import opened PyStr

  /** `DownloadVersion`, a string enumeration. */
  datatype DownloadVersion = Full | Low

  function VersionText(v: DownloadVersion): string {
    match v
    case Full => "full"
    case Low => "low"
  }

  /** Only the two member values are admitted. */
  function ParseVersion(s: string): (r: Option<DownloadVersion>)
    ensures r.Some? <==> s == "full" || s == "low"
    ensures r.Some? ==> VersionText(r.value) == s
  {
    if s == "full" then Some(Full) else if s == "low" then Some(Low) else None
  }

  lemma VersionRoundTrip(v: DownloadVersion)
    ensures ParseVersion(VersionText(v)) == Some(v)
  {
  }

  datatype Config = Config(
    language: string,
    installPath: Option<string>,
    downloadVersion: DownloadVersion,
    downscaleTextures: bool,
    maxDownloads: int)

  const Defaults := Config("de", None, Full, false, 0)

  /** The camel-case aliases the fields are read and written under. */
  const LanguageKey := "language"
  const InstallPathKey := "installPath"
  const DownloadVersionKey := "downloadVersion"
  const DownscaleKey := "downscaleTextures"
  const MaxDownloadsKey := "maxDownloads"

  /** The strings a boolean field admits, compared without regard to case. */
  predicate TrueWord(s: string) {
    Lower(s) in {"1", "on", "t", "true", "y", "yes"}
  }

  predicate FalseWord(s: string) {
    Lower(s) in {"0", "off", "f", "false", "n", "no"}
  }

  /** A `bool` field: booleans, the numbers 0 and 1, and the words above. */
  function BoolField(j: Json): (r: Result<bool, Exc>)
    ensures r.Err? ==> r.error == ValidationError
    ensures j.JBool? ==> r == Ok(j.b)
  {
    match j
    case JBool(b) => Ok(b)
    case JNum(n) => if n == 0 then Ok(false) else if n == 1 then Ok(true) else Err(ValidationError)
    case JStr(s) => if TrueWord(s) then Ok(true) else if FalseWord(s) then Ok(false) else Err(ValidationError)
    case _ => Err(ValidationError)
  }

  /** An `int` field: integers, booleans as 0 and 1, and decimal strings. */
  function IntField(j: Json): (r: Result<int, Exc>)
    ensures r.Err? ==> r.error == ValidationError
    ensures j.JNum? ==> r == Ok(j.n)
  {
    match j
    case JNum(n) => Ok(n)
    case JBool(b) => Ok(if b then 1 else 0)
    case JStr(s) => if PyInt(s).Some? then Ok(PyInt(s).value) else Err(ValidationError)
    case _ => Err(ValidationError)
  }

  /** A `str` field admits only strings. */
  function StrField(j: Json): (r: Result<string, Exc>)
    ensures r.Ok? <==> j.JStr?
    ensures r.Ok? ==> r.value == j.s
    ensures r.Err? ==> r.error == ValidationError
  {
    if j.JStr? then Ok(j.s) else Err(ValidationError)
  }

  function VersionField(j: Json): (r: Result<DownloadVersion, Exc>)
    ensures r.Ok? <==> j == JStr("full") || j == JStr("low")
    ensures r.Err? ==> r.error == ValidationError
  {
    if j.JStr? && ParseVersion(j.s).Some? then Ok(ParseVersion(j.s).value) else Err(ValidationError)
  }

  /** `_validate_install_path`: `null` stays `None`, a string becomes the
      resolved path; `resolve` stands for `Path(value).resolve()`. `Path`
      rejects any other value with a `TypeError`, which the validator does
      not turn into a validation error. */
  function PathField(j: Json, resolve: string -> string): (r: Result<Option<string>, Exc>)
    ensures j == JNull ==> r == Ok(None)
    ensures j.JStr? ==> r == Ok(Some(resolve(j.s)))
    ensures r.Err? <==> !(j.JNull? || j.JStr?)
  {
    match j
    case JNull => Ok(None)
    case JStr(s) => Ok(Some(resolve(s)))
    case _ => Err(Builtin(TypeError))
  }

  /** The value under `key`, or `d` when the key is absent. */
  function Field<T>(fields: map<string, Json>, key: string, d: T, read: Json -> Result<T, Exc>): Result<T, Exc> {
    if key in fields then read(fields[key]) else Ok(d)
  }

  /** `Config.model_validate(value)`: anything but an object is rejected;
      absent keys keep their defaults and unknown keys are ignored. The
      field errors are collected into one validation error, except that the
      `TypeError` the path validator lets escape aborts validation whatever
      the other fields hold. */
  function Validate(j: Json, resolve: string -> string): (r: Result<Config, Exc>)
    ensures !j.JObject? ==> r == Err(ValidationError)
    ensures j == JObject(map[]) ==> r == Ok(Defaults)
    ensures r.Err? ==> r.error == ValidationError || r.error == Builtin(TypeError)
  {
    if !j.JObject? then Err(ValidationError)
    else
      var f := j.fields;
      var language := Field(f, LanguageKey, Defaults.language, StrField);
      var path := Field(f, InstallPathKey, Defaults.installPath, (v: Json) => PathField(v, resolve));
      var version := Field(f, DownloadVersionKey, Defaults.downloadVersion, VersionField);
      var downscale := Field(f, DownscaleKey, Defaults.downscaleTextures, BoolField);
      var maxDownloads := Field(f, MaxDownloadsKey, Defaults.maxDownloads, IntField);
      if path.Err? then Err(path.error)
      else if language.Err? then Err(language.error)
      else if version.Err? then Err(version.error)
      else if downscale.Err? then Err(downscale.error)
      else if maxDownloads.Err? then Err(maxDownloads.error)
      else Ok(Config(language.value, path.value, version.value, downscale.value, maxDownloads.value))
  }

  /** A path that is neither text nor `null` raises `TypeError` out of
      validation, even when other fields are invalid too. */
  lemma PathTypeErrorWins(fields: map<string, Json>, resolve: string -> string)
    requires InstallPathKey in fields && !(fields[InstallPathKey].JNull? || fields[InstallPathKey].JStr?)
    ensures Validate(JObject(fields), resolve) == Err(Builtin(TypeError))
    ensures GetConfig(Present(Ok(JObject(fields))), resolve) == Err(Builtin(TypeError))
  {
  }

  /** Otherwise validation succeeds exactly when every present field is
      accepted, and a rejected field is a validation error. */
  lemma ValidateAccepts(fields: map<string, Json>, resolve: string -> string)
    requires InstallPathKey in fields ==> fields[InstallPathKey].JNull? || fields[InstallPathKey].JStr?
    ensures Validate(JObject(fields), resolve).Ok? <==>
              && Field(fields, LanguageKey, Defaults.language, StrField).Ok?
              && Field(fields, DownloadVersionKey, Defaults.downloadVersion, VersionField).Ok?
              && Field(fields, DownscaleKey, Defaults.downscaleTextures, BoolField).Ok?
              && Field(fields, MaxDownloadsKey, Defaults.maxDownloads, IntField).Ok?
    ensures Validate(JObject(fields), resolve).Err? ==> Validate(JObject(fields), resolve).error == ValidationError
  {
  }

  /** The state of `config.json` on disk: missing, or present with the
      outcome of `json.load` on it. */
  datatype ConfigFile = Missing | Present(decoded: Result<Json, Exc>)

  /** `get_config`: only a validation error is absorbed; a file that is not
      JSON raises. */
  function GetConfig(file: ConfigFile, resolve: string -> string): (r: Result<Config, Exc>)
    ensures file.Missing? ==> r == Ok(Defaults)
    ensures r.Err? ==> r.error != ValidationError
  {
    match file
    case Missing => Ok(Defaults)
    case Present(Err(e)) => if e == ValidationError then Ok(Defaults) else Err(e)
    case Present(Ok(j)) =>
      match Validate(j, resolve)
      case Ok(c) => Ok(c)
      case Err(e) => if e == ValidationError then Ok(Defaults) else Err(e)
  }

  /** `model_dump(mode="json", by_alias=True)`, the object written back by
      the API. */
  function Dump(c: Config): (j: Json)
    ensures j.JObject?
    ensures j.fields.Keys == {LanguageKey, InstallPathKey, DownloadVersionKey, DownscaleKey, MaxDownloadsKey}
  {
    JObject(map[
      LanguageKey := JStr(c.language),
      InstallPathKey := if c.installPath.Some? then JStr(c.installPath.value) else JNull,
      DownloadVersionKey := JStr(VersionText(c.downloadVersion)),
      DownscaleKey := JBool(c.downscaleTextures),
      MaxDownloadsKey := JNum(c.maxDownloads)])
  }

  /** Saving and loading gives back the same settings, provided resolving
      the stored path changes nothing (it is already absolute and canonical). */
  lemma DumpRoundTrip(c: Config, resolve: string -> string)
    requires c.installPath.Some? ==> resolve(c.installPath.value) == c.installPath.value
    ensures Validate(Dump(c), resolve) == Ok(c)
    ensures GetConfig(Present(Ok(Dump(c))), resolve) == Ok(c)
  {
    var f := Dump(c).fields;
    assert f[LanguageKey] == JStr(c.language);
    assert f[DownloadVersionKey] == JStr(VersionText(c.downloadVersion));
    assert f[DownscaleKey] == JBool(c.downscaleTextures);
    assert f[MaxDownloadsKey] == JNum(c.maxDownloads);
  }

  /** Whatever the file holds, the outcome is either an error other than a
      validation error, the defaults, or what validation produced. */
  lemma GetConfigFallback(file: ConfigFile, resolve: string -> string)
    ensures var r := GetConfig(file, resolve);
      || r == Ok(Defaults)
      || (file.Present? && file.decoded.Ok? && r == Validate(file.decoded.value, resolve))
      || (file.Present? && file.decoded.Err? && r == Err(file.decoded.error))
    ensures (file.Present? && file.decoded.Ok? && Validate(file.decoded.value, resolve) == Err(ValidationError))
              ==> GetConfig(file, resolve) == Ok(Defaults)
    ensures (file.Present? && file.decoded.Ok? && !file.decoded.value.JObject?)
              ==> GetConfig(file, resolve) == Ok(Defaults)
  {
  }

  /** A version outside the enumeration makes the whole file fall back. */
  lemma UnknownVersionFallsBack(fields: map<string, Json>, s: string, resolve: string -> string)
    requires s != "full" && s != "low"
    requires LanguageKey in fields ==> fields[LanguageKey].JStr?
    requires InstallPathKey in fields ==> fields[InstallPathKey].JStr? || fields[InstallPathKey].JNull?
    ensures GetConfig(Present(Ok(JObject(fields[DownloadVersionKey := JStr(s)]))), resolve) == Ok(Defaults)
  {
    var f := fields[DownloadVersionKey := JStr(s)];
    assert f[DownloadVersionKey] == JStr(s);
    assert LanguageKey in f ==> f[LanguageKey] == fields[LanguageKey];
    assert InstallPathKey in f ==> f[InstallPathKey] == fields[InstallPathKey];
  }
}

=== FILE: trainzconfig.dfy ===
/** The `config.txt` reader of usb_installer/trainz/trainzconfig.py: a
    line-oriented key/value format with brace-nested blocks, parsed into a
    nested map, with dotted-path lookup. */
module TrainzConfig {
  import opened Base
  import opened Errors
  import opened PyStr
  import opened Kuids

  /** A map key. Block names are keys too, and a `{` before any key pushes
      Python's `None`, hence the option. */
  type Key = Option<string>

  /** A parsed value. */
  datatype Value =
    | Text(s: string)
    | KuidValue(kuid: Kuid)
    /** A decimal literal; the conversion to a binary float is not modelled. */
    | Float(literal: string)
    | Int(i: int)
    | List(items: seq<string>)
    | Dict(entries: map<Key, Value>)

  /** The parser's state: the data so far, the open block path and the last
      lone token. */
  datatype Parser = Parser(data: map<Key, Value>, path: seq<Key>, previous: Key)

  const Start := Parser(map[], [], None)

  /** `".*"`: a double-quoted run without newlines. */
  predicate Quoted(s: string) {
    |s| >= 2 && s[0] == '"' && s[|s| - 1] == '"' && forall i :: 1 <= i < |s| - 1 ==> s[i] != '\n'
  }

  /** `<.*>`: an angle-bracketed run without newlines. */
  predicate Bracketed(s: string) {
    |s| >= 2 && s[0] == '<' && s[|s| - 1] == '>' && forall i :: 1 <= i < |s| - 1 ==> s[i] != '\n'
  }

  /** The text after an optional leading `+` or `-`. */
  function Unsigned(s: string): string {
    if |s| > 0 && (s[0] == '-' || s[0] == '+') then s[1..] else s
  }

  /** `[-+]?([0-9]*[.])[0-9]+`: digits, one dot, at least one digit. */
  predicate DecimalLiteral(s: string) {
    var u := Unsigned(s);
    var d := IndexOf(u, '.');
    && d < |u|
    && (forall i :: 0 <= i < d ==> IsDigit(u[i]))
    && IsNumber(u[d + 1..])
  }

  /** `[-+]?\d+`. */
  predicate IntegerLiteral(s: string) {
    IsNumber(Unsigned(s))
  }

  /** The typing of a value, tried in this order: quoted text, identifier,
      decimal, integer, comma-separated list, plain text. A bracketed value
      that is not a valid identifier raises `AssertionError`. */
  function Classify(v: string): (r: Result<Value, Exc>)
    ensures r.Err? ==> r.error == Builtin(AssertionError) && FullMatch(Bracketed, v) && !FullMatch(Quoted, v)
    ensures r.Ok? && r.value.Int? ==> FullMatch(IntegerLiteral, v) && PyInt(v) == Some(r.value.i)
  {
    if FullMatch(Quoted, v) then Ok(Text(v[1..|v| - 1]))
    else if FullMatch(Bracketed, v) then
      match MakeKuid(v)
      case Ok(k) => Ok(KuidValue(k))
      case Err(e) => Err(e)
    else if FullMatch(DecimalLiteral, v) then Ok(Float(v))
    else if FullMatch(IntegerLiteral, v) then
      IntegerLiteralParses(v);
      Ok(Int(PyInt(v).value))
    else if ',' in v then Ok(List(SplitChar(v, ',')))
    else Ok(Text(v))
  }

  lemma SignedNumberParses(s: string)
    requires IntegerLiteral(s)
    ensures PyInt(s).Some?
  {
    var u := Unsigned(s);
    if u == s {
      PyIntOfNumber(s);
    } else if s[0] == '-' {
      assert s == "-" + u;
      PyIntOfNegative(u);
    } else {
      DropUnderscoresOfNumber(u);
      assert NoSpace(s) by {
        forall i | 0 <= i < |s| ensures !IsSpace(s[i]) {
          if i > 0 { assert s[i] == u[i - 1]; }
        }
      }
      StripOfSpaceFree(s);
    }
  }

  lemma IntegerLiteralParses(v: string)
    requires FullMatch(IntegerLiteral, v)
    ensures PyInt(v).Some?
  {
    if IntegerLiteral(v) {
      SignedNumberParses(v);
    } else {
      var c := v[..|v| - 1];
      assert v == c + ['\n'];
      SignedNumberParses(c);
      StripDropsTrailingSpace(c, '\n');
    }
  }

  lemma StripDropsTrailingSpace(c: string, w: char)
    requires IsSpace(w)
    ensures Strip(c + [w]) == Strip(c)
  {
    LStripAppendSpace(c, w);
    var l := LStrip(c);
    if l != [] {
      RStripAppendSpace(l, w);
    }
  }

  lemma RStripAppendSpace(l: string, w: char)
    requires IsSpace(w)
    ensures RStrip(l + [w]) == RStrip(l)
  {
    var d := l + [w];
    assert d[|d| - 1] == w;
    assert d[..|d| - 1] == l;
  }

  lemma {:induction false} LStripAppendSpace(c: string, w: char)
    requires IsSpace(w)
    ensures LStrip(c) == [] ==> LStrip(c + [w]) == []
    ensures LStrip(c) != [] ==> LStrip(c + [w]) == LStrip(c) + [w]
  {
    var d := c + [w];
    if c == [] {
      assert d == [w];
      assert d[1..] == [];
      assert LStrip(d) == LStrip(d[1..]);
    } else {
      assert d[0] == c[0];
      assert d[1..] == c[1..] + [w];
      if IsSpace(c[0]) {
        LStripAppendSpace(c[1..], w);
        assert LStrip(d) == LStrip(d[1..]);
        assert LStrip(c) == LStrip(c[1..]);
      } else {
        assert LStrip(d) == d;
        assert LStrip(c) == c;
      }
    }
  }

  /** Stores `key: value` in the block at `path`, creating missing blocks.
      Any non-map value on the way raises `TypeError`. */
  function Assign(container: map<Key, Value>, path: seq<Key>, key: string, v: Value): (r: Result<map<Key, Value>, Exc>)
    ensures r.Ok? ==> r.value.Keys == container.Keys + {if path == [] then Some(key) else path[0]}
    ensures r.Ok? ==> forall k :: k in container && k != (if path == [] then Some(key) else path[0]) ==> r.value[k] == container[k]
    ensures r.Ok? && path == [] ==> r.value[Some(key)] == v
    ensures r.Err? ==> r.error == Builtin(TypeError)
    decreases |path|
  {
    if path == [] then Ok(container[Some(key) := v])
    else
      var p := path[0];
      var child :=
        if p !in container then Ok(map[])
        else if container[p].Dict? then Ok(container[p].entries)
        else Err(Builtin(TypeError));
      match child
      case Err(e) => Err(e)
      case Ok(c) =>
        match Assign(c, path[1..], key, v)
        case Ok(c') => Ok(container[p := Dict(c')])
        case Err(e) => Err(e)
  }

  /** Processes a single-token line. `{` pushes the previous lone token;
      `}` pops the innermost block (`IndexError` when none is open); every
      token other than `}`, including `{`, becomes the previous token. */
  function LoneToken(p: Parser, t: string): (r: Result<Parser, Exc>)
    ensures r.Err? <==> t == "}" && p.path == []
    ensures r.Err? ==> r.error == Builtin(IndexError)
    ensures r.Ok? ==> r.value.data == p.data
    ensures r.Ok? && t != "}" ==> r.value.previous == Some(t)
    ensures r.Ok? && t == "}" ==> r.value.path == p.path[..|p.path| - 1] && r.value.previous == p.previous
  {
    var path := if t == "{" then p.path + [p.previous] else p.path;
    if t == "}" then
      if path == [] then Err(Builtin(IndexError))
      else Ok(p.(path := path[..|path| - 1]))
    else Ok(p.(path := path, previous := Some(t)))
  }

  /** True for lines the parser skips: blank after stripping, or a `;` comment. */
  predicate Skipped(raw: string) {
    var line := Strip(raw);
    line == [] || line[0] == ';'
  }

  /** One line of the file. */
  function Step(p: Parser, raw: string): (r: Result<Parser, Exc>)
    ensures Skipped(raw) ==> r == Ok(p)
  {
    var line := Strip(raw);
    if Skipped(raw) then Ok(p)
    else
      var n := FirstSpace(line);
      if n == |line| then LoneToken(p, line)
      else
        match Classify(LStrip(line[n..]))
        case Err(e) => Err(e)
        case Ok(v) =>
          match Assign(p.data, p.path, line[..n], v)
          case Ok(d) => Ok(p.(data := d))
          case Err(e) => Err(e)
  }

  function Run(p: Parser, lines: seq<string>): Result<Parser, Exc>
    decreases |lines|
  {
    if lines == [] then Ok(p)
    else
      match Step(p, lines[0])
      case Ok(q) => Run(q, lines[1..])
      case Err(e) => Err(e)
  }

  /** `TrainzConfig(...).config_data` for the file's lines. */
  function Parse(lines: seq<string>): Result<map<Key, Value>, Exc> {
    match Run(Start, lines)
    case Ok(p) => Ok(p.data)
    case Err(e) => Err(e)
  }

  /** A line whose stripped text is one word that is not a comment is a
      lone token. */
  lemma StepLoneToken(p: Parser, raw: string)
    requires Strip(raw) != [] && NoSpace(Strip(raw)) && Strip(raw)[0] != ';'
    ensures Step(p, raw) == LoneToken(p, Strip(raw))
  {
    var t := Strip(raw);
    FirstSpaceOf(t, []);
    assert t + [] == t;
  }

  /** A `key value` line stores the typed value under the key in the current
      block; the typing error or the block's `TypeError` escapes. */
  lemma StepKeyValue(p: Parser, key: string, value: string)
    requires key != [] && NoSpace(key) && key[0] != ';'
    requires value != [] && Strip(value) == value
    ensures Classify(value).Err? ==> Step(p, key + " " + value) == Err(Classify(value).error)
    ensures Classify(value).Ok? && Assign(p.data, p.path, key, Classify(value).value).Err? ==>
              Step(p, key + " " + value) == Err(Builtin(TypeError))
    ensures Classify(value).Ok? && Assign(p.data, p.path, key, Classify(value).value).Ok? ==>
              Step(p, key + " " + value) == Ok(p.(data := Assign(p.data, p.path, key, Classify(value).value).value))
  {
    var line := key + " " + value;
    KeyValueParts(key, value);
    var n := FirstSpace(line);
    assert Step(p, line) ==
      match Classify(LStrip(line[n..]))
      case Err(e) => Err(e)
      case Ok(v) =>
        match Assign(p.data, p.path, line[..n], v)
        case Ok(d) => Ok(p.(data := d))
        case Err(e) => Err(e);
  }

  /** How `Step` cuts a `key value` line: the key is the first word and the
      value is the left-stripped rest. */
  lemma KeyValueParts(key: string, value: string)
    requires key != [] && NoSpace(key) && key[0] != ';'
    requires value != [] && Strip(value) == value
    ensures Strip(key + " " + value) == key + " " + value
    ensures !Skipped(key + " " + value)
    ensures FirstSpace(key + " " + value) == |key| < |key + " " + value|
    ensures (key + " " + value)[..|key|] == key
    ensures LStrip((key + " " + value)[|key|..]) == value
  {
    KeyValueLine(key, value);
    KeyValueCut(key, value);
    LStripLeadingSpace(value);
  }

  lemma KeyValueCut(key: string, value: string)
    requires NoSpace(key)
    ensures FirstSpace(key + " " + value) == |key|
    ensures (key + " " + value)[..|key|] == key
    ensures (key + " " + value)[|key|..] == " " + value
  {
    assert key + " " + value == key + (" " + value);
    FirstSpaceOf(key, " " + value);
  }

  lemma LStripLeadingSpace(value: string)
    requires value != [] && Strip(value) == value
    ensures LStrip(" " + value) == value
  {
    var u := " " + value;
    assert u[1..] == value;
    assert !IsSpace(value[0]);
  }

  /** The line `key value` is its own stripped text and not skipped. */
  lemma KeyValueLine(key: string, value: string)
    requires key != [] && NoSpace(key) && key[0] != ';'
    requires value != [] && Strip(value) == value
    ensures Strip(key + " " + value) == key + " " + value
    ensures !Skipped(key + " " + value)
  {
    var line := key + " " + value;
    assert line[0] == key[0];
    assert line[|line| - 1] == value[|value| - 1];
    StripOfUnpadded(line);
  }

  /** A file of one `key value` line holds exactly that entry, typed. */
  lemma ParseOneEntry(key: string, value: string)
    requires key != [] && NoSpace(key) && key[0] != ';'
    requires value != [] && Strip(value) == value && Classify(value).Ok?
    ensures Parse([key + " " + value]) == Ok(map[Some(key) := Classify(value).value])
  {
    var line := key + " " + value;
    var v := Classify(value).value;
    assert Assign(Start.data, Start.path, key, v) == Ok(map[Some(key) := v]);
    StepKeyValue(Start, key, value);
    var q := Start.(data := map[Some(key) := v]);
    assert Step(Start, line) == Ok(q);
    assert [line][1..] == [];
    assert Run(Start, [line]) == Run(q, []);
  }

  /** The lines that are neither blank nor comments. */
  function Meaningful(lines: seq<string>): (r: seq<string>)
    ensures |r| <= |lines|
    ensures forall i :: 0 <= i < |r| ==> !Skipped(r[i])
  {
    if lines == [] then []
    else (if Skipped(lines[0]) then [] else [lines[0]]) + Meaningful(lines[1..])
  }

  /** Blank lines and comments never change the result. */
  lemma {:induction false} SkippedLinesIgnored(p: Parser, lines: seq<string>)
    ensures Run(p, lines) == Run(p, Meaningful(lines))
    decreases |lines|
  {
    if lines != [] {
      var m := Meaningful(lines[1..]);
      var q := Step(p, lines[0]);
      assert Run(p, lines) == if q.Ok? then Run(q.value, lines[1..]) else Err(q.error);
      if Skipped(lines[0]) {
        assert q == Ok(p);
        assert Meaningful(lines) == m;
        SkippedLinesIgnored(p, lines[1..]);
      } else {
        var ml := [lines[0]] + m;
        assert Meaningful(lines) == ml;
        assert ml[0] == lines[0] && ml[1..] == m;
        assert Run(p, ml) == if q.Ok? then Run(q.value, m) else Err(q.error);
        if q.Ok? {
          SkippedLinesIgnored(q.value, lines[1..]);
        }
      }
    }
  }

  /** A block opened and closed again restores the path. */
  lemma BraceBalance(p: Parser)
    ensures LoneToken(p, "{").Ok?
    ensures LoneToken(LoneToken(p, "{").value, "}") == Ok(p.(previous := Some("{")))
  {
    var q := LoneToken(p, "{").value;
    assert q.path == p.path + [p.previous];
    assert q.path[..|q.path| - 1] == p.path;
  }

  /** A lone `}` at the top level is an error, whatever else the parser holds. */
  lemma UnbalancedClose(p: Parser)
    requires p.path == []
    ensures LoneToken(p, "}") == Err(Builtin(IndexError))
  {
  }

  /** `get(path)`: walk the dotted segments; `None` stands for the default,
      returned at the first missing segment. Text and lists answer `in` by
      substring and membership and then fail to index; numbers fail `in`. */
  function Walk(v: Value, segs: seq<string>): (r: Result<Option<Value>, Exc>)
    ensures segs == [] ==> r == Ok(Some(v))
    ensures r.Err? ==> r.error == Builtin(TypeError)
    decreases |segs|
  {
    if segs == [] then Ok(Some(v))
    else
      match v
      case Dict(m) =>
        if Some(segs[0]) in m then Walk(m[Some(segs[0])], segs[1..]) else Ok(None)
      case Text(s) => if IsSubstring(segs[0], s) then Err(Builtin(TypeError)) else Ok(None)
      case KuidValue(k) => if IsSubstring(segs[0], k.text) then Err(Builtin(TypeError)) else Ok(None)
      case List(items) => if segs[0] in items then Err(Builtin(TypeError)) else Ok(None)
      case Int(_) => Err(Builtin(TypeError))
      case Float(_) => Err(Builtin(TypeError))
  }

  function Get(data: map<Key, Value>, dotted: string): (r: Result<Option<Value>, Exc>)
    ensures r.Err? ==> r.error == Builtin(TypeError)
  {
    Walk(Dict(data), SplitChar(dotted, '.'))
  }

  function Names(ks: seq<string>): (r: seq<Key>)
    ensures |r| == |ks| && forall i :: 0 <= i < |ks| ==> r[i] == Some(ks[i])
  {
    if ks == [] then [] else [Some(ks[0])] + Names(ks[1..])
  }

  lemma {:induction false} SplitJoinChar(parts: seq<string>, c: char)
    requires |parts| >= 1
    requires forall i :: 0 <= i < |parts| ==> c !in parts[i]
    ensures SplitChar(JoinChar(parts, c), c) == parts
    decreases |parts|
  {
    if |parts| == 1 {
      SplitCharFree(parts[0], c);
    } else {
      var rest := parts[1..];
      assert forall i :: 0 <= i < |rest| ==> rest[i] == parts[i + 1];
      SplitJoinChar(rest, c);
      SplitCharAppend(parts[0], c, JoinChar(rest, c));
    }
  }

  lemma {:induction false} WalkAssigned(container: map<Key, Value>, ks: seq<string>, key: string, v: Value)
    requires Assign(container, Names(ks), key, v).Ok?
    ensures Walk(Dict(Assign(container, Names(ks), key, v).value), ks + [key]) == Ok(Some(v))
    decreases |ks|
  {
    var r := Assign(container, Names(ks), key, v).value;
    if ks == [] {
      assert r == container[Some(key) := v];
      WalkStep(r, key, []);
      assert ks + [key] == [key] + [];
    } else {
      var p := Some(ks[0]);
      assert Names(ks)[0] == p;
      assert Names(ks)[1..] == Names(ks[1..]);
      var c := if p !in container then map[] else container[p].entries;
      AssignStep(container, Names(ks), key, v);
      var c2 := Assign(c, Names(ks[1..]), key, v).value;
      WalkAssigned(c, ks[1..], key, v);
      WalkStep(r, ks[0], ks[1..] + [key]);
      assert ks + [key] == [ks[0]] + (ks[1..] + [key]);
    }
  }

  /** Storing under a non-empty path replaces its first block by the
      updated child. */
  lemma AssignStep(container: map<Key, Value>, path: seq<Key>, key: string, v: Value)
    requires path != [] && Assign(container, path, key, v).Ok?
    ensures var c := if path[0] !in container then map[] else container[path[0]].entries;
      && Assign(c, path[1..], key, v).Ok?
      && Assign(container, path, key, v).value == container[path[0] := Dict(Assign(c, path[1..], key, v).value)]
  {
  }

  lemma WalkStep(m: map<Key, Value>, seg: string, rest: seq<string>)
    requires Some(seg) in m
    ensures Walk(Dict(m), [seg] + rest) == Walk(m[Some(seg)], rest)
  {
    assert ([seg] + rest)[0] == seg;
    assert ([seg] + rest)[1..] == rest;
  }

  /** A stored key is found again under its dotted path, so a later duplicate
      overwrites an earlier one. */
  lemma AssignThenGet(data: map<Key, Value>, ks: seq<string>, key: string, v: Value)
    requires Assign(data, Names(ks), key, v).Ok?
    requires '.' !in key && forall i :: 0 <= i < |ks| ==> '.' !in ks[i]
    ensures Get(Assign(data, Names(ks), key, v).value, JoinChar(ks + [key], '.')) == Ok(Some(v))
  {
    var parts := ks + [key];
    assert forall i :: 0 <= i < |parts| ==> '.' !in parts[i] by {
      assert forall i :: 0 <= i < |ks| ==> parts[i] == ks[i];
    }
    SplitJoinChar(parts, '.');
    WalkAssigned(data, ks, key, v);
  }

  /** Once the walk reaches a block that lacks the next segment, the default
      comes back, whatever segments follow. */
  lemma {:induction false} WalkStopsAtMissing(v: Value, ks: seq<string>, m: map<Key, Value>, seg: string, rest: seq<string>)
    requires Walk(v, ks) == Ok(Some(Dict(m)))
    requires Some(seg) !in m
    ensures Walk(v, ks + [seg] + rest) == Ok(None)
    decreases |ks|
  {
    if ks == [] {
      assert ks + [seg] + rest == [seg] + rest;
    } else {
      assert (ks + [seg] + rest)[0] == ks[0];
      assert (ks + [seg] + rest)[1..] == ks[1..] + [seg] + rest;
      WalkStopsAtMissing(v.entries[Some(ks[0])], ks[1..], m, seg, rest);
    }
  }

  /** The `kuid` property: the top-level `kuid` entry, if any. */
  function KuidEntry(data: map<Key, Value>): (r: Option<Value>)
    ensures r.Some? <==> Some("kuid") in data
    ensures r.Some? ==> r.value == data[Some("kuid")]
  {
    if Some("kuid") in data then Some(data[Some("kuid")]) else None
  }

  /** The first of `username`, `name`, `asset-filename` present at top level. */
  function DisplayEntry(data: map<Key, Value>): (r: Option<Value>)
    ensures r.Some? <==> Some("username") in data || Some("name") in data || Some("asset-filename") in data
    ensures Some("username") in data ==> r == Some(data[Some("username")])
    ensures Some("username") !in data && Some("name") in data ==> r == Some(data[Some("name")])
    ensures (Some("username") !in data && Some("name") !in data && Some("asset-filename") in data)
              ==> r == Some(data[Some("asset-filename")])
  {
    if Some("username") in data then Some(data[Some("username")])
    else if Some("name") in data then Some(data[Some("name")])
    else if Some("asset-filename") in data then Some(data[Some("asset-filename")])
    else None
  }

  /** The `username` property: the display entry with every `_` replaced by
      a space; `AttributeError` when it is missing or not text. */
  function Username(data: map<Key, Value>): (r: Result<string, Exc>)
    ensures r.Ok? ==> '_' !in r.value
    ensures r.Ok? <==> DisplayEntry(data).Some? && (DisplayEntry(data).value.Text? || DisplayEntry(data).value.KuidValue?)
    ensures r.Err? ==> r.error == Builtin(AttributeError)
  {
    match DisplayEntry(data)
    case Some(Text(s)) => Ok(ReplaceChar(s, '_', ' '))
    case Some(KuidValue(k)) => Ok(ReplaceChar(k.text, '_', ' '))
    case _ => Err(Builtin(AttributeError))
  }

  /** The display entry, text or identifier, is shown with every `_`
      replaced by a space and every other character kept. */
  lemma UsernameOfEntry(data: map<Key, Value>, s: string)
    requires DisplayEntry(data) == Some(Text(s)) || (DisplayEntry(data).Some? && DisplayEntry(data).value.KuidValue?
                                                      && DisplayEntry(data).value.kuid.text == s)
    ensures Username(data) == Ok(ReplaceChar(s, '_', ' '))
    ensures forall i :: 0 <= i < |s| && s[i] != '_' ==> Username(data).value[i] == s[i]
  {
  }

  /** A `username` entry wins over `name` and `asset-filename`. */
  lemma UsernameFirst(data: map<Key, Value>, s: string)
    requires Some("username") in data && data[Some("username")] == Text(s)
    ensures Username(data) == Ok(ReplaceChar(s, '_', ' '))
  {
  }

  /** `name` is used only when `username` is absent, and `asset-filename`
      only when both are. */
  lemma UsernameFallback(data: map<Key, Value>, s: string)
    requires Some("username") !in data
    requires Some("name") in data ==> data[Some("name")] == Text(s)
    requires Some("name") !in data ==> Some("asset-filename") in data && data[Some("asset-filename")] == Text(s)
    ensures Username(data) == Ok(ReplaceChar(s, '_', ' '))
  {
  }

  /** Typing examples of the classifier, one per rule. */
  lemma ClassifyQuoted(s: string)
    requires '\n' !in s
    ensures Classify("\"" + s + "\"") == Ok(Text(s))
  {
    var v := "\"" + s + "\"";
    assert forall i :: 1 <= i < |v| - 1 ==> v[i] == s[i - 1];
    assert v[1..|v| - 1] == s;
  }

  lemma ClassifyKuid(k: Kuid)
    requires Valid(k) && '\n' !in k.text
    ensures Classify(Repr(k)) == Ok(KuidValue(k))
  {
    var v := Repr(k);
    ReprRoundTrip(k);
    assert v[0] == '<' && v[|v| - 1] == '>';
    assert Bracketed(v) by {
      forall i | 1 <= i < |v| - 1 ensures v[i] != '\n' {
        assert v[i] == k.text[i - 1];
      }
    }
    assert !FullMatch(Quoted, v);
  }

  lemma ClassifyInt(n: int)
    ensures Classify(IntToString(n)) == Ok(Int(n))
  {
    var v := IntToString(n);
    var d := NatToString(if n < 0 then -n else n);
    assert Unsigned(v) == d;
    assert v[|v| - 1] == d[|d| - 1];
    assert IsDigit(v[|v| - 1]);
    assert !FullMatch(Quoted, v) && !FullMatch(Bracketed, v);
    NotDecimal(v);
    assert FullMatch(IntegerLiteral, v);
    IntToStringRoundTrip(n);
  }

  lemma NotDecimal(v: string)
    requires '.' !in v && |v| > 0 && v[|v| - 1] != '\n'
    ensures !FullMatch(DecimalLiteral, v)
  {
    var u := Unsigned(v);
    assert forall i :: 0 <= i < |u| ==> u[i] in v;
  }

  /** A number literal ends in a digit and holds only signs, digits and
      dots, so it is neither quoted, bracketed, nor a list. */
  lemma LiteralShape(v: string)
    requires DecimalLiteral(v) || IntegerLiteral(v)
    ensures |v| > 0 && IsDigit(v[|v| - 1])
    ensures ',' !in v
  {
    var u := Unsigned(v);
    assert |u| > 0 by {
      if DecimalLiteral(v) { assert IndexOf(u, '.') < |u|; }
    }
    assert v[|v| - 1] == u[|u| - 1];
    if DecimalLiteral(v) {
      var d := IndexOf(u, '.');
      assert u[|u| - 1] == u[d + 1..][|u| - d - 2];
    }
    forall i | 0 <= i < |v| ensures v[i] != ',' {
      if v != u && i > 0 {
        assert v[i] == u[i - 1];
      }
    }
  }

  /** A decimal literal is typed as a decimal, before the integer and list
      rules are tried. */
  lemma ClassifyDecimal(v: string)
    requires DecimalLiteral(v)
    ensures Classify(v) == Ok(Float(v))
  {
    LiteralShape(v);
  }

  /** A literal with a trailing newline still matches, since `$` also
      matches before a final newline. */
  lemma LiteralWithNewline(w: string)
    requires DecimalLiteral(w) || IntegerLiteral(w)
    ensures ',' !in w + "\n"
  {
    LiteralShape(w);
  }

  /** A value holding a comma is never a number literal. */
  lemma CommaIsNotNumber(v: string)
    requires ',' in v
    ensures !FullMatch(DecimalLiteral, v) && !FullMatch(IntegerLiteral, v)
  {
    if DecimalLiteral(v) || IntegerLiteral(v) {
      LiteralShape(v);
    }
    if |v| > 0 && v[|v| - 1] == '\n' {
      var w := v[..|v| - 1];
      assert v == w + "\n";
      if DecimalLiteral(w) || IntegerLiteral(w) {
        LiteralWithNewline(w);
      }
    }
  }

  /** A value with a comma that is neither quoted nor bracketed is split on
      every comma, and joining the items gives the value back. */
  lemma ClassifyList(v: string)
    requires ',' in v && !FullMatch(Quoted, v) && !FullMatch(Bracketed, v)
    ensures Classify(v) == Ok(List(SplitChar(v, ',')))
    ensures JoinChar(Classify(v).value.items, ',') == v
  {
    CommaIsNotNumber(v);
    JoinSplitChar(v, ',');
  }

  /** Any value no earlier rule types stays the text it is. */
  lemma ClassifyText(v: string)
    requires !FullMatch(Quoted, v) && !FullMatch(Bracketed, v)
    requires !FullMatch(DecimalLiteral, v) && !FullMatch(IntegerLiteral, v) && ',' !in v
    ensures Classify(v) == Ok(Text(v))
  {
  }

  /** In particular a word without digits or commas that opens neither a
      quote nor a bracket is plain text. */
  lemma ClassifyWord(v: string)
    requires forall i :: 0 <= i < |v| ==> !IsDigit(v[i]) && v[i] != ','
    requires v != [] ==> v[0] != '"' && v[0] != '<'
    ensures Classify(v) == Ok(Text(v))
  {
    DigitFreeIsNoNumber(v);
  }

  lemma DigitFreeIsNoNumber(v: string)
    requires forall i :: 0 <= i < |v| ==> !IsDigit(v[i])
    ensures !FullMatch(DecimalLiteral, v) && !FullMatch(IntegerLiteral, v)
  {
    if DecimalLiteral(v) || IntegerLiteral(v) {
      LiteralShape(v);
    }
    if |v| > 0 && v[|v| - 1] == '\n' {
      var w := v[..|v| - 1];
      if DecimalLiteral(w) || IntegerLiteral(w) {
        LiteralShape(w);
      }
    }
  }
}

=== FILE: trainzutil.dfy ===
/** The stdout protocol of the content tool (installer/trainz/trainzutil.py):
    a finished subprocess is translated into lines, a structured tool
    failure, or a process failure, and each command reads its answer out of
    the first line. The subprocess itself is an input. */
module TrainzUtil {
  import opened Base
  import opened Errors
  import opened PyStr
  import opened Kuids

  /** What the subprocess produced: stdout split into lines and the exit code,
      or a timeout. */
  datatype Invocation = Finished(stdout: seq<string>, returnCode: int) | TimedOut

  /** The seven status flags, in the order of the letters `EIADLMF`. */
  datatype AssetStatus = AssetStatus(
    openForEdit: bool, installed: bool, archived: bool, downloadStation: bool,
    modified: bool, missingDependencies: bool, faulty: bool)

  /** The separator between a failure code and its message. */
  const Separator := " : "

  const StatusLetters := "EIADLMF"

  predicate IsFailureLine(line: string) {
    StartsWith(line, "-")
  }

  /** Index of the first failure line, if any. */
  function FirstFailure(lines: seq<string>): (r: Option<nat>)
    ensures r.Some? ==> r.value < |lines| && IsFailureLine(lines[r.value])
    ensures r.Some? ==> forall j :: 0 <= j < r.value ==> !IsFailureLine(lines[j])
    ensures r.None? ==> forall j :: 0 <= j < |lines| ==> !IsFailureLine(lines[j])
  {
    if lines == [] then None
    else if IsFailureLine(lines[0]) then Some(0)
    else match FirstFailure(lines[1..])
      case Some(i) => Some(i + 1)
      case None => None
  }

  /** The exception a failure line raises: `TrainzError` with the stripped text
      after its first separator, or `IndexError` when there is none. */
  function FailureOf(line: string): (e: Exc)
    ensures e.TrainzError? || e == Builtin(IndexError)
  {
    match AfterFirst(line, Separator)
    case Some(msg) => TrainzError(Strip(msg))
    case None => Builtin(IndexError)
  }

  /** `run_command`: the first failure line raises, whatever the exit code;
      otherwise a non-zero exit raises `CalledProcessError`; otherwise all
      lines are returned unchanged. */
  function RunCommand(inv: Invocation): (r: Result<seq<string>, Exc>)
    ensures inv.TimedOut? ==> r == Err(TimeoutExpired)
    ensures inv.Finished? && FirstFailure(inv.stdout).Some? ==>
              r == Err(FailureOf(inv.stdout[FirstFailure(inv.stdout).value]))
    ensures inv.Finished? && FirstFailure(inv.stdout).None? && inv.returnCode != 0 ==>
              r == Err(CalledProcessError(inv.returnCode))
    ensures r.Ok? <==> inv.Finished? && FirstFailure(inv.stdout).None? && inv.returnCode == 0
    ensures r.Ok? ==> r.value == inv.stdout
  {
    match inv
    case TimedOut => Err(TimeoutExpired)
    case Finished(lines, code) =>
      match FirstFailure(lines)
      case Some(i) => Err(FailureOf(lines[i]))
      case None => if code != 0 then Err(CalledProcessError(code)) else Ok(lines)
  }

  /** The failure line format `- <code> : <message>`. */
  function FailureLine(code: string, message: string): string {
    "- " + code + Separator + message
  }

  lemma SeparatorAfterCode(code: string, message: string)
    requires ' ' !in code && ':' !in code
    ensures Find(FailureLine(code, message), Separator) == Some(2 + |code|)
  {
    var s := FailureLine(code, message);
    var k := 2 + |code|;
    assert s[k..k + 3] == Separator;
    assert OccursAt(s, Separator, k);
    forall j | 0 <= j < k
      ensures !OccursAt(s, Separator, j)
    {
      if j == 0 {
        assert s[0] == '-';
        DiffersAt(s, Separator, 0, 0);
      } else if j == 1 {
        if |code| > 0 {
          assert s[2] == code[0];
          assert code[0] in code;
        } else {
          assert s[2] == ' ';
        }
        DiffersAt(s, Separator, 1, 1);
      } else {
        assert s[j] == code[j - 2];
        assert code[j - 2] in code;
        DiffersAt(s, Separator, j, 0);
      }
    }
  }

  /** One differing character rules out an occurrence. */
  lemma DiffersAt(s: string, pat: string, j: nat, m: nat)
    requires j + |pat| <= |s| && m < |pat| && s[j + m] != pat[m]
    ensures !OccursAt(s, pat, j)
  {
    assert s[j..j + |pat|][m] == s[j + m];
  }

  /** A failure line raises with its stripped message. */
  lemma FailureOfLine(code: string, message: string)
    requires ' ' !in code && ':' !in code
    ensures FailureOf(FailureLine(code, message)) == TrainzError(Strip(message))
  {
    var s := FailureLine(code, message);
    SeparatorAfterCode(code, message);
    assert s[2 + |code| + 3..] == message;
    assert AfterFirst(s, Separator) == Some(message);
  }

  /** The first failure line is the first line starting with `-`. */
  lemma FirstFailureAt(before: seq<string>, line: string, after: seq<string>)
    requires forall j :: 0 <= j < |before| ==> !IsFailureLine(before[j])
    requires IsFailureLine(line)
    ensures FirstFailure(before + [line] + after) == Some(|before|)
  {
    var lines := before + [line] + after;
    assert lines[|before|] == line;
    forall j | 0 <= j < |before| ensures !IsFailureLine(lines[j]) {
      assert lines[j] == before[j];
    }
  }

  /** A tool failure reported as `- <code> : <message>` raises a `TrainzError`
      carrying the stripped message, whatever the exit code and whatever
      follows, provided no earlier line starts with `-`. */
  lemma FailureLineRaises(before: seq<string>, code: string, message: string, after: seq<string>, rc: int)
    requires forall j :: 0 <= j < |before| ==> !IsFailureLine(before[j])
    requires ' ' !in code && ':' !in code
    ensures RunCommand(Finished(before + [FailureLine(code, message)] + after, rc)) == Err(TrainzError(Strip(message)))
  {
    var lines := before + [FailureLine(code, message)] + after;
    assert FailureLine(code, message)[..1] == "-";
    FirstFailureAt(before, FailureLine(code, message), after);
    assert lines[|before|] == FailureLine(code, message);
    FailureOfLine(code, message);
  }

  /** `build_version`: the integer value of the second word of the first line. */
  function BuildVersion(inv: Invocation): (r: Result<int, Exc>)
    ensures RunCommand(inv).Err? ==> r == Err(RunCommand(inv).error)
    ensures r.Err? && RunCommand(inv).Ok? ==> r.error == Builtin(IndexError) || r.error == Builtin(ValueError)
    ensures RunCommand(inv).Ok? ==>
              (r == Err(Builtin(IndexError)) <==> inv.stdout == [] || |SplitWs(inv.stdout[0])| < 2)
    ensures RunCommand(inv).Ok? ==>
              (r == Err(Builtin(ValueError)) <==>
                 inv.stdout != [] && |SplitWs(inv.stdout[0])| >= 2 && PyInt(SplitWs(inv.stdout[0])[1]).None?)
    ensures r.Ok? ==> inv.Finished? && inv.stdout != [] && |SplitWs(inv.stdout[0])| >= 2
                      && PyInt(SplitWs(inv.stdout[0])[1]) == Some(r.value)
  {
    match RunCommand(inv)
    case Err(e) => Err(e)
    case Ok(lines) =>
      if lines == [] then Err(Builtin(IndexError))
      else
        var words := SplitWs(lines[0]);
        if |words| < 2 then Err(Builtin(IndexError))
        else match PyInt(words[1])
          case Some(n) => Ok(n)
          case None => Err(Builtin(ValueError))
  }

  lemma SplitWsWord(s: string)
    requires s != [] && !IsSpace(s[0])
    ensures SplitWs(s) == [s[..FirstSpace(s)]] + SplitWs(s[FirstSpace(s)..])
  {
    assert LStrip(s) == s;
  }

  lemma SplitWsSpace(s: string)
    requires s != [] && IsSpace(s[0])
    ensures SplitWs(s) == SplitWs(s[1..])
  {
    assert LStrip(s) == LStrip(s[1..]);
  }

  lemma SplitOneWord(b: string)
    requires b != [] && NoSpace(b)
    ensures SplitWs(b) == [b]
  {
    SplitWsWord(b);
    FirstSpaceOf(b, []);
    assert b + [] == b;
    assert b[..|b|] == b && b[|b|..] == [];
  }

  lemma SplitTwoWords(a: string, b: string)
    requires a != [] && b != [] && NoSpace(a) && NoSpace(b)
    ensures SplitWs(a + " " + b) == [a, b]
  {
    var u := " " + b;
    var s := a + u;
    assert a + " " + b == s;
    SplitFirstWord(a, u);
    assert SplitWs(s) == [a] + SplitWs(u);
    SplitSpaceThenWord(b);
    assert SplitWs(u) == [b];
  }

  /** A leading word followed by whitespace is the first part. */
  lemma SplitFirstWord(a: string, u: string)
    requires a != [] && NoSpace(a)
    requires u != [] && IsSpace(u[0])
    ensures SplitWs(a + u) == [a] + SplitWs(u)
  {
    var s := a + u;
    assert s[0] == a[0];
    SplitWsWord(s);
    FirstSpaceOf(a, u);
    assert s[..|a|] == a;
    assert s[|a|..] == u;
  }

  lemma SplitSpaceThenWord(b: string)
    requires b != [] && NoSpace(b)
    ensures SplitWs(" " + b) == [b]
  {
    var u := " " + b;
    assert IsSpace(u[0]);
    assert u[1..] == b;
    SplitWsSpace(u);
    SplitOneWord(b);
  }

  lemma IntToStringNoSpace(n: int)
    ensures IntToString(n) != [] && NoSpace(IntToString(n))
  {
    var d := IntToString(n);
    var m := NatToString(if n < 0 then -n else n);
    assert forall i :: 0 <= i < |m| ==> IsDigit(m[i]);
    forall i | 0 <= i < |d| ensures !IsSpace(d[i]) {
      if n < 0 && i > 0 { assert d[i] == m[i - 1]; }
    }
  }

  /** A line that does not start with `-`, with exit code zero, is returned as is. */
  lemma PlainReply(line: string)
    requires line != [] && line[0] != '-'
    ensures RunCommand(Finished([line], 0)) == Ok([line])
  {
    assert line[..1] == [line[0]];
    assert !IsFailureLine(line);
  }

  /** A `version` reply whose first line is `<word> <number>`, possibly
      followed by more text after whitespace and by further plain lines,
      yields `int()` of the number, or `ValueError` when it is none. */
  lemma BuildVersionReadsNumber(word: string, d: string, rest: string, more: seq<string>)
    requires word != [] && NoSpace(word) && word[0] != '-'
    requires d != [] && NoSpace(d) && (rest == [] || IsSpace(rest[0]))
    requires forall j :: 0 <= j < |more| ==> !IsFailureLine(more[j])
    ensures PyInt(d).Some? ==> BuildVersion(Finished([word + " " + d + rest] + more, 0)) == Ok(PyInt(d).value)
    ensures PyInt(d).None? ==> BuildVersion(Finished([word + " " + d + rest] + more, 0)) == Err(Builtin(ValueError))
  {
    var line := word + " " + d + rest;
    var inv := Finished([line] + more, 0);
    assert RunCommand(inv).Ok? && inv.stdout[0] == line by {
      assert line[0] == word[0];
      CleanRun(line, more);
    }
    assert |SplitWs(line)| >= 2 && SplitWs(line)[1] == d by {
      assert line == word + (" " + (d + rest));
      SplitSecondWord(word, d, rest);
    }
  }

  /** A second word of decimal digits is read as its value. */
  lemma BuildVersionReadsDigits(word: string, d: string, rest: string, more: seq<string>)
    requires word != [] && NoSpace(word) && word[0] != '-'
    requires IsNumber(d) && NoSpace(d) && (rest == [] || IsSpace(rest[0]))
    requires forall j :: 0 <= j < |more| ==> !IsFailureLine(more[j])
    ensures BuildVersion(Finished([word + " " + d + rest] + more, 0)) == Ok(DigitsValue(d) as int)
  {
    PyIntOfNumber(d);
    BuildVersionReadsNumber(word, d, rest, more);
  }

  /** The decimal text of any integer, after one word, is read back. */
  lemma BuildVersionOfInt(word: string, n: int)
    requires word != [] && NoSpace(word) && word[0] != '-'
    ensures BuildVersion(Finished([word + " " + IntToString(n)], 0)) == Ok(n)
  {
    IntToStringNoSpace(n);
    IntToStringRoundTrip(n);
    BuildVersionReadsNumber(word, IntToString(n), [], []);
    assert word + " " + IntToString(n) + [] == word + " " + IntToString(n);
    assert [word + " " + IntToString(n)] + [] == [word + " " + IntToString(n)];
  }

  /** The second part of `str.split()` of `a b...` is `b`. */
  lemma SplitSecondWord(a: string, b: string, rest: string)
    requires a != [] && NoSpace(a) && b != [] && NoSpace(b)
    requires rest == [] || IsSpace(rest[0])
    ensures |SplitWs(a + (" " + (b + rest)))| >= 2 && SplitWs(a + (" " + (b + rest)))[1] == b
  {
    SplitFirstWord(a, " " + (b + rest));
    SpaceThenFirstPart(b, rest);
  }

  /** After one space, the first part of `b...` is `b`. */
  lemma SpaceThenFirstPart(b: string, rest: string)
    requires b != [] && NoSpace(b)
    requires rest == [] || IsSpace(rest[0])
    ensures |SplitWs(" " + (b + rest))| >= 1 && SplitWs(" " + (b + rest))[0] == b
  {
    var u := " " + (b + rest);
    assert u[1..] == b + rest;
    SplitWsSpace(u);
    if rest == [] {
      assert b + rest == b;
      SplitOneWord(b);
    } else {
      SplitFirstWord(b, rest);
    }
  }

  /** `echo`: true iff the stripped first line equals the message. */
  function Echo(message: string, inv: Invocation): (r: Result<bool, Exc>)
    ensures RunCommand(inv).Err? ==> r == Err(RunCommand(inv).error)
    ensures r.Ok? ==> inv.Finished? && |inv.stdout| > 0 && (r.value <==> Strip(inv.stdout[0]) == message)
    ensures r.Err? && inv.Finished? && RunCommand(inv).Ok? ==> inv.stdout == [] && r.error == Builtin(IndexError)
  {
    match RunCommand(inv)
    case Err(e) => Err(e)
    case Ok(lines) =>
      if lines == [] then Err(Builtin(IndexError)) else Ok(Strip(lines[0]) == message)
  }

  /** A plain reply answers whether its stripped first line is the message. */
  lemma EchoAnswers(message: string, line: string, more: seq<string>)
    requires line != [] && line[0] != '-'
    requires forall j :: 0 <= j < |more| ==> !IsFailureLine(more[j])
    ensures Echo(message, Finished([line] + more, 0)) == Ok(Strip(line) == message)
  {
    CleanRun(line, more);
  }

  /** A reply whose lines do not start with `-`, with exit code 0, is
      returned as it is. */
  lemma CleanRun(line: string, more: seq<string>)
    requires line != [] && line[0] != '-'
    requires forall j :: 0 <= j < |more| ==> !IsFailureLine(more[j])
    ensures RunCommand(Finished([line] + more, 0)) == Ok([line] + more)
  {
    var lines := [line] + more;
    assert line[..1] == [line[0]];
    forall j | 0 <= j < |lines| ensures !IsFailureLine(lines[j]) {
      if j > 0 { assert lines[j] == more[j - 1]; }
    }
  }

  /** The tool echoing the message back is a running database. */
  lemma EchoOfMessage(message: string)
    requires message != [] && Strip(message) == message && message[0] != '-'
    ensures Echo(message, Finished([message], 0)) == Ok(true)
  {
    EchoAnswers(message, message, []);
    assert [message] + [] == [message];
  }

  /** `line.split("<")[1].split(">")[0]`: the text after the first `<`, up to
      the next `<` or `>`; `None` when there is no `<`. */
  function BracketedId(line: string): (r: Option<string>)
    ensures r.Some? <==> '<' in line
    ensures r.Some? ==> '<' !in r.value && '>' !in r.value
    ensures r.Some? ==> AfterFirst(line, "<").Some? && StartsWith(AfterFirst(line, "<").value, r.value)
    ensures r.Some? ==> |r.value| == |AfterFirst(line, "<").value| || AfterFirst(line, "<").value[|r.value|] in "<>"
  {
    match AfterFirst(line, "<")
    case None =>
      assert '<' !in line by {
        if '<' in line {
          var i :| 0 <= i < |line| && line[i] == '<';
          assert OccursAt(line, "<", i);
        }
      }
      None
    case Some(a) =>
      assert '<' in line by {
        var i :| 0 <= i <= |line| && OccursAt(line, "<", i);
        assert line[i..i + 1][0] == line[i];
      }
      var b := BeforeFirst(a, "<");
      var c := BeforeFirst(b, ">");
      NoCharBeforeFirst(a, '<');
      NoCharBeforeFirst(b, '>');
      assert c == b[..|c|];
      StopsAtBracket(a, b, c);
      Some(c)
  }

  lemma StopsAtBracket(a: string, b: string, c: string)
    requires StartsWith(a, b) && (b == a || OccursAt(a, "<", |b|))
    requires StartsWith(b, c) && (c == b || OccursAt(b, ">", |c|))
    ensures StartsWith(a, c)
    ensures |c| == |a| || a[|c|] in "<>"
  {
    if c != b {
      assert a[|c|] == b[|c|] == b[|c|..|c| + 1][0];
    } else if b != a {
      assert a[|b|] == a[|b|..|b| + 1][0];
    }
  }

  lemma NoCharBeforeFirst(s: string, c: char)
    ensures c !in BeforeFirst(s, [c])
  {
    var r := BeforeFirst(s, [c]);
    forall i | 0 <= i < |r| ensures r[i] != c {
      assert !OccursAt(s, [c], i);
      assert s[i..i + 1] == [s[i]];
    }
  }

  /** `install_cdp` / `install_from_path`: the identifier in the first line. */
  function InstalledId(inv: Invocation): (r: Result<string, Exc>)
    ensures r.Ok? ==> '<' !in r.value && '>' !in r.value
  {
    match RunCommand(inv)
    case Err(e) => Err(e)
    case Ok(lines) =>
      if lines == [] then Err(Builtin(IndexError))
      else match BracketedId(lines[0])
        case Some(id) => Ok(id)
        case None => Err(Builtin(IndexError))
  }

  lemma NoBracketsInLower(s: string)
    requires '<' !in Lower(s) && '>' !in Lower(s)
    ensures '<' !in s && '>' !in s
  {
    forall i | 0 <= i < |s| ensures s[i] != '<' && s[i] != '>' {
      assert Lower(s)[i] == LowerChar(s[i]);
      assert Lower(s)[i] in Lower(s);
    }
  }

  lemma ShapeHasNoBrackets(s: string)
    requires KuidShape(s)
    ensures '<' !in s && '>' !in s
  {
    if |s| >= 5 && Lower(s[..5]) == "kuid:" && NumberFields(s[5..], 2) {
      NumberFieldsChars(s[5..], 2);
      PrefixedNumbersNoBrackets(s, 5, "kuid:");
    } else if |s| >= 6 && Lower(s[..6]) == "kuid2:" && NumberFields(s[6..], 3) {
      NumberFieldsChars(s[6..], 3);
      PrefixedNumbersNoBrackets(s, 6, "kuid2:");
    } else {
      assert Lower(s) == "null";
    }
    NoBracketsInLower(s);
  }

  lemma PrefixedNumbersNoBrackets(s: string, n: nat, p: string)
    requires n <= |s| && Lower(s[..n]) == p && '<' !in p && '>' !in p
    requires NumericText(s[n..])
    ensures '<' !in Lower(s) && '>' !in Lower(s)
  {
    var t := Lower(s);
    LowerFixesNumbers(s[n..]);
    LowerSlice(s, 0, n);
    LowerSlice(s, n, |s|);
    forall i | n <= i < |t| ensures t[i] != '<' && t[i] != '>' {
      assert t[i] == t[n..][i - n] == s[n..][i - n];
    }
    forall i | 0 <= i < n ensures t[i] != '<' && t[i] != '>' {
      assert t[i] == t[..n][i] == p[i];
    }
  }

  lemma ValidHasNoBrackets(k: Kuid)
    requires Valid(k)
    ensures '<' !in k.text && '>' !in k.text
  {
    var t := k.text;
    if KuidShape(t) {
      ShapeHasNoBrackets(t);
    } else {
      var c := t[..|t| - 1];
      ShapeHasNoBrackets(c);
      assert t == c + ['\n'];
    }
  }

  /** The bracketed text is found when nothing before it holds a `<` and it
      holds no bracket itself. */
  lemma BracketedIdOf(before: string, t: string, after: string)
    requires '<' !in before && '<' !in t && '>' !in t
    ensures BracketedId(before + "<" + t + ">" + after) == Some(t)
  {
    var a := t + ">" + after;
    var line := before + "<" + t + ">" + after;
    assert line == before + "<" + a;
    FindSingleChar(before, '<', a);
    assert line[|before| + 1..] == a;
    assert AfterFirst(line, "<") == Some(a);
    FirstAbsent(a, '<', t + ">");
    var b := BeforeFirst(a, "<");
    assert b[|t|] == '>';
    FindSingleCharPrefix(b, t);
  }

  /** A reply that mentions the installed identifier as `<kuid>` yields it. */
  lemma InstallReportsKuid(before: string, k: Kuid, after: string)
    requires Valid(k)
    requires '<' !in before && (before == [] || before[0] != '-')
    ensures InstalledId(Finished([before + Repr(k) + after], 0)) == Ok(k.text)
  {
    ValidHasNoBrackets(k);
    ReprLine(before, k, after);
    BracketedIdOf(before, k.text, after);
    PlainReply(before + Repr(k) + after);
  }

  /** A line holding a representation spells out its brackets, and starts
      with `<` when nothing comes before it. */
  lemma ReprLine(before: string, k: Kuid, after: string)
    requires before == [] || before[0] != '-'
    ensures before + Repr(k) + after == before + "<" + k.text + ">" + after
    ensures (before + Repr(k) + after)[0] != '-'
  {
    var line := before + Repr(k) + after;
    if before == [] { assert line[0] == '<'; } else { assert line[0] == before[0]; }
  }

  lemma FindSingleChar(x: string, c: char, y: string)
    requires c !in x
    ensures Find(x + [c] + y, [c]) == Some(|x|)
  {
    var s := x + [c] + y;
    assert OccursAt(s, [c], |x|);
    forall j | 0 <= j < |x| ensures !OccursAt(s, [c], j) {
      assert s[j] == x[j];
      assert x[j] in x;
    }
  }

  lemma FirstAbsent(a: string, c: char, p: string)
    requires StartsWith(a, p) && c !in p
    ensures StartsWith(BeforeFirst(a, [c]), p)
  {
    forall i | 0 <= i < |p| ensures !OccursAt(a, [c], i) {
      assert a[i] == p[i];
      assert p[i] in p;
    }
  }

  lemma FindSingleCharPrefix(b: string, x: string)
    requires StartsWith(b, x) && |b| > |x| && b[|x|] == '>' && '>' !in x
    ensures BeforeFirst(b, ">") == x
  {
    assert b == x + ">" + b[|x| + 1..];
    FindSingleChar(x, '>', b[|x| + 1..]);
  }

  /** `commit_asset`, `revert_asset`, `delete_asset`: false on a process
      error, true on success; a tool failure or a timeout propagates. */
  function Acknowledge(inv: Invocation): (r: Result<bool, Exc>)
    ensures r == Ok(true) <==> RunCommand(inv).Ok?
    ensures r == Ok(false) <==> RunCommand(inv).Err? && RunCommand(inv).error.CalledProcessError?
    ensures r.Err? ==> RunCommand(inv) == Err(r.error) && !r.error.CalledProcessError?
  {
    match RunCommand(inv)
    case Ok(_) => Ok(true)
    case Err(CalledProcessError(_)) => Ok(false)
    case Err(e) => Err(e)
  }

  /** A failure line wins over the exit code: the acknowledgement raises. */
  lemma AcknowledgeRaisesOnFailureLine(code: string, message: string, rc: int)
    requires ' ' !in code && ':' !in code
    ensures Acknowledge(Finished([FailureLine(code, message)], rc)) == Err(TrainzError(Strip(message)))
  {
    var line := FailureLine(code, message);
    assert [] + [line] + [] == [line];
    FailureLineRaises([], code, message, [], rc);
    AcknowledgePropagates(Finished([line], rc), TrainzError(Strip(message)));
  }

  lemma AcknowledgePropagates(inv: Invocation, e: Exc)
    requires RunCommand(inv) == Err(e) && !e.CalledProcessError?
    ensures Acknowledge(inv) == Err(e)
  {
  }

  /** `status_asset`: the field between the first and second separators of
      the first line; shorter than seven characters is a `TrainzError`;
      otherwise flag `i` is set iff character `i` is `EIADLMF`[i]. */
  function StatusAsset(inv: Invocation): (r: Result<AssetStatus, Exc>)
    ensures RunCommand(inv).Err? ==> r == Err(RunCommand(inv).error)
    ensures r.Ok? ==> RunCommand(inv).Ok? && RunCommand(inv).value != []
                      && AfterFirst(RunCommand(inv).value[0], Separator).Some?
  {
    match RunCommand(inv)
    case Err(e) => Err(e)
    case Ok(lines) =>
      if lines == [] then Err(Builtin(IndexError))
      else match AfterFirst(lines[0], Separator)
        case None => Err(Builtin(IndexError))
        case Some(rest) =>
          var status := BeforeFirst(rest, Separator);
          if |status| < 7 then Err(TrainzError("Invalid status: " + status))
          else Ok(Flags(status))
  }

  function Flags(status: string): AssetStatus
    requires |status| >= 7
  {
    AssetStatus(status[0] == 'E', status[1] == 'I', status[2] == 'A', status[3] == 'D',
                status[4] == 'L', status[5] == 'M', status[6] == 'F')
  }

  function Letter(set_: bool, i: nat): char
    requires i < 7
  {
    if set_ then StatusLetters[i] else '-'
  }

  /** The seven-character status field for a set of flags. */
  function StatusField(st: AssetStatus): (f: string)
    ensures |f| == 7
  {
    [Letter(st.openForEdit, 0), Letter(st.installed, 1), Letter(st.archived, 2),
     Letter(st.downloadStation, 3), Letter(st.modified, 4), Letter(st.missingDependencies, 5),
     Letter(st.faulty, 6)]
  }

  lemma FlagsOfField(st: AssetStatus)
    ensures Flags(StatusField(st)) == st
  {
  }

  lemma StatusFieldOfLine(name: string, f: string, rest: string)
    requires ' ' !in name && ' ' !in f
    ensures AfterFirst(name + Separator + f + Separator + rest, Separator) == Some(f + Separator + rest)
    ensures BeforeFirst(f + Separator + rest, Separator) == f
  {
    var tail := f + Separator + rest;
    var line := name + Separator + tail;
    assert name + Separator + f + Separator + rest == line;
    FindAfterSpaceFree(name, tail);
    assert line[|name| + 3..] == tail;
    FindAfterSpaceFree(f, rest);
    assert tail[..|f|] == f;
  }

  /** A `status` reply `<name> : <field> : <rest>` decodes back to the flags
      the field encodes. */
  lemma StatusRoundTrip(name: string, st: AssetStatus, rest: string)
    requires ' ' !in name && name != [] && name[0] != '-'
    ensures StatusAsset(Finished([name + Separator + StatusField(st) + Separator + rest], 0)) == Ok(st)
  {
    var f := StatusField(st);
    var line := name + Separator + f + Separator + rest;
    assert line[0] == name[0];
    PlainReply(line);
    assert ' ' !in f;
    StatusFieldOfLine(name, f, rest);
    FlagsOfField(st);
  }

  /** Flag `i` of a status, in the order of `EIADLMF`. */
  function Flag(st: AssetStatus, i: nat): bool
    requires i < 7
  {
    match i
    case 0 => st.openForEdit
    case 1 => st.installed
    case 2 => st.archived
    case 3 => st.downloadStation
    case 4 => st.modified
    case 5 => st.missingDependencies
    case _ => st.faulty
  }

  /** Any field of at least seven characters decodes: flag `i` is set iff
      character `i` is the `i`-th letter of `EIADLMF`; later characters are
      ignored. */
  lemma StatusOfLine(name: string, f: string, rest: string)
    requires ' ' !in name && name != [] && name[0] != '-'
    requires ' ' !in f && |f| >= 7
    ensures StatusAsset(Finished([name + Separator + f + Separator + rest], 0)) == Ok(Flags(f))
    ensures forall i :: 0 <= i < 7 ==> (Flag(Flags(f), i) <==> f[i] == StatusLetters[i])
  {
    var line := name + Separator + f + Separator + rest;
    assert line[0] == name[0];
    PlainReply(line);
    StatusFieldOfLine(name, f, rest);
  }

  /** A status field shorter than seven characters is rejected with the
      field in the message. */
  lemma ShortStatusRejected(name: string, f: string, rest: string)
    requires ' ' !in name && name != [] && name[0] != '-'
    requires ' ' !in f && |f| < 7
    ensures StatusAsset(Finished([name + Separator + f + Separator + rest], 0)) == Err(TrainzError("Invalid status: " + f))
  {
    var line := name + Separator + f + Separator + rest;
    assert line[0] == name[0];
    PlainReply(line);
    StatusFieldOfLine(name, f, rest);
  }

  lemma FindAfterSpaceFree(x: string, y: string)
    requires ' ' !in x
    ensures Find(x + Separator + y, Separator) == Some(|x|)
  {
    var s := x + Separator + y;
    assert s[|x|..|x| + 3] == Separator;
    assert OccursAt(s, Separator, |x|);
    forall j | 0 <= j < |x| ensures !OccursAt(s, Separator, j) {
      assert s[j] == x[j];
      assert x[j] in x;
    }
  }
}

=== FILE: urlname.dfy ===
/** Where a download lands (usb_installer/downloader/client.py, lines 45-46):
    the last `/` segment of the URL path as `urlparse` splits it,
    percent-decoded to bytes as in section 2.1 of RFC 3986, and the
    temporary name with `.part` appended. */
module Urls {
  import opened Base
  import opened PyStr

  /** What `urlsplit` returns. */
  datatype SplitUrl = SplitUrl(scheme: string, netloc: string, path: string, query: string, fragment: string)

  /** `lstrip` of the C0 controls and space, as `urlsplit` does first. */
  function LStripControls(s: string): (r: string)
    ensures |r| <= |s| && r == s[|s| - |r|..]
    ensures r == [] || r[0] > ' '
    ensures forall i :: 0 <= i < |s| - |r| ==> s[i] <= ' '
  {
    if s != [] && s[0] <= ' ' then LStripControls(s[1..]) else s
  }

  /** Tab, CR and LF, which `urlsplit` deletes anywhere in the URL. */
  predicate Unsafe(c: char) {
    c == '\t' || c == '\r' || c == '\n'
  }

  predicate Safe(s: string) {
    forall i :: 0 <= i < |s| ==> !Unsafe(s[i])
  }

  function RemoveUnsafe(s: string): (r: string)
    ensures Safe(r)
    ensures |r| <= |s|
    ensures Safe(s) ==> r == s
  {
    if s == [] then []
    else (if Unsafe(s[0]) then [] else [s[0]]) + RemoveUnsafe(s[1..])
  }

  predicate IsAsciiLetter(c: char) {
    'a' <= c <= 'z' || 'A' <= c <= 'Z'
  }

  predicate IsSchemeChar(c: char) {
    IsAsciiLetter(c) || IsDigit(c) || c == '+' || c == '-' || c == '.'
  }

  /** The scheme is the text before the first `:` when it is non-empty,
      starts with an ASCII letter and holds only scheme characters; it is
      lower-cased and dropped from the rest together with the colon. */
  function SplitScheme(url: string): (r: (string, string))
    ensures |r.1| <= |url| && r.1 == url[|url| - |r.1|..]
    ensures r.0 == [] ==> r.1 == url
    ensures r.0 != [] ==>
              && |r.0| < |url| && url[|r.0|] == ':' && r.0 == Lower(url[..|r.0|])
              && IsAsciiLetter(url[0]) && r.1 == url[|r.0| + 1..]
  {
    match Find(url, ":")
    case Some(i) =>
      if i > 0 && IsAsciiLetter(url[0]) && forall k :: 0 <= k < i ==> IsSchemeChar(url[k]) then
        assert url[i..i + 1] == ":";
        (Lower(url[..i]), url[i + 1..])
      else ("", url)
    case None => ("", url)
  }

  predicate IsNetlocDelimiter(c: char) {
    c == '/' || c == '?' || c == '#'
  }

  /** The first index at or after `from` holding `/`, `?` or `#`, or `|s|`. */
  function DelimiterFrom(s: string, from: nat): (n: nat)
    requires from <= |s|
    ensures from <= n <= |s|
    ensures forall k :: from <= k < n ==> !IsNetlocDelimiter(s[k])
    ensures n < |s| ==> IsNetlocDelimiter(s[n])
    decreases |s| - from
  {
    if from == |s| || IsNetlocDelimiter(s[from]) then from else DelimiterFrom(s, from + 1)
  }

  /** `s.split(c, 1)` when `c in s`, else `s` and an empty remainder. */
  function CutAt(s: string, c: char): (r: (string, string))
    ensures c !in r.0
    ensures c in s ==> s == r.0 + [c] + r.1
    ensures c !in s ==> r == (s, [])
  {
    var n := IndexOf(s, c);
    if n == |s| then (s, [])
    else
      assert s == s[..n] + [c] + s[n + 1..];
      (s[..n], s[n + 1..])
  }

  /** `//netloc` at the start of what follows the scheme, up to the first
      `/`, `?` or `#`. */
  function SplitNetloc(a: string): (r: (string, string))
    ensures |r.1| <= |a| && r.1 == a[|a| - |r.1|..]
    ensures !StartsWith(a, "//") ==> r == ([], a)
  {
    if StartsWith(a, "//") then
      var d := DelimiterFrom(a, 2);
      (a[2..d], a[d..])
    else ([], a)
  }

  /** Netloc, path, query and fragment of what follows the scheme. */
  function SplitAfterScheme(a: string): (r: (string, string, string, string))
    ensures Safe(a) ==> Safe(r.1)
    ensures '#' !in r.1 && '?' !in r.1
  {
    var (netloc, b) := SplitNetloc(a);
    var (c, fragment) := CutAt(b, '#');
    var (path, query) := CutAt(c, '?');
    SafeSuffix(a, |a| - |b|);
    CutKeeps(b, '#', '#');
    CutKeeps(c, '?', '#');
    (netloc, path, query, fragment)
  }

  /** The part before the cut is a prefix: it is safe when the text is, and
      lacks every character the text lacks. */
  lemma CutKeeps(s: string, c: char, d: char)
    ensures Safe(s) ==> Safe(CutAt(s, c).0)
    ensures d !in s ==> d !in CutAt(s, c).0
  {
    var n := IndexOf(s, c);
    if n < |s| {
      assert CutAt(s, c).0 == s[..n];
      assert forall i :: 0 <= i < n ==> s[..n][i] == s[i];
    }
  }

  lemma SafeSuffix(s: string, k: nat)
    requires k <= |s|
    ensures Safe(s) ==> Safe(s[k..])
  {
    assert forall i :: 0 <= i < |s| - k ==> s[k..][i] == s[k + i];
  }

  /** `urlsplit(url)`: strip, scheme, `//netloc`, `#fragment`, `?query`. */
  function Split(url: string): (r: SplitUrl)
    ensures Safe(r.path) && '#' !in r.path && '?' !in r.path
  {
    var u := RemoveUnsafe(LStripControls(url));
    var (scheme, a) := SplitScheme(u);
    SafeSuffix(u, |u| - |a|);
    var (netloc, path, query, fragment) := SplitAfterScheme(a);
    SplitUrl(scheme, netloc, path, query, fragment)
  }

  /** The schemes whose last path segment may carry `;params`. */
  predicate UsesParams(scheme: string) {
    scheme in ["", "ftp", "hdl", "prospero", "http", "imap", "https", "shttp",
               "rtsp", "rtsps", "rtspu", "sip", "sips", "mms", "sftp", "tel"]
  }

  /** Index of the last occurrence of `c`, if any. */
  function LastIndexOf(s: string, c: char): (r: Option<nat>)
    ensures r.Some? ==> r.value < |s| && s[r.value] == c
    ensures r.Some? ==> forall k :: r.value < k < |s| ==> s[k] != c
    ensures r.None? ==> c !in s
  {
    if s == [] then None
    else if s[|s| - 1] == c then Some(|s| - 1)
    else LastIndexOf(s[..|s| - 1], c)
  }

  /** `_splitparams`: the path up to the first `;` after its last `/`, or up to
      its first `;` when it has no `/`. */
  function SplitParams(path: string): (r: string)
    ensures StartsWith(path, r)
  {
    match LastIndexOf(path, '/')
    case Some(i) =>
      (match FindFrom(path, ";", i) case Some(j) => path[..j] case None => path)
    case None =>
      (match Find(path, ";") case Some(j) => path[..j] case None => path)
  }

  /** `urlparse(url).path`. */
  function UrlPath(url: string): string {
    var p := Split(url);
    if UsesParams(p.scheme) && ';' in p.path then SplitParams(p.path) else p.path
  }

  /** `path.split("/")[-1]`. */
  function LastSegment(path: string): (r: string)
    ensures '/' !in r
  {
    var parts := SplitChar(path, '/');
    parts[|parts| - 1]
  }

  predicate IsHex(c: char) {
    '0' <= c <= '9' || 'a' <= c <= 'f' || 'A' <= c <= 'F'
  }

  function HexValue(c: char): (v: nat)
    requires IsHex(c)
    ensures v < 16
  {
    if '0' <= c <= '9' then c as int - '0' as int
    else if 'a' <= c <= 'f' then c as int - 'a' as int + 10
    else c as int - 'A' as int + 10
  }

  /** `unquote` taken to bytes: `%` and two hex digits is that byte, any other
      character its UTF-8 encoding. */
  function PercentDecode(s: string): (r: seq<byte>)
    ensures |r| <= 4 * |s|
  {
    if s == [] then []
    else if s[0] == '%' && |s| >= 3 && IsHex(s[1]) && IsHex(s[2]) then
      [(16 * HexValue(s[1]) + HexValue(s[2])) as byte] + PercentDecode(s[3..])
    else Utf8Char(s[0]) + PercentDecode(s[1..])
  }

  /** The local file name of a download. */
  function LocalName(url: string): seq<byte> {
    PercentDecode(LastSegment(UrlPath(url)))
  }

  /** The temporary name the download is streamed to. */
  function PartName(name: seq<byte>): (r: seq<byte>)
    ensures |r| == |name| + 5 && r[..|name|] == name
    ensures r[|name|..] == Utf8(".part")
  {
    name + Utf8(".part")
  }

  /** Different downloads never share a temporary file. */
  lemma PartNameInjective(a: seq<byte>, b: seq<byte>)
    requires PartName(a) == PartName(b)
    ensures a == b
  {
    assert a == PartName(a)[..|a|];
  }

  // ---------------------------------------------------------------------
  // The inverse direction: `quote(b, safe="")`.

  /** Characters `quote` leaves alone: ASCII letters, digits and `_.-~`. */
  predicate UnreservedChar(c: char) {
    IsAsciiLetter(c) || IsDigit(c) || c == '_' || c == '.' || c == '-' || c == '~'
  }

  predicate Unreserved(b: byte) {
    UnreservedChar(b as int as char)
  }

  function HexDigit(d: nat): (c: char)
    requires d < 16
    ensures IsHex(c) && HexValue(c) == d
  {
    if d < 10 then ('0' as int + d) as char else ('A' as int + d - 10) as char
  }

  function QuoteByte(b: byte): (r: string)
    ensures forall i :: 0 <= i < |r| ==> r[i] == '%' || IsHex(r[i]) || UnreservedChar(r[i])
  {
    if Unreserved(b) then [b as int as char]
    else ['%', HexDigit(b as int / 16), HexDigit(b as int % 16)]
  }

  /** Percent-encoding of a byte string with no character left as is except
      the unreserved ones. */
  function Quote(bs: seq<byte>): (r: string)
    ensures forall i :: 0 <= i < |r| ==> r[i] == '%' || IsHex(r[i]) || UnreservedChar(r[i])
  {
    if bs == [] then [] else QuoteByte(bs[0]) + Quote(bs[1..])
  }

  lemma DecodeQuoteByte(b: byte, rest: string)
    ensures PercentDecode(QuoteByte(b) + rest) == [b] + PercentDecode(rest)
  {
    var s := QuoteByte(b) + rest;
    if Unreserved(b) {
      assert s[0] == b as int as char && s[1..] == rest;
    } else {
      assert s[..3] == QuoteByte(b) && s[3..] == rest;
      assert 16 * (b as int / 16) + b as int % 16 == b as int;
    }
  }

  /** Decoding undoes `quote`. */
  lemma {:induction false} DecodeQuote(bs: seq<byte>)
    ensures PercentDecode(Quote(bs)) == bs
  {
    if bs != [] {
      DecodeQuoteByte(bs[0], Quote(bs[1..]));
      DecodeQuote(bs[1..]);
    }
  }

  /** `quote` output never holds a path, query, fragment or params delimiter. */
  lemma QuoteIsPlain(bs: seq<byte>)
    ensures Safe(Quote(bs))
    ensures '/' !in Quote(bs) && '?' !in Quote(bs) && '#' !in Quote(bs) && ';' !in Quote(bs)
  {
    var q := Quote(bs);
    forall i | 0 <= i < |q|
      ensures q[i] != '/' && q[i] != '?' && q[i] != '#' && q[i] != ';' && !Unsafe(q[i])
    {
    }
  }

  // ---------------------------------------------------------------------
  // The last segment of a path.

  /** The last segment is what follows the last `/`. */
  lemma {:induction false} LastSegmentAfterSlash(dir: string, seg: string)
    requires '/' !in seg
    ensures LastSegment(dir + "/" + seg) == seg
    decreases |dir|
  {
    var s := dir + "/" + seg;
    var n := IndexOf(s, '/');
    if n < |dir| {
      assert dir[n] == '/';
      var d := dir[n + 1..];
      assert s[n + 1..] == d + "/" + seg;
      assert SplitChar(s, '/') == [s[..n]] + SplitChar(d + "/" + seg, '/');
      LastSegmentAfterSlash(d, seg);
    } else {
      assert '/' !in dir by {
        forall k | 0 <= k < |dir| ensures dir[k] != '/' { assert s[k] == dir[k]; }
      }
      SplitCharAppend(dir, '/', seg);
      assert s == dir + ['/'] + seg;
      SplitCharFree(seg, '/');
    }
  }

  lemma NoParamsNoCut(url: string)
    requires ';' !in Split(url).path
    ensures UrlPath(url) == Split(url).path
  {
  }

  // ---------------------------------------------------------------------
  // An `https` URL with a host, a path and a query.

  function HttpsUrl(host: string, rest: string, query: string): string {
    "https://" + host + "/" + rest + "?" + query
  }

  lemma SchemeOfHttps(a: string)
    ensures SplitScheme("https:" + a) == ("https", a)
  {
    var u := "https:" + a;
    assert OccursAt(u, ":", 5);
    forall j | 0 <= j < 5 ensures !OccursAt(u, ":", j) {
      assert u[j] in "https";
    }
    assert Find(u, ":") == Some(5);
    assert u[..5] == "https";
    forall k | 0 <= k < 5 ensures IsSchemeChar(u[k]) {
      assert u[k] == "https"[k];
    }
    assert Lower("https") == "https";
    assert u[6..] == a;
  }

  lemma NetlocOfHost(host: string, b: string)
    requires forall k :: 0 <= k < |host| ==> !IsNetlocDelimiter(host[k])
    requires b != [] && b[0] == '/'
    ensures DelimiterFrom("//" + host + b, 2) == 2 + |host|
  {
    var a := "//" + host + b;
    assert forall k :: 2 <= k < 2 + |host| ==> a[k] == host[k - 2];
    assert a[2 + |host|] == '/';
  }

  lemma SafeConcat(a: string, b: string)
    requires Safe(a) && Safe(b)
    ensures Safe(a + b)
  {
    forall i | 0 <= i < |a + b| ensures !Unsafe((a + b)[i]) {
      if i >= |a| { assert (a + b)[i] == b[i - |a|]; }
    }
  }

  lemma SafeHttpsUrl(host: string, rest: string, query: string)
    requires Safe(host) && Safe(rest) && Safe(query)
    ensures Safe(HttpsUrl(host, rest, query))
  {
    SafeConcat("https://", host);
    SafeConcat("https://" + host, "/");
    SafeConcat("https://" + host + "/", rest);
    SafeConcat("https://" + host + "/" + rest, "?");
    SafeConcat("https://" + host + "/" + rest + "?", query);
  }

  /** After the scheme, `//host/rest?query` splits into its parts. */
  lemma PartsOfHttpsUrl(host: string, rest: string, query: string)
    requires forall k :: 0 <= k < |host| ==> !IsNetlocDelimiter(host[k])
    requires '?' !in rest && '#' !in rest && '#' !in query
    ensures SplitAfterScheme("//" + host + "/" + rest + "?" + query).1 == "/" + rest
  {
    var b := "/" + rest + "?" + query;
    var a := "//" + host + b;
    assert "//" + host + "/" + rest + "?" + query == a;
    NetlocSplit(host, b);
    PathOfRest(rest, query);
    PathOfSplit(a);
  }

  /** The path part is what is left after the netloc, without fragment and query. */
  lemma PathOfSplit(a: string)
    ensures SplitAfterScheme(a).1 == CutAt(CutAt(SplitNetloc(a).1, '#').0, '?').0
  {
  }

  lemma NetlocSplit(host: string, b: string)
    requires forall k :: 0 <= k < |host| ==> !IsNetlocDelimiter(host[k])
    requires b != [] && b[0] == '/'
    ensures SplitNetloc("//" + host + b).1 == b
  {
    var a := "//" + host + b;
    NetlocOfHost(host, b);
    assert a[..2] == "//";
    assert a[2 + |host|..] == b;
  }

  lemma PathOfRest(rest: string, query: string)
    requires '?' !in rest && '#' !in rest && '#' !in query
    ensures var b := "/" + rest + "?" + query;
      CutAt(b, '#') == (b, []) && CutAt(b, '?').0 == "/" + rest
  {
    var b := "/" + rest + "?" + query;
    assert b == ("/" + rest) + (['?'] + query);
    assert '#' !in "/" + rest;
    assert '#' !in b;
    IndexOfPrefixFree("/" + rest, '?', ['?'] + query);
    assert b[..1 + |rest|] == "/" + rest;
  }

  /** For `https://host/rest?query`, the scheme is `https` and the path `/rest`. */
  lemma PathOfHttpsUrl(host: string, rest: string, query: string)
    requires Safe(host) && Safe(rest) && Safe(query)
    requires forall k :: 0 <= k < |host| ==> !IsNetlocDelimiter(host[k])
    requires '?' !in rest && '#' !in rest && '#' !in query
    ensures Split(HttpsUrl(host, rest, query)).path == "/" + rest
    ensures Split(HttpsUrl(host, rest, query)).scheme == "https"
  {
    var url := HttpsUrl(host, rest, query);
    var a := "//" + host + "/" + rest + "?" + query;
    assert url == "https:" + a;
    assert LStripControls(url) == url;
    SafeHttpsUrl(host, rest, query);
    assert RemoveUnsafe(url) == url;
    SchemeOfHttps(a);
    PartsOfHttpsUrl(host, rest, query);
  }

  lemma SlashSegmentFree(dir: string, seg: string)
    requires '?' !in dir && '#' !in dir && ';' !in dir
    requires '?' !in seg && '#' !in seg && ';' !in seg
    ensures '?' !in dir + "/" + seg && '#' !in dir + "/" + seg && ';' !in dir + "/" + seg
  {
  }

  /** Without `;`, the path of `https://host/rest?query` is `/rest`. */
  lemma UrlPathOfHttpsUrl(host: string, rest: string, query: string)
    requires Safe(host) && Safe(rest) && Safe(query)
    requires forall k :: 0 <= k < |host| ==> !IsNetlocDelimiter(host[k])
    requires '?' !in rest && '#' !in rest && ';' !in rest && '#' !in query
    ensures UrlPath(HttpsUrl(host, rest, query)) == "/" + rest
  {
    var url := HttpsUrl(host, rest, query);
    PathOfHttpsUrl(host, rest, query);
    SemicolonFree(rest);
    NoParamsNoCut(url);
  }

  lemma SemicolonFree(rest: string)
    requires ';' !in rest
    ensures ';' !in "/" + rest
  {
    assert forall i :: 1 <= i < |"/" + rest| ==> ("/" + rest)[i] == rest[i - 1];
  }

  lemma SlashJoin(dir: string, seg: string)
    ensures "/" + (dir + "/" + seg) == ("/" + dir) + "/" + seg
  {
  }

  /** The local name of `https://host/dir/seg?query` is `seg`, decoded. */
  lemma LocalNameOfHttpsUrl(host: string, dir: string, seg: string, query: string)
    requires Safe(host) && Safe(dir) && Safe(seg) && Safe(query)
    requires forall k :: 0 <= k < |host| ==> !IsNetlocDelimiter(host[k])
    requires '?' !in dir && '#' !in dir && ';' !in dir
    requires '?' !in seg && '#' !in seg && ';' !in seg && '/' !in seg
    requires '#' !in query
    ensures LocalName(HttpsUrl(host, dir + "/" + seg, query)) == PercentDecode(seg)
  {
    var rest := dir + "/" + seg;
    SafeConcat(dir, "/");
    SafeConcat(dir + "/", seg);
    SlashSegmentFree(dir, seg);
    UrlPathOfHttpsUrl(host, rest, query);
    var path := UrlPath(HttpsUrl(host, rest, query));
    SlashJoin(dir, seg);
    LastSegmentAfterSlash("/" + dir, seg);
    assert LastSegment(path) == seg;
  }

  /** A file name quoted into an `https` URL comes back as the local name. */
  lemma LocalNameOfQuoted(host: string, dir: string, name: seq<byte>, query: string)
    requires Safe(host) && Safe(dir) && Safe(query)
    requires forall k :: 0 <= k < |host| ==> !IsNetlocDelimiter(host[k])
    requires '?' !in dir && '#' !in dir && ';' !in dir && '#' !in query
    ensures LocalName(HttpsUrl(host, dir + "/" + Quote(name), query)) == name
  {
    QuoteIsPlain(name);
    LocalNameOfHttpsUrl(host, dir, Quote(name), query);
    DecodeQuote(name);
  }
}
